=== FILE: README.md ===
# logic2j inference kernel, modelled in Dafny

This project models the core of logic2j, a Prolog inference engine written in
Java, as immutable Dafny datatypes and pure functions, and proves properties
of that model. It covers the following parts:

- **Term model.** Structures (atoms, compounds and Prolog lists), variables
  and `long` numbers, with the structural utilities of `Struct`, `Var` and
  `Term`. This includes cloning, `equals` against `staticallyEquals`,
  `findVar`, the list helpers and predicate indicators (`terms.dfy`).
- **Normalization.** This is `TermApi.factorize`, `assignIndexes` and
  `assignPrimitiveInfo`, composed into `normalize` (`factorize.dfy`,
  `normalize.dfy`).
- **Variable bindings.** Each frame of bindings holds one slot per variable
  offset. A slot is free, holds a literal term in some frame, or links to
  another slot. The trail records bindings and their marks, so unification
  can be undone (`bindings.dfy`).
- **Unifiers.** The default unifier and the delegating unifier, with the
  delegating unifier's reflective dispatch written out as a match on the
  kinds of the two terms (`unifier.dfy`, `delegating.dfy`).
- **`TermApi`.** Value conversion, predicate signatures, the TPath selector,
  cloning through a remapping table and `requireStruct` (`termapi.dfy`).
- **Marshalling.** The default term marshaller, in canonical form and in
  operator form (`marshaller.dfy`).
- **Primitives.** The `LibraryBase` helpers and the `CoreLibrary`
  primitives: `true`, `fail`, `var`, `!`, `=`, `\=`, `\+`, `findall`, `=..`,
  `is`, `>`, `<`, `+`, `-`, `*` and unary `-` (`library.dfy`). The
  evaluation behind `is`, `>`, `<` and `TermApi.evaluate` is given in two
  readings, selected by an `asWritten` flag: as the Java code does it, and
  with the third finding below corrected.
- **Solutions.** The solution counter of `SolutionListenerBase` and the
  `MultipleSolutionsHolder` (`solutions.dfy`).
- **Clauses.** Clauses of a theory (`clause.dfy`).

The model follows the Java classes with these conventions:

- Java object identity is an `id: nat` carried by structures and variables.
  Operations that allocate objects take the first free id and return the
  next one.
- A Java exception is the error case of a `Result`, named after the
  exception class.
- Java `long` and `int` arithmetic is wrapped explicitly (`Wrap64`,
  `Wrap32`).
- Recursion that may not terminate in Java, such as chains of links or
  cyclic bindings (there is no occurs check), takes a `fuel` argument. When
  the fuel runs out, the result is the `StackExhausted` error, which stands
  for the `StackOverflowError` the Java code would raise.
- The solver and the term factory are not modelled. They reach the
  primitives as the functions of an `Engine` parameter:
  - `answer` is the listener's reply to a solution;
  - `solve` is the solutions of a sub-goal;
  - `create` is the term factory;
  - `foreign` is the functors of other libraries.

## Model

| member | source | states |
|---|---|---|
| Text.ParseInt | src/main/java/org/logic2j/core/api/model/symbol/TermApi.java:418-427 | `Integer.parseInt` as the TPath index reader uses it: a value is always within the Java `int` range, a failure is always a NumberFormatException, the empty text fails, and a run of digits whose value fits reads as that decimal value |
| Text.ParseIntRoundTrip | src/main/java/org/logic2j/core/api/model/symbol/TermApi.java:418-427 | every Java `int` written in decimal reads back as itself |
| Text.ParseSigned | src/main/java/org/logic2j/core/api/model/symbol/TermApi.java:418-427 | a sign followed by digits: `-` negates the value and `+` keeps it, each a NumberFormatException once the value leaves the `int` range |
| Text.NatToStringRoundTrip | src/main/java/org/logic2j/model/symbol/Struct.java:236-238 | the arity written into an indicator reads back as the arity |
| Text.IndexOf | src/main/java/org/logic2j/core/api/model/symbol/TermApi.java:411-418 | `indexOf` finds the first occurrence of the character, and -1 exactly when there is none |
| Text.NatToString | src/main/java/org/logic2j/core/impl/DefaultTermMarshaller.java:134-136 | the decimal text of a number is a non-empty run of digits without a leading zero |
| Text.IntToString | src/main/java/org/logic2j/core/impl/DefaultTermMarshaller.java:134-136 | the decimal text of a `long` starts with '-' exactly when it is negative |
| Terms.Wrap64 | src/main/java/org/logic2j/core/library/impl/core/CoreLibrary.java:286-299 | Java `long` arithmetic: the result is congruent to the exact value modulo 2^64 and equal to it when it fits |
| Terms.NewStruct | src/main/java/org/logic2j/model/symbol/Struct.java:87-95 | a structure is built exactly when the functor is not null, is empty only for an atom, and no argument is null; otherwise InvalidTermException; the arguments are kept in order and the term is not yet indexed |
| Terms.PresentArgs | src/main/java/org/logic2j/model/symbol/Struct.java:87-95 | a null argument anywhere refuses the whole argument list with InvalidTermException |
| Terms.CreatePList | src/main/java/org/logic2j/model/symbol/Struct.java:102-130 | `createPList` always builds a Prolog list, empty exactly when the Java list is |
| Terms.CreatePListRoundTrip | src/main/java/org/logic2j/model/symbol/Struct.java:121-130 | the elements of the built list are the Java list, in order |
| Terms.CreatePListOfElements | src/main/java/org/logic2j/model/symbol/Struct.java:121-130 | rebuilding a proper list from its elements gives an `equals` list |
| Terms.JavaListFromPList | src/main/java/org/logic2j/model/symbol/Struct.java:525-546 | walking a term that is a Prolog list gives its elements in order; any other term is an UnsupportedOperationException |
| Terms.Lhs | src/main/java/org/logic2j/model/symbol/Struct.java:218-223 | `getLHS` answers exactly for binary structures, and is an IllegalArgumentException otherwise |
| Terms.Rhs | src/main/java/org/logic2j/model/symbol/Struct.java:229-234 | `getRHS` answers exactly for binary structures, and is an IllegalArgumentException otherwise |
| Terms.ListCellParts | src/main/java/org/logic2j/model/symbol/Struct.java:110-115 | a list cell splits back into the head and tail it was made of; the empty list has neither |
| Terms.StructOf | src/main/java/org/logic2j/model/symbol/Struct.java:156-163 | the collection constructor keeps the name and the elements, in order, as arguments |
| Terms.PredicateFromPList | src/main/java/org/logic2j/model/symbol/Struct.java:436-439 | `predicateFromPList` refuses a non-list (UnsupportedOperationException) and the empty list (IllegalArgumentException), and gives a structure exactly when the first element is an atom |
| Terms.PredicateFromCreatedPList | src/main/java/org/logic2j/model/symbol/Struct.java:506-522 | a list `[f, a1, ..., an]` headed by an atom turns into `f(a1, ..., an)` |
| Terms.Append | src/main/java/org/logic2j/model/symbol/Struct.java:551-563 | appending to a list gives a list whose elements are the old ones followed by the new one, keeping the list reference; a non-list is refused |
| Terms.PredicateIndicatorInjective | src/main/java/org/logic2j/model/symbol/Struct.java:236-238 | two structures share an indicator exactly when they share name and arity, even with a slash in the name |
| Terms.VarargsNeverExact | src/main/java/org/logic2j/model/symbol/Struct.java:236-242 | the variable-arity indicator never equals an exact one |
| Terms.JavaEqualsReflexive | src/main/java/org/logic2j/model/symbol/Struct.java:598-612 | `equals` is reflexive |
| Terms.JavaEqualsSymmetric | src/main/java/org/logic2j/core/model/symbol/Var.java:223-229 | `equals` is symmetric |
| Terms.JavaEqualsTransitive | src/main/java/org/logic2j/model/symbol/Struct.java:598-612 | `equals` is transitive |
| Terms.StaticallyEqualsSymmetric | src/main/java/org/logic2j/model/symbol/Struct.java:354-371 | `staticallyEquals` is symmetric |
| Terms.VarEqualitiesDiffer | src/main/java/org/logic2j/core/model/symbol/Var.java:189-192 | two distinct variables of one name are `equals` but not statically equal |
| Terms.FindVar | src/main/java/org/logic2j/core/model/symbol/Var.java:124-132 | `findVar` finds a variable of that name exactly when one occurs; asking for `_` is an IllegalArgumentException as soon as a variable is met |
| Terms.FindVarIn | src/main/java/org/logic2j/model/symbol/Struct.java:320-329 | over the arguments, the first variable found is of that name and occurs in them; none exactly when no argument holds one |
| Terms.CloneIt | src/main/java/org/logic2j/core/model/symbol/Term.java:196-204 | `cloneIt` gives a copy (same names, arities, classes, primitives and indexes) made of new objects only |
| Terms.CopyJavaEquals | src/main/java/org/logic2j/core/model/symbol/Term.java:196-204 | a clone is `equals` to its original |
| Factorization.CollectInto | src/main/java/org/logic2j/core/api/model/symbol/TermApi.java:109-118 | the collection holds exactly the sub-terms of the term, and ends with the term itself |
| Factorization.CollectTerms | src/main/java/org/logic2j/core/api/model/symbol/TermApi.java:128-134 | the collected terms are exactly the proper sub-terms |
| Factorization.FindStaticallyEqual | src/main/java/org/logic2j/core/model/symbol/Term.java:155-162 | the first element of the collection that is a different reference and statically equal; none exactly when there is no such element |
| Factorization.FirstVarNamed | src/main/java/org/logic2j/core/model/symbol/Var.java:177-184 | the first variable of the collection with that name; none exactly when there is none |
| Factorization.VarFindsNothing | src/main/java/org/logic2j/core/model/symbol/Var.java:171-176 | the first look-up of `Var.compact` never finds anything |
| Factorization.CompactCorrect | src/main/java/org/logic2j/model/symbol/Struct.java:296-317 | compaction of a node keeps it `equals`, builds it only from original nodes and new structures, keeps one node per reference and leaves only canonical variables |
| Factorization.CompactArgsCorrect | src/main/java/org/logic2j/model/symbol/Struct.java:296-303 | the same for every argument of a structure |
| Factorization.FactorizeCorrect | src/main/java/org/logic2j/core/api/model/symbol/TermApi.java:143-165 | `Factorize`: `factorize` gives an `equals`, well-formed term in which all variables of one name are one shared node, and whose references lie below the next free one it returns, so it can be factorized again |
| Factorization.FactorizeTwiceEquals | src/main/java/org/logic2j/core/api/model/symbol/TermApi.java:136-165 | idempotence up to `equals`: factorizing the result again gives a term `equals` to it and to the original, well formed, with its variables shared by name |
| Factorization.FactorizeSwapsPair | src/main/java/org/logic2j/core/model/symbol/Term.java:155-162 | because the look-up skips the term's own reference, in `f(a, a)` with any two distinct `a` nodes each argument is swapped for the other one and a new `f` is built at the next free reference |
| Factorization.FactorizeSwapsDuplicateAtoms | src/main/java/org/logic2j/core/api/model/symbol/TermApi.java:156-165 | the instance `f(a#1, a#2)`, factorized from reference 4, gives `f(a#2, a#1)` |
| Factorization.FactorizeNotIdempotent | src/main/java/org/logic2j/core/api/model/symbol/TermApi.java:136-165 | `factorize` is not idempotent: a second pass over `f(a#2, a#1)` swaps the atoms back to `f(a#1, a#2)` under yet another reference, so the duplicate atoms are never shared |
| Normalization.AssignIndexes | src/main/java/org/logic2j/core/api/model/symbol/TermApi.java:218-227 | the counter of used offsets never decreases |
| Normalization.AssignCorrect | src/main/java/org/logic2j/model/symbol/Struct.java:374-386 | after assigning offsets, every node is indexed, offsets are in range and injective, the anonymous variable alone is at ANON_INDEX, and each structure is above every variable beneath it |
| Normalization.AssignVarCorrect | src/main/java/org/logic2j/core/model/symbol/Var.java:197-211 | a variable gets the next offset, or ANON_INDEX when anonymous, and keeps the invariant |
| Normalization.AssignStructCorrect | src/main/java/org/logic2j/model/symbol/Struct.java:374-386 | a structure indexes its arguments, then takes the counter as its watermark, keeping the invariant |
| Normalization.AssignArgsCorrect | src/main/java/org/logic2j/model/symbol/Struct.java:381-383 | the arguments are indexed left to right, keeping the invariant |
| Normalization.Bake | src/main/java/org/logic2j/core/model/symbol/Term.java:49-62 | writing indexes keeps the kind, reference, name, arguments and primitive of every node |
| Normalization.AssignPrimitiveInfo | src/main/java/org/logic2j/model/symbol/Struct.java:391-404 | every structure gets the primitive registered for its indicator, or else for its variable-arity indicator; nothing else changes |
| Normalization.PrimitiveBySignature | src/main/java/org/logic2j/model/symbol/Struct.java:391-397 | structures of one name and arity get the same primitive, and an exact registration wins |
| Normalization.BakeJavaEquals | src/main/java/org/logic2j/core/model/symbol/Term.java:49-62 | writing indexes gives an `equals` term |
| Normalization.PrimitiveJavaEquals | src/main/java/org/logic2j/model/symbol/Struct.java:391-404 | attaching primitives gives an `equals` term |
| Normalization.BakedOffsets | src/main/java/org/logic2j/model/symbol/Struct.java:374-386 | a complete index store gives the normalized index shape |
| Normalization.PrimitivesKeepOffsets | src/main/java/org/logic2j/model/symbol/Struct.java:391-404 | attaching primitives keeps every index |
| Normalization.NormalizeCorrect | src/main/java/org/logic2j/core/api/model/symbol/TermApi.java:302-309 | `Normalize`: `normalize` gives an `equals` term in which each named variable has an offset below the count, one offset per name, the anonymous variable ANON_INDEX, and each structure above its variables |
| Bindings.BindingWithin | src/main/java/org/logic2j/core/model/symbol/Var.java:90-105 | the binding is at the variable's offset in the frame; an unindexed or anonymous variable is an IllegalStateException |
| Bindings.Set | src/main/java/org/logic2j/core/impl/unify/DefaultUnifier.java:80 | setting one binding changes that slot only, keeping the frames' shape, the trail and the marks |
| Bindings.NewFrame | src/main/java/org/logic2j/core/api/model/Clause.java:58-65 | a new frame of the requested size is appended, all of it free, and every existing binding, the trail and the marks are unchanged |
| Bindings.FollowLinks | src/main/java/org/logic2j/core/model/symbol/Var.java:140 | following the links ends on a binding that is not a link; a non-link is its own end |
| Bindings.FollowLinksSound | src/main/java/org/logic2j/core/model/symbol/Var.java:140 | what `followLinks` returns is reached by a chain of links from the start |
| Bindings.FollowLinksComplete | src/main/java/org/logic2j/core/model/symbol/Var.java:140 | every chain of links that ends and fits the fuel is followed to its end |
| Bindings.BindTo | src/main/java/org/logic2j/core/impl/unify/DefaultUnifier.java:72-83 | binding a free binding to a non-variable makes it a literal in the other frame; to a variable, a change happens exactly when the other chain does not end on this very binding |
| Bindings.Mark | src/main/java/org/logic2j/core/impl/unify/DefaultUnifier.java:37 | marking pushes the current trail height and changes nothing else |
| Bindings.AddBinding | src/main/java/org/logic2j/core/impl/unify/DefaultUnifier.java:81 | trailing appends the binding and changes nothing else |
| Bindings.UndoToMark | src/main/java/org/logic2j/core/impl/unify/DefaultUnifier.java:126-128 | undoing pops the last mark and frees exactly the bindings trailed since; without a mark it is an error |
| Bindings.BindTracked | src/main/java/org/logic2j/core/impl/unify/DefaultUnifier.java:80-82 | binding a free binding and trailing it when it changed is recorded on the trail |
| Bindings.UndoRestores | src/main/java/org/logic2j/core/impl/unify/DefaultUnifier.java:35-44 | after marking and tracked bindings, undoing gives back exactly the store as marked |
| Bindings.Substitute | src/main/java/org/logic2j/core/model/symbol/Var.java:134-162 | substitution keeps the kind, name and arity of a non-variable, and leaves numbers and the anonymous variable unchanged |
| Bindings.SubstituteUnbound | src/main/java/org/logic2j/model/symbol/Struct.java:335-351 | with nothing bound, substitution gives back the very same term and allocates nothing |
| Bindings.SubstituteFreeVar | src/main/java/org/logic2j/core/model/symbol/Var.java:146-157 | a variable whose chain ends free stays itself, or becomes the variable mapped to the final binding, or the anonymous variable |
| Bindings.SubstituteBoundVar | src/main/java/org/logic2j/core/model/symbol/Var.java:142-145 | a variable whose chain ends on a literal substitutes as that literal read in its own bindings |
| Unification.Unify | src/main/java/org/logic2j/core/impl/unify/DefaultUnifier.java:35-44 | a failed unification leaves the store exactly as it was; after a success, `deunify` gives it back exactly as it was |
| Unification.Deunify | src/main/java/org/logic2j/core/impl/unify/DefaultUnifier.java:126-128 | deunify fails exactly when no mark is left |
| Unification.UnifyTracked | src/main/java/org/logic2j/core/impl/unify/DefaultUnifier.java:59-123 | `UnifyInternal`: every binding `unifyInternal` changes was free and is trailed |
| Unification.UnifySwap | src/main/java/org/logic2j/core/impl/unify/DefaultUnifier.java:61-67 | `UnifyInternal`: a variable on the right facing a non-variable is unified with the two swapped |
| Unification.UnifyAnonymousFirst | src/main/java/org/logic2j/core/impl/unify/DefaultUnifier.java:68-70 | the anonymous variable on the left unifies with anything and binds nothing |
| Unification.UnifyAnonymousSecond | src/main/java/org/logic2j/core/impl/unify/DefaultUnifier.java:75-79 | whatever faces the anonymous variable unifies with it, binding nothing |
| Unification.UnifyFreeVar | src/main/java/org/logic2j/core/impl/unify/DefaultUnifier.java:72-83 | a variable whose chain ends free is bound to a non-variable in the other frame, and that binding is trailed |
| Unification.UnifyBoundVar | src/main/java/org/logic2j/core/impl/unify/DefaultUnifier.java:84-88 | a variable whose chain ends on a literal unifies as that literal in its own frame |
| Unification.UnifyGround | src/main/java/org/logic2j/core/impl/unify/DefaultUnifier.java:92-122 | `UnifyInternal`: on terms without variables unification is Herbrand equality and binds nothing |
| Unification.UnifyGroundSymmetric | src/main/java/org/logic2j/core/impl/unify/DefaultUnifier.java:35-44 | hence unification of terms without variables is symmetric |
| Unification.UnifyAgainstGround | src/main/java/org/logic2j/core/impl/unify/DefaultUnifier.java:59-123 | against a term without variables, `unifyInternal` the other way round gives the same answer and the same bindings, one recursion level deeper for the swap |
| Unification.UnifyTwoWaysGround | src/test/java/org/logic2j/core/unify/UnificationTester.java:136-150 | unifying L with R and R with L gives the same result and the same bindings whenever one side has no variables, in any binding store |
| Unification.UnifyFreeVarsTwoWays | src/main/java/org/logic2j/core/impl/unify/DefaultUnifier.java:72-83 | two variables whose chains end free unify in both directions |
| Delegation.Dispatch | src/main/java/org/logic2j/optional/unify/DelegatingUnifier.java:62-83 | anything a pair method throws reaches the caller as an InvalidTermException |
| Delegation.PairUnify | src/main/java/org/logic2j/optional/unify/DelegatingUnifier.java:104-149 | numbers unify iff equal; a structure never unifies with a number; structures need the same name and arity; a non-variable facing a variable is swapped |
| Delegation.VarToWhatever | src/main/java/org/logic2j/optional/unify/DelegatingUnifier.java:151-184 | without a goal frame it is an internal error; the anonymous variable unifies with anything |
| Delegation.DelegatingUnify | src/main/java/org/logic2j/optional/unify/DelegatingUnifier.java:62-83 | `Nested` without nested marks, so with one mark at the top, a failure leaves the store as it was, a success can be undone exactly, and a missing goal frame facing a variable is an InvalidTermException |
| Delegation.PairTracked | src/main/java/org/logic2j/optional/unify/DelegatingUnifier.java:104-149 | `PairUnify`, `PairArgs` and `Nested` (without nested marks): every binding the pair methods change was free and is trailed |
| Delegation.VarTracked | src/main/java/org/logic2j/optional/unify/DelegatingUnifier.java:151-184 | every binding `unifyVarToWhatever` changes was free and is trailed |
| Delegation.FailedUnifyLeaksBinding | src/main/java/org/logic2j/optional/unify/DelegatingUnifier.java:62-83 | `Nested` with nested marks (each argument through the public `unify`, via `PairArgs`): as written, `f(X, Y, b) = f(a, a, c)` fails yet leaves `X` bound and two marks on the trail |
| Delegation.ExampleArguments | src/main/java/org/logic2j/optional/unify/DelegatingUnifier.java:104-149 | the argument walk of `f(X, Y, b) = f(a, a, c)` binds `X` and `Y` to `a`, trails both and leaves a mark for each of them before it fails on `b`/`c` |
| TermApi.PredicateSignature | src/main/java/org/logic2j/core/api/model/symbol/TermApi.java:234-239 | a structure's signature is its indicator; anything else is its text followed by "/0" |
| TermApi.AtomSignatures | src/main/java/org/logic2j/core/api/model/symbol/TermApi.java:85-99 | `IsAtomObj` holds for both forms, and an atom given as a string and as a structure is the same predicate |
| TermApi.CompoundSignatureDistinct | src/main/java/org/logic2j/core/api/model/symbol/TermApi.java:234-239 | a compound never shares its signature with a non-structure |
| TermApi.ValueOf | src/main/java/org/logic2j/core/api/model/symbol/TermApi.java:326-385 | null and unknown classes are refused with InvalidTermException; terms and enums pass unchanged; integers become longs; booleans the shared atoms; text an atom in atom mode |
| TermApi.FromText | src/main/java/org/logic2j/core/api/model/symbol/TermApi.java:355-377 | in any-term mode text starting with upper case or `_` is a variable, `_` is the anonymous one, anything else an atom of that name |
| TermApi.ValueOfIdempotent | src/main/java/org/logic2j/core/api/model/symbol/TermApi.java:326-385 | converting what `valueOf` returned gives it back unchanged |
| TermApi.VarTextRoundTrip | src/main/java/org/logic2j/core/api/model/symbol/TermApi.java:355-377 | a variable read from text renders back as that text |
| TermApi.RequireStruct | src/main/java/org/logic2j/core/api/model/symbol/TermApi.java:516-531 | the term passes exactly when it is a structure with the requested functor and arity; null is a null dereference, anything else an InvalidTermException |
| TermApi.RequireAnyStruct | src/main/java/org/logic2j/core/api/model/symbol/TermApi.java:516-531 | with no functor and a negative arity every structure passes, and nothing else |
| TermApi.SafeCastNotNull | src/main/java/org/logic2j/core/api/model/symbol/TermApi.java:396-448 | the result is the object exactly when it is a non-null instance of the class |
| TermApi.SelectTerm | src/main/java/org/logic2j/core/api/model/symbol/TermApi.java:396-448 | a selection is always an instance of the class asked for; the empty path selects the term itself; the InvalidTermExceptions of a bad index, a missing `]` and a functor mismatch are stated by `SelectOutOfRange`, `SelectMissingBracket` and `SelectWrongFunctor` |
| TermApi.SelectArgument | src/main/java/org/logic2j/core/api/model/symbol/TermApi.java:416-435 | `ParseLevel` splits `name[k]` into the functor `name` and position `k`, and `name[k]`, with `k` within the arity, selects the k-th argument |
| TermApi.SelectFirstThenRest | src/main/java/org/logic2j/core/api/model/symbol/TermApi.java:436-446 | `name/rest` descends into the first argument |
| TermApi.SelectOutOfRange | src/main/java/org/logic2j/core/api/model/symbol/TermApi.java:426-431 | `ParseLevel` refuses index 0, and `SelectTerm` an index beyond the arity: an index of 0 or beyond the arity is an InvalidTermException |
| TermApi.SelectWrongFunctor | src/main/java/org/logic2j/core/api/model/symbol/TermApi.java:432-438 | a first level naming a functor other than the structure's (with any index within the arity) is an InvalidTermException |
| TermApi.PlainLevel | src/main/java/org/logic2j/core/api/model/symbol/TermApi.java:408-421 | `ParseLevel` of a name without '/' or '[' is that functor, selecting nothing and ending at the end of the text |
| TermApi.SelectWrongName | src/main/java/org/logic2j/core/api/model/symbol/TermApi.java:432-438 | the path `f` against a structure not called `f` is an InvalidTermException |
| TermApi.SelectMissingBracket | src/main/java/org/logic2j/core/api/model/symbol/TermApi.java:418-424 | a level `name[...` whose text does not end in `]` is an InvalidTermException, whatever the structure |
| TermApi.Remapped | src/main/java/org/logic2j/core/api/model/symbol/TermApi.java:450-508 | the table gives an image exactly when it holds a key `equals` to the term |
| TermApi.Clone | src/main/java/org/logic2j/core/api/model/symbol/TermApi.java:450-514 | a term the table knows is replaced by its image |
| TermApi.CloneWithoutRemap | src/main/java/org/logic2j/core/api/model/symbol/TermApi.java:450-514 | with an empty table cloning succeeds exactly on constructible terms and gives an `equals` term made of new objects only |
| Marshalling.PossiblyQuote | src/main/java/org/logic2j/core/impl/DefaultTermMarshaller.java:352-369 | text is left unquoted exactly when it starts with a lower-case letter and holds no dot; otherwise it is quoted |
| Marshalling.QuoteRoundTrip | src/main/java/org/logic2j/core/impl/DefaultTermMarshaller.java:352-369 | quoting loses nothing: unquoting gives the text back |
| Marshalling.AcceptTerm | src/main/java/org/logic2j/core/impl/DefaultTermMarshaller.java:134-136 | a number is written in decimal |
| Marshalling.VisitVar | src/main/java/org/logic2j/core/impl/DefaultTermMarshaller.java:100-126 | without bindings a variable is its name; the anonymous one is `_` |
| Marshalling.FormatStruct | src/main/java/org/logic2j/core/impl/DefaultTermMarshaller.java:170-205 | the empty list is written `[]` |
| Marshalling.CanonicalCompound | src/main/java/org/logic2j/core/impl/DefaultTermMarshaller.java:170-205 | a compound that is not a list cell is `name(a1, ..., an)`, quoted unless the parser takes it for an atom |
| Marshalling.ProperListRendering | src/main/java/org/logic2j/core/impl/DefaultTermMarshaller.java:170-240 | a proper list is written `[x1,...,xn]` |
| Marshalling.GroundIgnoresBindings | src/main/java/org/logic2j/core/impl/DefaultTermMarshaller.java:100-126 | the bindings play no part in the text of a term without variables |
| Marshalling.RenderArg | src/main/java/org/logic2j/core/impl/DefaultTermMarshaller.java:277-344 | a list cell is written in brackets unless, as written, its head is the empty list |
| Marshalling.ToStringAsArgAsWritten | src/main/java/org/logic2j/core/impl/DefaultTermMarshaller.java:289-292 | as written, a list cell whose head is the empty list is written `[]` |
| Marshalling.ToStringAsArg | src/main/java/org/logic2j/core/impl/DefaultTermMarshaller.java:277-344 | corrected: the empty list is `[]` and every list cell is a bracketed list |
| Marshalling.ListRendersAllElements | src/main/java/org/logic2j/core/impl/DefaultTermMarshaller.java:256-275 | corrected, a proper list is written with every element, `[x1, ..., xn]` |
| Marshalling.EmptyHeadListLosesElements | src/main/java/org/logic2j/core/impl/DefaultTermMarshaller.java:289-292 | as written `[[], a]` comes out as `[]`; corrected as `[[], a]` |
| Marshalling.Marshall | src/main/java/org/logic2j/core/impl/DefaultTermMarshaller.java:72-83 | a string is possibly quoted; with an engine a structure takes the operator form at the highest priority, through `toStringAsArg` as written or corrected; a variable is its name |
| Marshalling.MarshallNestedEmpty | src/main/java/org/logic2j/core/impl/DefaultTermMarshaller.java:72-83 | with an engine, as written `[[], a]` is written `[]` and a top-level `[]` goes through the atom test; corrected, `[[], a]` is written in full |
| Marshalling.CanonicalReference | src/test/java/org/logic2j/core/impl/DefaultTermMarshallerTest.java:31-48 | without an engine `a,b;c,d;e` is written `';'(','(a, b), ';'(','(c, d), e))` |
| Marshalling.OperatorReference | src/test/java/org/logic2j/core/impl/DefaultTermMarshallerTest.java:50-56 | with `,` and `;` as xfy operators of priority 1000 and 1100, `a,b;c,d;e` is written `a , b ; c , d ; e` |
| Library.NotifySolution | src/main/java/org/logic2j/core/library/impl/LibraryBase.java:70-75 | one solution in the current bindings; the goal frame is cancelled exactly when the listener asks to stop or it already was |
| Library.NotifyIfUnified | src/main/java/org/logic2j/core/library/impl/LibraryBase.java:84-89 | no solution when not unified; otherwise one solution, then the unification is undone |
| Library.UnifyThenNotify | src/main/java/org/logic2j/core/library/impl/LibraryBase.java:57-63 | at most one solution, present exactly when the terms unify, and the bindings are left exactly as they were |
| Library.DereferencedBinding | src/main/java/org/logic2j/core/library/impl/LibraryBase.java:103-108 | a non-variable is a literal in the given frame; a variable gives the binding at the end of its chain, never a link |
| Library.Deref | src/main/java/org/logic2j/core/library/impl/LibraryBase.java:118-140 | a non-variable or the anonymous variable is itself in the caller's frame; in the corrected reading a bound variable is its literal in the literal's own frame |
| Library.Focus | src/main/java/org/logic2j/core/library/impl/LibraryBase.java:95-100 | a non-variable is its own focus; a term is free exactly when its binding is not a literal |
| Library.AssertValidBindings | src/main/java/org/logic2j/core/library/impl/LibraryBase.java:95-100 | a free goal is refused with a non-specific Prolog error, and only then |
| Library.CreateConstantTerm | src/main/java/org/logic2j/core/library/impl/LibraryBase.java:145-150 | null is the anonymous variable; anything else goes to the term factory |
| Library.CreateConstantTerms | src/main/java/org/logic2j/core/library/impl/LibraryBase.java:145-159 | all values convert exactly when each does, in order |
| Library.UnifyAndNotify | src/main/java/org/logic2j/core/library/impl/LibraryBase.java:152-159 | `group(vars)` is unified with `group(values)` once; at most one solution; bindings left as they were |
| Library.UnifyAndNotifyArity | src/main/java/org/logic2j/core/library/impl/LibraryBase.java:152-159 | values for a different number of variables never match |
| Library.EvaluateFunctor | src/main/java/org/logic2j/core/library/impl/LibraryBase.java:113-143 | null, a structure without a functor primitive, and the anonymous variable evaluate to null; a number to itself |
| Library.Apply | src/main/java/org/logic2j/core/library/impl/core/CoreLibrary.java:286-343 | wrapped `long` arithmetic equals the exact result whenever that fits |
| Library.Arithmetic | src/main/java/org/logic2j/core/library/impl/core/CoreLibrary.java:286-343 | `InvokeFunctor` sends `+`, `-` and `*` with two arguments here: both operands are evaluated, left first; two numbers give the wrapped result; anything else is an InvalidTermException |
| Library.Negate | src/main/java/org/logic2j/core/library/impl/core/CoreLibrary.java:351-363 | `InvokeFunctor` sends `-` with one argument here: a number gives its wrapped negation; null is a null dereference; anything else is invalid |
| Library.Evaluate | src/main/java/org/logic2j/core/library/impl/LibraryBase.java:113-143 | corrected evaluation: a number is itself, a structure without functor primitive is null |
| Library.EvaluateThroughBinding | src/main/java/org/logic2j/core/library/impl/LibraryBase.java:118-140 | corrected: evaluating a bound variable, by `evaluateFunctor` or by `evaluate`, is evaluating its literal in the literal's own frame |
| Library.EvaluateTerm | src/main/java/org/logic2j/core/api/model/symbol/TermApi.java:249-277 | `evaluate` in both readings: a number or `_` is returned unchanged, a structure without functor primitive is null, and a functor structure is evaluated as by `evaluateFunctor` in the same reading |
| Library.EvaluationsAgree | src/main/java/org/logic2j/core/api/model/symbol/TermApi.java:249-277 | `evaluate` and `evaluateFunctor` fail alike and agree on every value; where `evaluateFunctor` gives null, `evaluate` gives null or a term that is not a structure |
| Library.EvaluationUsesCallerFrame | src/main/java/org/logic2j/core/library/impl/LibraryBase.java:118-140 | as written, `X` bound to `Y + 1` of another frame evaluates with the caller's `Y` (8); in its own frame it is 6 |
| Library.EvaluateTermUsesCallerFrame | src/main/java/org/logic2j/core/api/model/symbol/TermApi.java:249-277 | as written, `evaluate` of the same `X` gives 8; corrected, 6 |
| Library.TruePrimitive | src/main/java/org/logic2j/core/library/impl/core/CoreLibrary.java:49-53 | exactly one solution, in the current bindings, which are unchanged; the goal frame is cancelled exactly when it was already or the listener answers `USER_ABORT` |
| Library.FailPrimitive | src/main/java/org/logic2j/core/library/impl/core/CoreLibrary.java:55-58 | no solution, nothing changes |
| Library.CutPrimitive | src/main/java/org/logic2j/core/library/impl/core/CoreLibrary.java:96-102 | the cut is signalled on the goal frame, then one solution |
| Library.VarPrimitive | src/main/java/org/logic2j/core/library/impl/core/CoreLibrary.java:60-74 | one solution exactly for the anonymous variable or a variable whose chain ends free; none for any other term |
| Library.UnifyPrimitive | src/main/java/org/logic2j/core/library/impl/core/CoreLibrary.java:104-108 | one solution exactly when the terms unify, in the unified bindings, which are undone afterwards |
| Library.NotUnifyPrimitive | src/main/java/org/logic2j/core/library/impl/core/CoreLibrary.java:110-119 | one solution exactly when the terms do not unify, in the bindings as they were |
| Library.UnifyOrNotUnify | src/main/java/org/logic2j/core/library/impl/core/CoreLibrary.java:104-119 | of `=` and `\=` on the same terms exactly one has a solution |
| Library.VarThenBound | src/main/java/org/logic2j/core/library/impl/core/CoreLibrary.java:60-74 | `var(X)` holds before `X = t` and fails in its solution |
| Library.BindFree | src/main/java/org/logic2j/core/library/impl/core/CoreLibrary.java:104-108 | unifying a free variable with a non-variable binds it to that term |
| Library.NotPrimitive | src/main/java/org/logic2j/core/library/impl/core/CoreLibrary.java:132-154 | one solution exactly when the goal has none; a free goal is refused; the bindings are unchanged; the goal frame's user cancellation is raised exactly when the goal has a solution or it already was |
| Library.NegatedEquality | src/main/java/org/logic2j/core/library/impl/core/CoreLibrary.java:110-154 | `\+ A = B` has a solution exactly when `A \= B` has |
| Library.Instances | src/main/java/org/logic2j/core/library/impl/core/CoreLibrary.java:170-180 | one instance of the template per solution, in order, each the template substituted in that solution's bindings |
| Library.FindAllPrimitive | src/main/java/org/logic2j/core/library/impl/core/CoreLibrary.java:156-195 | at most one solution, bindings unchanged; a free goal is refused |
| Library.FindAllCollects | src/main/java/org/logic2j/core/library/impl/core/CoreLibrary.java:156-195 | with a free result variable, `findall` binds it to the list of the instances, one per solution of the goal, in order |
| Library.UnivPrimitive | src/main/java/org/logic2j/core/library/impl/core/CoreLibrary.java:218-248 | both sides free is refused; a non-structure on the left gives no solution; at most one solution, bindings unchanged |
| Library.UnivRoundTrip | src/main/java/org/logic2j/core/library/impl/core/CoreLibrary.java:218-248 | `f(a1..an) =.. L` binds `L` to `[f, a1..an]`, and that list turns back into `f(a1..an)` |
| Library.UnivFromList | src/main/java/org/logic2j/core/library/impl/core/CoreLibrary.java:222-232 | `X =.. [f, a1..an]` with `X` free binds `X` to a new `f(a1..an)`, read in the list's frame, in exactly one solution, and leaves the bindings as they were |
| Library.IsPrimitive | src/main/java/org/logic2j/core/library/impl/core/CoreLibrary.java:250-258 | in both readings of `evaluateFunctor` (as written: in the caller's bindings): no solution when the right side does not evaluate; otherwise one exactly when the left side unifies with the value |
| Library.IsBindsValue | src/main/java/org/logic2j/core/library/impl/core/CoreLibrary.java:250-258 | `X is E` binds a free `X` to the value of `E`, in either reading, in its one solution |
| Library.IsUsesCallerFrame | src/main/java/org/logic2j/core/library/impl/core/CoreLibrary.java:250-258 | as written, `6 is X` with `X` bound to `Y + 1` of another frame has no solution; corrected it has one |
| Library.ComparePrimitive | src/main/java/org/logic2j/core/library/impl/core/CoreLibrary.java:260-284 | in both readings of `evaluateFunctor`: an evaluation error is passed on; otherwise one solution exactly when both sides evaluate to numbers in the right order |
| Library.GreaterIsSwappedLess | src/main/java/org/logic2j/core/library/impl/core/CoreLibrary.java:260-284 | `A > B` has a solution exactly when `B < A` has, in either reading |
| Library.SubtractUndoesAdd | src/main/java/org/logic2j/core/library/impl/core/CoreLibrary.java:286-321 | wrapped subtraction undoes wrapped addition, overflow or not |
| Library.NegateSmallest | src/main/java/org/logic2j/core/library/impl/core/CoreLibrary.java:351-363 | negating the smallest `long` gives it back, as in Java |
| Solutions.OnSolution | src/main/java/org/logic2j/core/api/solver/listener/SolutionListenerBase.java:39-46 | the solver is always told to continue; the counter goes up by one, wrapping from the largest `int` to the smallest |
| Solutions.Wrap32 | src/main/java/org/logic2j/core/api/solver/listener/SolutionListenerBase.java:37-46 | the Java `int` value of an expression: congruent to it modulo 2^32 and equal to it when it fits |
| Solutions.IncrementWraps | src/main/java/org/logic2j/core/api/solver/listener/SolutionListenerBase.java:42 | incrementing the counter is adding one and wrapping to a Java `int` |
| Solutions.CounterCounts | src/main/java/org/logic2j/core/api/solver/listener/SolutionListenerBase.java:37-54 | after n solutions the counter is n as a Java `int`: exact up to the largest `int`, wrapped beyond |
| Solutions.NewHolder | src/main/java/org/logic2j/core/solver/holder/MultipleSolutionsHolder.java:45-46 | no bounds: every count passes |
| Solutions.CheckBounds | src/main/java/org/logic2j/core/solver/holder/MultipleSolutionsHolder.java:61-68 | a count passes exactly when it is at least the lowest and at most the highest bound that are set; a failure is a non-specific Prolog error |
| Solutions.EnsureNumber | src/main/java/org/logic2j/core/solver/holder/MultipleSolutionsHolder.java:129-132 | afterwards exactly the given number passes |
| Solutions.EnsureRange | src/main/java/org/logic2j/core/solver/holder/MultipleSolutionsHolder.java:141-145 | afterwards the counts between the two bounds, inclusive, pass; none when they are out of order |
| Solutions.Number | src/main/java/org/logic2j/core/solver/holder/MultipleSolutionsHolder.java:53-59 | the result is the number of solutions as a Java `int`, returned exactly when it is within bounds |
| Solutions.BindingValues | src/main/java/org/logic2j/core/solver/holder/MultipleSolutionsHolder.java:75-95 | one value per solution, the named variable substituted in that solution; a missing name is an InvalidTermException, but only once a solution exists |
| Solutions.Binding | src/main/java/org/logic2j/core/solver/holder/MultipleSolutionsHolder.java:75-99 | the values are returned exactly when they are and their number is within bounds; out of bounds is a non-specific error |
| Solutions.AllBindings | src/main/java/org/logic2j/core/solver/holder/MultipleSolutionsHolder.java:106-121 | one map per solution, in order, returned exactly when their number is within bounds |
| Solutions.BindingAndBindingsAgree | src/main/java/org/logic2j/core/solver/holder/MultipleSolutionsHolder.java:75-121 | when the values of a variable can be read, asking for one variable and for all of them succeed together and give as many results |
| Clauses.NewClause | src/main/java/org/logic2j/core/api/model/Clause.java:58-65 | only a structure becomes a clause (InvalidTermException otherwise); the clause gets a new frame of free bindings and nothing else in the store changes |
| Clauses.NewClauseCorrect | src/main/java/org/logic2j/core/api/model/Clause.java:58-65 | a well-formed structure always becomes a clause `equals` to it, whose variables all have a binding in its frame, shared exactly by name |
| Clauses.IsFact | src/main/java/org/logic2j/core/api/model/Clause.java:84-96 | a clause is a fact exactly when its body is `equals` to `true`; a clause without `:-` always is |
| Clauses.GetHead | src/main/java/org/logic2j/core/api/model/Clause.java:108-113 | the head of a rule is its left side, which must be a structure; a clause without `:-` is its own head |
| Clauses.GetBody | src/main/java/org/logic2j/core/api/model/Clause.java:118-123 | the body of a rule is its right side; without `:-` it is `true`; a `:-` that is not binary has none |
| Clauses.GetPredicateKey | src/main/java/org/logic2j/core/api/model/Clause.java:132-135 | the key exists exactly when the head does, and is the head's signature |
| Clauses.HeadAndBodyRebuild | src/main/java/org/logic2j/core/api/model/Clause.java:84-123 | head and body read back as the clause: the two sides of a rule, or the content and `true` |
| Clauses.CopyClause | src/main/java/org/logic2j/core/api/model/Clause.java:72-76 | the copy's content is a copy of the original made of new objects, and its new frame holds the original's bindings |
| Clauses.CopyIsSameClause | src/main/java/org/logic2j/core/api/model/Clause.java:72-135 | a copy is a fact exactly when the original is, its head and body are copies, and it has the same predicate key |

## Left out

- The solver: `Engine.solve` gives the solutions of a sub-goal as the binding stores, in order. The model does not cover solver errors, the goal frames of sub-goals, or how the cut acts on alternatives. A cut is only recorded on the goal frame.
- `clause/2` (`CoreLibrary` lines 197-216): it needs the theory's clause providers, which are not part of this model.
- The iterator of `SolutionHolder`: it runs the solver on a separate thread.
- Reflection: `ReflectUtils`, and the reflective method lookup of `PrimitiveInfo` and the delegating unifier. The dispatch is written out as a match.
- `Double` and `Float` terms, and floating-point arithmetic.
- `Struct.listSize` and `Struct.insert`: no operation of the modelled core uses them.
- Logging, `ReportUtils` and all other I/O.
- String interning: names compare by value. Text is plain ASCII, with no Unicode case rules.
- Term indexes: the Java `short` index is an unbounded `int`, so overflow past 32767 variables is not modelled.
- Library.Focus: `Bindings.focus` is modelled as dereferencing the term. Its class argument is not modelled.
- Library.CreateConstantTerm: the `TermFactory` is the `Engine.create` parameter. Functors of other libraries are the `Engine.foreign` parameter.
- Library.UnivPrimitive: a `null` from `predicateFromPList` (a list whose head is not an atom) is modelled as the `NullReference` error. The delegating unifier raises it (`term2.getClass()`, DelegatingUnifier.java line 65). The default unifier instead binds the variable to `null` (DefaultUnifier.java line 80) through `Binding` code that is not part of this model.
- Library.UnivPrimitive: the second test for two free arguments (`CoreLibrary` lines 226-228) cannot be reached after the first, so it is not modelled.
- Marshalling.Marshall: the parser's atom test and the operator table are functions of a `Syntax` parameter. `OP_LOWEST` and `OP_HIGHEST` are 1 and 1200. The `asWritten` flag selects the list shortcut of `toStringAsArg` as written (the Java behaviour) or corrected.
- Factorization.Factorize: the promise of `factorize` that duplicate sub-structures end up as one reference is not proved, and as written it does not hold. The look-up skips the term's own reference (Term.java line 158), so two distinct equal atoms are swapped for each other rather than shared (`FactorizeSwapsPair`). A second pass swaps them back (`FactorizeNotIdempotent`), so idempotence holds only up to `equals` (`FactorizeTwiceEquals`). Sharing of variables by name is proved (`FactorizeCorrect`).
- Unification.UnifyGroundSymmetric: the two-way property is proved when one side has no variables (`UnifyTwoWaysGround`, with identical bindings) and for two variables whose chains end free (`UnifyFreeVarsTwoWays`). It is not proved for two terms that both hold variables: the two directions then link bindings the opposite way round, and relating them needs an equivalence of binding stores that the model does not define.
- Library.NotPrimitive: the solver is assumed to hand each solution of the sub-goal to the listener through `notifySolution` on the caller's goal frame, as the primitives do, so the listener's `USER_ABORT` raises the user cancellation there. The solver is not part of this model.
- Solutions.AllBindings: `Bindings.explicitBindings` is the `explicit` parameter.
- Clauses.CopyClause: `Bindings.deepCopyWithSameReferrer` is modelled as copying the values of the clause's frame into a new frame. The copy's referrer is not modelled.
- Clauses.NewClause: `new Bindings(term)` is sized by the index of the term's root, which normalization sets to the number of its variables.
- Solutions.Binding: the list size that `binding` and `bindings` check is not wrapped to an `int`.
- The classes `Binding`, `Bindings` and `BindingTrail` are not part of this model. Their behaviour is inferred from their callers, as described at the top of `bindings.dfy`.

## Findings

| source | as written | input that shows it | evidently intended | confidence | as-written member | corrected member |
|---|---|---|---|---|---|---|
| src/main/java/org/logic2j/optional/unify/DelegatingUnifier.java:62-83 | The pair methods unify the arguments through the public `unify`. Each nested call marks the trail again, and undoes only its own mark on failure. | `f(X, Y, b) = f(a, a, c)` fails. `X` is left bound to `a` and two marks stay on the trail. | A failed unification leaves the bindings and the trail as they were. | not executed | Delegation.FailedUnifyLeaksBinding | Delegation.DelegatingUnify |
| src/main/java/org/logic2j/core/impl/DefaultTermMarshaller.java:289-292 | Any list cell whose head is the empty list is written `[]`. `marshall` reaches this through line 76 whenever there is an engine. | `[[], a]` is written `[]`. | Only the empty list itself is written `[]`. | not executed | Marshalling.EmptyHeadListLosesElements | Marshalling.ToStringAsArg |
| src/main/java/org/logic2j/core/library/impl/LibraryBase.java:118-140 | A variable's literal is evaluated in the caller's bindings. `is`, `>` and `<` evaluate through it (CoreLibrary.java lines 252, 262-263 and 275-276). | `X` (frame 0) is bound to `Y + 1` of frame 1, where `Y = 5`, and offset 1 of frame 0 holds 7. `Z is X` gives 8, and `6 is X` fails. | Evaluate the literal in its own bindings, as the unifier does (`DefaultUnifier` line 88), which gives 6. | not executed | Library.EvaluationUsesCallerFrame | Library.EvaluateThroughBinding |
| src/main/java/org/logic2j/core/api/model/symbol/TermApi.java:249-277 | `evaluate` replaces a variable by its literal, then invokes the functor with the caller's bindings (line 273). | The same `X` evaluates to 8. | Invoke the functor in the literal's own bindings, which gives 6. | not executed | Library.EvaluateTermUsesCallerFrame | Library.EvaluateThroughBinding |

=== FILE: bindings.dfy ===
/** Binding frames, the binding trail, and substitution through bindings.

    A Java `Bindings` object is a frame: one `Binding` per variable offset of
    the term it was sized for.  Frames live in a `Store` and are referred to by
    their position in it (a frame beyond the store stands for a null
    reference); one binding is addressed by a `Slot`.  The process-wide
    `BindingTrail` is the store's `trail` of bound slots together with the
    stack of `marks` pushed before each unification. */
module Bindings {
  import opened Results
  import opened Terms
  import opened Factorization

  datatype Slot = Slot(frame: nat, offset: nat)

  /** FREE, LIT (a term and the frame its variables are bound in) and LINK. */
  datatype Binding = Free | Literal(term: Term, frame: nat) | Link(target: Slot)

  datatype Store = Store(frames: seq<seq<Binding>>, trail: seq<Slot>, marks: seq<nat>)

  predicate ValidSlot(st: Store, s: Slot) {
    s.frame < |st.frames| && s.offset < |st.frames[s.frame]|
  }

  function Get(st: Store, s: Slot): Binding
    requires ValidSlot(st, s)
  {
    st.frames[s.frame][s.offset]
  }

  /** The same frames, of the same sizes. */
  predicate SameShape(st: Store, st': Store) {
    && |st'.frames| == |st.frames|
    && forall f :: 0 <= f < |st.frames| ==> |st'.frames[f]| == |st.frames[f]|
  }

  /** Overwrites one binding. */
  function Set(st: Store, s: Slot, b: Binding): (r: Store)
    requires ValidSlot(st, s)
    ensures SameShape(st, r) && r.trail == st.trail && r.marks == st.marks
    ensures Get(r, s) == b
    ensures forall s' :: ValidSlot(st, s') && s' != s ==> Get(r, s') == Get(st, s')
  {
    st.(frames := st.frames[s.frame := st.frames[s.frame][s.offset := b]])
  }

  /** A new `Bindings` block of `size` free bindings, appended to the store. */
  function NewFrame(st: Store, size: nat): (r: (Store, nat))
    ensures r.1 == |st.frames| && |r.0.frames| == |st.frames| + 1 && |r.0.frames[r.1]| == size
    ensures forall o :: 0 <= o < size ==> Get(r.0, Slot(r.1, o)) == Free
    ensures forall s :: ValidSlot(st, s) ==> ValidSlot(r.0, s) && Get(r.0, s) == Get(st, s)
    ensures r.0.trail == st.trail && r.0.marks == st.marks
  {
    (st.(frames := st.frames + [seq(size, _ => Free)]), |st.frames|)
  }

  // ---------------------------------------------------------------------------
  // Reaching a variable's binding
  // ---------------------------------------------------------------------------

  /** `Var.bindingWithin`: the binding at the variable's offset in `frame`. */
  function BindingWithin(v: Term, frame: nat, st: Store): (r: Result<Slot>)
    requires v.Var?
    ensures r.Ok? <==> 0 <= v.index && frame < |st.frames| && v.index < |st.frames[frame]|
    ensures r.Ok? ==> r.value == Slot(frame, v.index) && ValidSlot(st, r.value)
    ensures v.index == NoIndex || v.index == AnonIndex ==> r == Err(IllegalState)
    ensures r.Err? ==> r.error in {IllegalState, NullReference, IndexOutOfBounds}
  {
    if v.index == NoIndex || v.index == AnonIndex then Err(IllegalState)
    else if frame >= |st.frames| then Err(NullReference)
    else if v.index >= |st.frames[frame]| then Err(IllegalState)
    else if v.index < 0 then Err(IndexOutOfBounds)
    else Ok(Slot(frame, v.index))
  }

  /** `e` is reached from `s` by following exactly `n` links. */
  ghost predicate LinksTo(st: Store, s: Slot, e: Slot, n: nat)
    decreases n
  {
    && ValidSlot(st, s)
    && if n == 0 then e == s
       else Get(st, s).Link? && LinksTo(st, Get(st, s).target, e, n - 1)
  }

  /** `Binding.followLinks`: the binding at the end of the chain of links from
      `s`.  A chain longer than `fuel` is reported as non-termination. */
  function FollowLinks(st: Store, s: Slot, fuel: nat): (r: Result<Slot>)
    requires ValidSlot(st, s)
    ensures r.Ok? ==> ValidSlot(st, r.value) && !Get(st, r.value).Link?
    ensures !Get(st, s).Link? ==> r == Ok(s)
    ensures r.Err? ==> r.error in {StackExhausted, NullReference}
    decreases fuel
  {
    match Get(st, s)
    case Link(t) =>
      if fuel == 0 then Err(StackExhausted)
      else if !ValidSlot(st, t) then Err(NullReference)
      else FollowLinks(st, t, fuel - 1)
    case _ => Ok(s)
  }

  /** What `followLinks` finds is the end of a chain of links from `s`. */
  lemma {:induction false} FollowLinksSound(st: Store, s: Slot, fuel: nat)
    requires ValidSlot(st, s) && FollowLinks(st, s, fuel).Ok?
    ensures exists n: nat :: n <= fuel && LinksTo(st, s, FollowLinks(st, s, fuel).value, n)
    decreases fuel
  {
    var e := FollowLinks(st, s, fuel).value;
    if Get(st, s).Link? {
      var t := Get(st, s).target;
      FollowLinksSound(st, t, fuel - 1);
      var n: nat :| n <= fuel - 1 && LinksTo(st, t, e, n);
      assert LinksTo(st, s, e, n + 1);
    } else {
      assert LinksTo(st, s, e, 0);
    }
  }

  /** Every chain of links that ends off a link, and fits in the fuel, is
      followed to its end. */
  lemma {:induction false} FollowLinksComplete(st: Store, s: Slot, e: Slot, n: nat, fuel: nat)
    requires LinksTo(st, s, e, n) && ValidSlot(st, e) && !Get(st, e).Link? && n <= fuel
    ensures FollowLinks(st, s, fuel) == Ok(e)
    decreases n
  {
    if n > 0 {
      FollowLinksComplete(st, Get(st, s).target, e, n - 1, fuel - 1);
    }
  }

  /** `Binding.bindTo` on a free binding: a variable is linked to the end of
      its own chain, unless that end is this very binding, which is left
      as it is; anything else becomes a literal bound in `frame2`.  The flag
      says whether the binding changed, which is when it must be trailed. */
  function BindTo(st: Store, s: Slot, t2: Term, frame2: nat, fuel: nat): (r: Result<(bool, Store)>)
    requires ValidSlot(st, s) && Get(st, s).Free?
    ensures !t2.Var? ==> r == Ok((true, Set(st, s, Literal(t2, frame2))))
    ensures r.Ok? && !r.value.0 ==> r.value.1 == st && t2.Var?
    ensures r.Ok? && r.value.0 ==> exists b: Binding :: !b.Free? && r.value.1 == Set(st, s, b)
    ensures r.Ok? && t2.Var? ==>
      && BindingWithin(t2, frame2, st).Ok?
      && (r.value.0 <==> FollowLinks(st, BindingWithin(t2, frame2, st).value, fuel) != Ok(s))
  {
    if t2.Var? then
      var s2 :- BindingWithin(t2, frame2, st);
      var e :- FollowLinks(st, s2, fuel);
      if e == s then Ok((false, st)) else Ok((true, Set(st, s, Link(e))))
    else
      Ok((true, Set(st, s, Literal(t2, frame2))))
  }

  // ---------------------------------------------------------------------------
  // The binding trail
  // ---------------------------------------------------------------------------

  /** `markBeforeAddingBindings`: remember the current height of the trail. */
  function Mark(st: Store): (r: Store)
    ensures r.frames == st.frames && r.trail == st.trail
    ensures |r.marks| == |st.marks| + 1 && r.marks[..|st.marks|] == st.marks && r.marks[|st.marks|] == |st.trail|
  {
    st.(marks := st.marks + [|st.trail|])
  }

  /** `addBinding`: record a binding that was just bound. */
  function AddBinding(st: Store, s: Slot): (r: Store)
    ensures r.frames == st.frames && r.marks == st.marks
    ensures |r.trail| == |st.trail| + 1 && r.trail[..|st.trail|] == st.trail && r.trail[|st.trail|] == s
  {
    st.(trail := st.trail + [s])
  }

  /** Frees every binding listed in `entries`. */
  function ResetFree(st: Store, entries: seq<Slot>): (r: Store)
    ensures SameShape(st, r) && r.trail == st.trail && r.marks == st.marks
    ensures forall s :: ValidSlot(st, s) ==> Get(r, s) == if s in entries then Free else Get(st, s)
    decreases |entries|
  {
    if entries == [] then st
    else
      var st' := if ValidSlot(st, entries[0]) then Set(st, entries[0], Free) else st;
      ResetFree(st', entries[1..])
  }

  /** `undoBindingsUntilPreviousMark`: pop the last mark and free every binding
      trailed since; without a mark there is nothing to undo to. */
  function UndoToMark(st: Store): (r: Result<Store>)
    ensures r.Err? <==> st.marks == []
    ensures r.Err? ==> r.error == IllegalState
    ensures r.Ok? ==> r.value.marks == st.marks[..|st.marks| - 1] && SameShape(st, r.value)
    ensures r.Ok? && st.marks[|st.marks| - 1] <= |st.trail| ==>
      && r.value.trail == st.trail[..st.marks[|st.marks| - 1]]
      && forall s :: ValidSlot(st, s) ==>
           Get(r.value, s) == if s in st.trail[st.marks[|st.marks| - 1]..] then Free else Get(st, s)
  {
    if st.marks == [] then Err(IllegalState)
    else
      var m := st.marks[|st.marks| - 1];
      var height := if m <= |st.trail| then m else |st.trail|;
      var freed := ResetFree(st, st.trail[height..]);
      Ok(Store(freed.frames, st.trail[..height], st.marks[..|st.marks| - 1]))
  }

  /** `st'` was reached from `st` by binding free bindings and trailing each:
      the marks are untouched, the trail only grew, and every binding that
      differs was free before and is on the new part of the trail. */
  ghost predicate Tracked(st: Store, st': Store) {
    && SameShape(st, st')
    && st'.marks == st.marks
    && |st.trail| <= |st'.trail| && st'.trail[..|st.trail|] == st.trail
    && (forall s :: ValidSlot(st, s) && Get(st', s) != Get(st, s) ==> s in st'.trail[|st.trail|..])
    && (forall i :: |st.trail| <= i < |st'.trail| ==> ValidSlot(st, st'.trail[i]) && Get(st, st'.trail[i]).Free?)
  }

  lemma TrackedReflexive(st: Store)
    ensures Tracked(st, st)
  {
  }

  lemma TrackedTransitive(st1: Store, st2: Store, st3: Store)
    requires Tracked(st1, st2) && Tracked(st2, st3)
    ensures Tracked(st1, st3)
  {
    assert st3.trail[..|st1.trail|] == st2.trail[..|st1.trail|];
    forall i | |st1.trail| <= i < |st3.trail|
      ensures ValidSlot(st1, st3.trail[i]) && Get(st1, st3.trail[i]).Free?
    {
      if i < |st2.trail| {
        assert st3.trail[i] == st2.trail[i];
      }
    }
    forall s | ValidSlot(st1, s) && Get(st3, s) != Get(st1, s)
      ensures s in st3.trail[|st1.trail|..]
    {
      if Get(st2, s) != Get(st1, s) {
        var j :| |st1.trail| <= j < |st2.trail| && st2.trail[j] == s;
        assert st3.trail[j] == s;
      } else {
        var j :| |st2.trail| <= j < |st3.trail| && st3.trail[j] == s;
      }
    }
  }

  /** Binding a free binding and trailing it when it changed is tracked. */
  lemma BindTracked(st: Store, s: Slot, t2: Term, frame2: nat, fuel: nat)
    requires ValidSlot(st, s) && Get(st, s).Free? && BindTo(st, s, t2, frame2, fuel).Ok?
    ensures var (changed, st') := BindTo(st, s, t2, frame2, fuel).value;
      Tracked(st, if changed then AddBinding(st', s) else st')
  {
    var (changed, st') := BindTo(st, s, t2, frame2, fuel).value;
    if changed {
      var st'' := AddBinding(st', s);
      assert st''.trail[|st.trail|..] == [s];
    }
  }

  /** Undoing to the mark taken at `st` gives back exactly `st`. */
  lemma UndoRestores(st: Store, st': Store)
    requires Tracked(Mark(st), st')
    ensures UndoToMark(st') == Ok(st)
  {
    var m := |st.trail|;
    assert st'.marks[|st'.marks| - 1] == m;
    var r := UndoToMark(st').value;
    assert r.trail == st.trail;
    assert r.marks == st.marks;
    assert |r.frames| == |st.frames|;
    forall f | 0 <= f < |st.frames| ensures r.frames[f] == st.frames[f] {
      assert |r.frames[f]| == |st.frames[f]|;
      forall o | 0 <= o < |st.frames[f]| ensures r.frames[f][o] == st.frames[f][o] {
        var s := Slot(f, o);
        assert Get(r, s) == Get(st, s) by {
          if s in st'.trail[m..] {
            var i :| m <= i < |st'.trail| && st'.trail[i] == s;
          }
        }
      }
    }
    assert r.frames == st.frames;
  }

  // ---------------------------------------------------------------------------
  // Substitution
  // ---------------------------------------------------------------------------

  /** `substitute`: the term with every bound variable replaced by its value,
      read in `frame`.  A variable whose chain ends free stays as it is, or,
      when `toVars` is given, becomes the variable it maps the final binding
      to, or the anonymous variable.  A structure is rebuilt, at reference
      `next`, only when some argument changed. */
  function Substitute(t: Term, frame: nat, st: Store, toVars: Option<map<Slot, Term>>, fuel: nat, next: nat)
    : (r: Result<(Term, nat)>)
    ensures r.Ok? ==> next <= r.value.1
    ensures r.Ok? && !t.Var? ==> r.value.0.Struct? == t.Struct? && r.value.0.Long? == t.Long?
    ensures IsAnonymous(t) || t.Long? ==> r == Ok((t, next))
    ensures r.Ok? && t.Struct? ==> r.value.0.name == t.name && |r.value.0.args| == |t.args|
    decreases fuel, t, 1
  {
    match t
    case Long(_) => Ok((t, next))
    case Var(_, _, _) =>
      if IsAnonymous(t) then Ok((t, next))
      else
        var s :- BindingWithin(t, frame, st);
        var e :- FollowLinks(st, s, fuel);
        var b := Get(st, e);
        if b.Literal? then
          if fuel == 0 then Err(StackExhausted) else Substitute(b.term, b.frame, st, toVars, fuel - 1, next)
        else if toVars.None? then Ok((t, next))
        else if e in toVars.value then Ok((toVars.value[e], next))
        else Ok((AnonymousVar, next))
    case Struct(_, name, args, _, _, _) =>
      var (newArgs, after) :- SubstituteArgs(args, frame, st, toVars, fuel, next);
      if AnyChange(args, newArgs) then Ok((MakeStruct(name, newArgs, after), after + 1))
      else Ok((t, after))
  }

  function SubstituteArgs(ts: seq<Term>, frame: nat, st: Store, toVars: Option<map<Slot, Term>>, fuel: nat, next: nat)
    : (r: Result<(seq<Term>, nat)>)
    ensures r.Ok? ==> |r.value.0| == |ts| && next <= r.value.1
    decreases fuel, ts, 0
  {
    if ts == [] then Ok(([], next))
    else
      var (first, mid) :- Substitute(ts[0], frame, st, toVars, fuel, next);
      var (rest, after) :- SubstituteArgs(ts[1..], frame, st, toVars, fuel, mid);
      Ok(([first] + rest, after))
  }

  /** Every variable of `t` other than the anonymous one has a binding in `frame`. */
  ghost predicate IndexedIn(t: Term, frame: nat, st: Store) {
    forall v :: Occurs(v, t) && v.Var? && !IsAnonymous(v) ==> BindingWithin(v, frame, st).Ok?
  }

  /** No binding of the store is bound. */
  predicate AllFree(st: Store) {
    forall f, o :: 0 <= f < |st.frames| && 0 <= o < |st.frames[f]| ==> st.frames[f][o].Free?
  }

  /** With nothing bound, substitution without a variable map gives back the
      very same term and allocates nothing. */
  lemma {:induction false} SubstituteUnbound(t: Term, frame: nat, st: Store, fuel: nat, next: nat)
    requires AllFree(st) && IndexedIn(t, frame, st)
    ensures Substitute(t, frame, st, None, fuel, next) == Ok((t, next))
    decreases t, 1
  {
    assert Occurs(t, t);
    if t.Struct? {
      forall i | 0 <= i < |t.args| ensures IndexedIn(t.args[i], frame, st) {
        forall v | Occurs(v, t.args[i]) ensures Occurs(v, t) { OccursArg(t, i); OccursTransitive(v, t.args[i], t); }
      }
      SubstituteArgsUnbound(t.args, frame, st, fuel, next);
      assert !AnyChange(t.args, t.args);
    }
  }

  lemma {:induction false} SubstituteArgsUnbound(ts: seq<Term>, frame: nat, st: Store, fuel: nat, next: nat)
    requires AllFree(st) && forall i :: 0 <= i < |ts| ==> IndexedIn(ts[i], frame, st)
    ensures SubstituteArgs(ts, frame, st, None, fuel, next) == Ok((ts, next))
    decreases ts, 0
  {
    if ts != [] {
      SubstituteUnbound(ts[0], frame, st, fuel, next);
      SubstituteArgsUnbound(ts[1..], frame, st, fuel, next);
      assert [ts[0]] + ts[1..] == ts;
    }
  }

  /** A variable whose chain ends free becomes the variable its final binding
      maps to, or the anonymous variable, when a map is given, and stays
      itself otherwise. */
  lemma SubstituteFreeVar(v: Term, frame: nat, st: Store, toVars: Option<map<Slot, Term>>, fuel: nat, next: nat)
    requires v.Var? && !IsAnonymous(v) && BindingWithin(v, frame, st).Ok?
    requires FollowLinks(st, BindingWithin(v, frame, st).value, fuel).Ok?
    requires Get(st, FollowLinks(st, BindingWithin(v, frame, st).value, fuel).value).Free?
    ensures var e := FollowLinks(st, BindingWithin(v, frame, st).value, fuel).value;
      Substitute(v, frame, st, toVars, fuel, next) ==
        Ok((if toVars.None? then v else if e in toVars.value then toVars.value[e] else AnonymousVar, next))
  {
  }

  /** A variable whose chain ends on a literal substitutes as that literal,
      read in the literal's own frame. */
  lemma SubstituteBoundVar(v: Term, frame: nat, st: Store, toVars: Option<map<Slot, Term>>, fuel: nat, next: nat)
    requires v.Var? && !IsAnonymous(v) && BindingWithin(v, frame, st).Ok?
    requires FollowLinks(st, BindingWithin(v, frame, st).value, fuel + 1).Ok?
    ensures var b := Get(st, FollowLinks(st, BindingWithin(v, frame, st).value, fuel + 1).value);
      b.Literal? ==> Substitute(v, frame, st, toVars, fuel + 1, next) == Substitute(b.term, b.frame, st, toVars, fuel, next)
  {
  }
}

=== FILE: clause.dfy ===
/** Clauses of a theory.

    A clause wraps a normalized structure, either a fact (any functor other
    than `:-`, or `:-` with the body `true`) or a rule `Head :- Body`,
    together with a frame of free bindings reserved for unifying it with
    goals. */
module Clauses {
  import opened Results
  import opened Terms
  import opened Bindings
  import opened Factorization
  import opened Normalization
  import TermApi

  /** The normalized content and the frame of its bindings in the store. */
  datatype Clause = Clause(content: Term, frame: nat)

  /** A clause as the constructors leave it: a structure whose frame exists. */
  predicate ValidClause(c: Clause, st: Store) {
    c.content.Struct? && c.frame < |st.frames|
  }

  /** The number of bindings a new frame for `t` holds: the index of its
      root, which normalization sets to the number of its variables. */
  function FrameSize(t: Term): nat {
    if t.Struct? && t.index > 0 then t.index else 0
  }

  /** The clause constructor: only a structure can be a clause; it is
      normalized against the libraries' primitives, then given a new frame of
      free bindings.  New structures are allocated from `next`. */
  function NewClause(lib: map<string, PrimitiveInfo>, t: Term, st: Store, next: nat): (r: Result<(Clause, Store, nat)>)
    ensures !t.Struct? ==> r == Err(InvalidTerm)
    ensures r.Err? ==> r.error == InvalidTerm || r.error == ClassCast
    ensures r.Ok? ==> var (c, st', next') := r.value;
              && ValidClause(c, st') && next <= next'
              && c.frame == |st.frames| && |st'.frames| == |st.frames| + 1
              && |st'.frames[c.frame]| == FrameSize(c.content)
              && (forall o :: 0 <= o < FrameSize(c.content) ==> Get(st', Slot(c.frame, o)) == Free)
              && (forall s :: ValidSlot(st, s) ==> ValidSlot(st', s) && Get(st', s) == Get(st, s))
              && st'.trail == st.trail && st'.marks == st.marks
  {
    if !t.Struct? then Err(InvalidTerm)
    else
      var (content, next') := Normalize(t, Some(lib), next);
      if !content.Struct? then Err(ClassCast)
      else
        var (st', frame) := NewFrame(st, FrameSize(content));
        Ok((Clause(content, frame), st', next'))
  }

  /** Building a clause from a well-formed structure always succeeds; its
      content is `equals` to the structure, and every variable of it other
      than the anonymous one has a binding in the clause's frame, two
      variables sharing a binding exactly when they share a name. */
  lemma NewClauseCorrect(lib: map<string, PrimitiveInfo>, t: Term, st: Store, next: nat)
    requires Wf(t) && IdsWithin(t, 0, next)
    ensures NewClause(lib, t, st, next).Ok? <==> t.Struct?
    ensures NewClause(lib, t, st, next).Ok? ==>
              var (c, st', _) := NewClause(lib, t, st, next).value;
              && JavaEquals(c.content, t)
              && OffsetsAssigned(c.content, |st'.frames[c.frame]|)
  {
    NormalizeCorrect(t, Some(lib), next);
  }

  /** `isFact`: the functor is not `:-`, or the right-hand side is `equals`
      to `true`.  A `:-` structure that is not binary has no right-hand
      side. */
  function IsFact(c: Clause): (r: Result<bool>)
    requires c.content.Struct?
    ensures r.Ok? <==> GetBody(c).Ok?
    ensures r.Ok? ==> (r.value <==> JavaEquals(GetBody(c).value, TermApi.AtomTrue))
    ensures c.content.name != ClauseFunctor ==> r == Ok(true)
  {
    if c.content.name != ClauseFunctor then Ok(true)
    else if |c.content.args| != 2 then Err(IllegalArgument)
    else Ok(JavaEquals(TermApi.AtomTrue, c.content.args[1]))
  }

  /** `getHead`: the left-hand side of a rule, which must be a structure; the
      whole content otherwise. */
  function GetHead(c: Clause): (r: Result<Term>)
    requires c.content.Struct?
    ensures r.Ok? ==> r.value.Struct?
    ensures c.content.name != ClauseFunctor ==> r == Ok(c.content)
    ensures c.content.name == ClauseFunctor && |c.content.args| != 2 ==> r == Err(IllegalArgument)
    ensures c.content.name == ClauseFunctor && |c.content.args| == 2 ==>
              (r.Ok? <==> c.content.args[0].Struct?) && (r.Err? ==> r.error == ClassCast)
  {
    if c.content.name != ClauseFunctor then Ok(c.content)
    else if |c.content.args| != 2 then Err(IllegalArgument)
    else if !c.content.args[0].Struct? then Err(ClassCast)
    else Ok(c.content.args[0])
  }

  /** `getBody`: the right-hand side of a rule; `true` otherwise. */
  function GetBody(c: Clause): (r: Result<Term>)
    requires c.content.Struct?
    ensures c.content.name != ClauseFunctor ==> r == Ok(TermApi.AtomTrue)
    ensures r.Err? <==> c.content.name == ClauseFunctor && |c.content.args| != 2
    ensures r.Err? ==> r.error == IllegalArgument
  {
    if c.content.name != ClauseFunctor then Ok(TermApi.AtomTrue)
    else if |c.content.args| != 2 then Err(IllegalArgument)
    else Ok(c.content.args[1])
  }

  /** `getPredicateKey`: the predicate signature of the head. */
  function GetPredicateKey(c: Clause): (r: Result<string>)
    requires c.content.Struct?
    ensures r.Ok? <==> GetHead(c).Ok?
    ensures r.Ok? ==> r.value == TermApi.PredicateSignature(TermApi.TermObj(GetHead(c).value))
    ensures c.content.name != ClauseFunctor ==> r == Ok(PredicateIndicator(c.content))
  {
    var head :- GetHead(c);
    Ok(TermApi.PredicateSignature(TermApi.TermObj(head)))
  }

  /** Head and body are the two halves of a rule, and a structure without
      `:-` is its own head with the body `true`: either way the clause reads
      back as `Head :- Body`. */
  lemma HeadAndBodyRebuild(c: Clause)
    requires c.content.Struct? && GetHead(c).Ok?
    ensures GetBody(c).Ok?
    ensures c.content.name == ClauseFunctor ==> c.content.args == [GetHead(c).value, GetBody(c).value]
    ensures c.content.name != ClauseFunctor ==> GetHead(c).value == c.content && IsFact(c) == Ok(true)
  {
  }

  /** The copy constructor: the content is cloned into new objects allocated
      from `start`, and the clause's bindings are copied into a new frame. */
  function CopyClause(c: Clause, st: Store, start: nat): (r: (Clause, Store, nat))
    requires ValidClause(c, st)
    ensures var (c', st', _) := r;
              && ValidClause(c', st') && Copy(c.content, c'.content)
              && c'.frame == |st.frames| && |st'.frames| == |st.frames| + 1
              && st'.frames[c'.frame] == st.frames[c.frame]
              && st'.frames[..|st.frames|] == st.frames
              && st'.trail == st.trail && st'.marks == st.marks
    ensures start <= r.2 && IdsWithin(r.0.content, start, r.2)
  {
    var (content, next) := CloneIt(c.content, start);
    (Clause(content, |st.frames|), st.(frames := st.frames + [st.frames[c.frame]]), next)
  }

  /** A copy is the same clause: it is a fact exactly when the original is,
      its head and body are copies of the original's, and it belongs to the
      same predicate. */
  lemma CopyIsSameClause(c: Clause, st: Store, start: nat)
    requires ValidClause(c, st)
    ensures var c' := CopyClause(c, st, start).0;
              && IsFact(c') == IsFact(c)
              && GetHead(c').Ok? == GetHead(c).Ok?
              && (GetHead(c).Ok? ==> Copy(GetHead(c).value, GetHead(c').value))
              && GetBody(c').Ok? == GetBody(c).Ok?
              && (GetBody(c).Ok? && c.content.name == ClauseFunctor ==> Copy(GetBody(c).value, GetBody(c').value))
              && GetPredicateKey(c') == GetPredicateKey(c)
  {
    var c' := CopyClause(c, st, start).0;
    assert Copy(c.content, c'.content);
    if c.content.name == ClauseFunctor && |c.content.args| == 2 {
      assert Copy(c.content.args[0], c'.content.args[0]);
      assert Copy(c.content.args[1], c'.content.args[1]);
    } else if c.content.name != ClauseFunctor {
      assert Copy(c.content, c'.content);
    }
  }
}

=== FILE: delegating.dfy ===
/** `DelegatingUnifier`: the alternative unifier whose public entry point
    picks a per-pair method from the classes of the two terms (a reflective
    look-up, modelled here as a match on the kinds of the terms).

    The entry point marks the trail before running the pair method and
    undoes to the latest mark when it answers false.  The pair methods for
    two structures and for a bound variable recurse through that entry point
    again, so every nested success leaves its mark behind.  `nestedMarks`
    selects between the code as written (`true`) and the corrected unifier
    (`false`), whose nested calls go straight to the pair methods and which
    marks the trail once, at the top. */
module Delegation {
  import opened Results
  import opened Terms
  import opened Bindings

  /** The public `unify(Term, Bindings, Term, Bindings, GoalFrame)`: mark,
      run the pair method, undo to the latest mark on false.  Whatever the
      pair method throws reaches the caller as an `InvalidTermException`. */
  function Dispatch(t1: Term, f1: nat, t2: Term, f2: nat, hasFrame: bool, nestedMarks: bool, st: Store, fuel: nat)
    : (r: Result<(bool, Store)>)
    ensures r.Err? ==> r.error in {InvalidTerm, StackExhausted}
    decreases fuel, 0
  {
    if fuel == 0 then Err(StackExhausted)
    else
      match PairUnify(t1, f1, t2, f2, hasFrame, nestedMarks, Mark(st), fuel - 1)
      case Err(_) => Err(InvalidTerm)
      case Ok((ok, st')) =>
        if ok then Ok((true, st'))
        else
          match UndoToMark(st')
          case Err(_) => Err(InvalidTerm)
          case Ok(undone) => Ok((false, undone))
  }

  /** A unification nested inside a pair method. */
  function Nested(t1: Term, f1: nat, t2: Term, f2: nat, hasFrame: bool, nestedMarks: bool, st: Store, fuel: nat)
    : (r: Result<(bool, Store)>)
    decreases fuel, 3
  {
    if nestedMarks then Dispatch(t1, f1, t2, f2, hasFrame, nestedMarks, st, fuel)
    else PairUnify(t1, f1, t2, f2, hasFrame, nestedMarks, st, fuel)
  }

  /** The per-pair `unify` methods:
      - two structures need the same name and arity (their classes are not
        compared) and then unify their arguments left to right;
      - a structure and a number never unify, two numbers iff equal;
      - a structure or a number facing a variable is swapped so that the
        variable comes first;
      - a variable facing anything is handled by `unifyVarToWhatever`. */
  function PairUnify(t1: Term, f1: nat, t2: Term, f2: nat, hasFrame: bool, nestedMarks: bool, st: Store, fuel: nat)
    : (r: Result<(bool, Store)>)
    ensures t1.Long? && t2.Long? ==> r == Ok((t1.value == t2.value, st))
    ensures (t1.Long? && t2.Struct?) || (t1.Struct? && t2.Long?) ==> r == Ok((false, st))
    ensures t1.Struct? && t2.Struct? && (t1.name != t2.name || |t1.args| != |t2.args|) ==> r == Ok((false, st))
    ensures !t1.Var? && t2.Var? ==> r == VarToWhatever(t2, f2, t1, f1, hasFrame, nestedMarks, st, fuel)
    ensures t1.Var? ==> r == VarToWhatever(t1, f1, t2, f2, hasFrame, nestedMarks, st, fuel)
    decreases fuel, 2
  {
    if t1.Var? then VarToWhatever(t1, f1, t2, f2, hasFrame, nestedMarks, st, fuel)
    else if t2.Var? then VarToWhatever(t2, f2, t1, f1, hasFrame, nestedMarks, st, fuel)
    else if t1.Long? then Ok((t2.Long? && t1.value == t2.value, st))
    else if !t2.Struct? then Ok((false, st))
    else if t1.name != t2.name || |t1.args| != |t2.args| then Ok((false, st))
    else if fuel == 0 then Err(StackExhausted)
    else PairArgs(t1.args, f1, t2.args, f2, 0, hasFrame, nestedMarks, st, fuel - 1)
  }

  function PairArgs(a1: seq<Term>, f1: nat, a2: seq<Term>, f2: nat, i: nat, hasFrame: bool, nestedMarks: bool, st: Store, fuel: nat)
    : (r: Result<(bool, Store)>)
    requires |a1| == |a2| && i <= |a1|
    decreases fuel, 4, |a1| - i
  {
    if i == |a1| then Ok((true, st))
    else
      var (ok, st') :- Nested(a1[i], f1, a2[i], f2, hasFrame, nestedMarks, st, fuel);
      if !ok then Ok((false, st')) else PairArgs(a1, f1, a2, f2, i + 1, hasFrame, nestedMarks, st', fuel)
  }

  /** `unifyVarToWhatever`: a missing goal frame is an internal error, raised
      before anything is bound; the anonymous variable unifies with anything;
      a variable whose chain ends free is bound to the other term (unless
      that is the anonymous variable) and trailed when the binding changed;
      one whose chain ends on a literal unifies the other term with it. */
  function VarToWhatever(v: Term, fv: nat, t2: Term, f2: nat, hasFrame: bool, nestedMarks: bool, st: Store, fuel: nat)
    : (r: Result<(bool, Store)>)
    requires v.Var?
    ensures !hasFrame ==> r == Err(InternalError)
    ensures hasFrame && IsAnonymous(v) ==> r == Ok((true, st))
    decreases fuel, 1
  {
    if !hasFrame then Err(InternalError)
    else if IsAnonymous(v) then Ok((true, st))
    else
      var s :- BindingWithin(v, fv, st);
      var e :- FollowLinks(st, s, fuel);
      var b := Get(st, e);
      if b.Free? then
        if IsAnonymous(t2) then Ok((true, st))
        else
          var (changed, st') :- BindTo(st, e, t2, f2, fuel);
          Ok((true, if changed then AddBinding(st', e) else st'))
      else if fuel == 0 then Err(StackExhausted)
      else Nested(t2, f2, b.term, b.frame, hasFrame, nestedMarks, st, fuel - 1)
  }

  // ---------------------------------------------------------------------------
  // Corrected: one mark, at the top
  // ---------------------------------------------------------------------------

  /** The entry point with the nested calls going straight to the pair
      methods.  A failure leaves the store exactly as it was, and after a
      success `deunify` gives the store back exactly as it was. */
  function DelegatingUnify(t1: Term, f1: nat, t2: Term, f2: nat, hasFrame: bool, st: Store, fuel: nat)
    : (r: Result<(bool, Store)>)
    ensures r.Ok? && !r.value.0 ==> r.value.1 == st
    ensures r.Ok? && r.value.0 ==> UndoToMark(r.value.1) == Ok(st)
    ensures !hasFrame && (t1.Var? || t2.Var?) ==> r == Err(InvalidTerm)
  {
    PairTracked(t1, f1, t2, f2, hasFrame, Mark(st), fuel);
    match PairUnify(t1, f1, t2, f2, hasFrame, false, Mark(st), fuel)
    case Err(_) => Err(InvalidTerm)
    case Ok((ok, st')) =>
      UndoRestores(st, st');
      if ok then Ok((true, st')) else Ok((false, UndoToMark(st').value))
  }

  lemma {:induction false} PairTracked(t1: Term, f1: nat, t2: Term, f2: nat, hasFrame: bool, st: Store, fuel: nat)
    ensures var r := PairUnify(t1, f1, t2, f2, hasFrame, false, st, fuel); r.Ok? ==> Tracked(st, r.value.1)
    decreases fuel, 2
  {
    TrackedReflexive(st);
    if t1.Var? {
      VarTracked(t1, f1, t2, f2, hasFrame, st, fuel);
    } else if t2.Var? {
      VarTracked(t2, f2, t1, f1, hasFrame, st, fuel);
    } else if t1.Struct? && t2.Struct? && t1.name == t2.name && |t1.args| == |t2.args| && fuel > 0 {
      PairArgsTracked(t1.args, f1, t2.args, f2, 0, hasFrame, st, fuel - 1);
    }
  }

  lemma {:induction false} PairArgsTracked(a1: seq<Term>, f1: nat, a2: seq<Term>, f2: nat, i: nat, hasFrame: bool, st: Store, fuel: nat)
    requires |a1| == |a2| && i <= |a1|
    ensures var r := PairArgs(a1, f1, a2, f2, i, hasFrame, false, st, fuel); r.Ok? ==> Tracked(st, r.value.1)
    decreases fuel, 4, |a1| - i
  {
    TrackedReflexive(st);
    if i < |a1| {
      PairTracked(a1[i], f1, a2[i], f2, hasFrame, st, fuel);
      var r := PairUnify(a1[i], f1, a2[i], f2, hasFrame, false, st, fuel);
      if r.Ok? && r.value.0 {
        PairArgsTracked(a1, f1, a2, f2, i + 1, hasFrame, r.value.1, fuel);
        var r' := PairArgs(a1, f1, a2, f2, i + 1, hasFrame, false, r.value.1, fuel);
        if r'.Ok? {
          TrackedTransitive(st, r.value.1, r'.value.1);
        }
      }
    }
  }

  lemma {:induction false} VarTracked(v: Term, fv: nat, t2: Term, f2: nat, hasFrame: bool, st: Store, fuel: nat)
    requires v.Var?
    ensures var r := VarToWhatever(v, fv, t2, f2, hasFrame, false, st, fuel); r.Ok? ==> Tracked(st, r.value.1)
    decreases fuel, 1
  {
    TrackedReflexive(st);
    if hasFrame && !IsAnonymous(v) && BindingWithin(v, fv, st).Ok? {
      var s := BindingWithin(v, fv, st).value;
      if FollowLinks(st, s, fuel).Ok? {
        var e := FollowLinks(st, s, fuel).value;
        var b := Get(st, e);
        if b.Free? {
          if !IsAnonymous(t2) && BindTo(st, e, t2, f2, fuel).Ok? {
            BindTracked(st, e, t2, f2, fuel);
          }
        } else if fuel > 0 {
          PairTracked(t2, f2, b.term, b.frame, hasFrame, st, fuel - 1);
        }
      }
    }
  }

  // ---------------------------------------------------------------------------
  // As written: marks leak, and so do bindings
  // ---------------------------------------------------------------------------

  // The example `f(X, Y, b) = f(a, a, c)`, both sides in frame 0.
  const ExX := Var(1, "X", 0)
  const ExY := Var(2, "Y", 1)
  const ExA := Atom("a", 3)
  const ExLeft := MakeStruct("f", [ExX, ExY, Atom("b", 4)], 6)
  const ExRight := MakeStruct("f", [ExA, ExA, Atom("c", 5)], 7)
  const ExStart := Store([[Free, Free]], [], [])

  /** `X = a` nested in the argument loop succeeds and keeps its mark. */
  lemma ExampleFirstArgument()
    ensures Dispatch(ExX, 0, ExA, 0, true, true, Store([[Free, Free]], [], [0]), 8)
         == Ok((true, Store([[Literal(ExA, 0), Free]], [Slot(0, 0)], [0, 0])))
  {
    var st2 := Store([[Free, Free]], [], [0, 0]);
    var st3 := Store([[Literal(ExA, 0), Free]], [Slot(0, 0)], [0, 0]);
    assert [[Free, Free]][0][0 := Literal(ExA, 0)] == [Literal(ExA, 0), Free];
    assert [[Free, Free]][0 := [Literal(ExA, 0), Free]] == [[Literal(ExA, 0), Free]];
    assert BindTo(st2, Slot(0, 0), ExA, 0, 7) == Ok((true, Store([[Literal(ExA, 0), Free]], [], [0, 0])));
    assert Get(st2, Slot(0, 0)) == Free && [] + [Slot(0, 0)] == [Slot(0, 0)];
    assert VarToWhatever(ExX, 0, ExA, 0, true, true, st2, 7) == Ok((true, st3));
    assert Mark(Store([[Free, Free]], [], [0])) == st2 by { assert [0] + [0] == [0, 0]; }
  }

  /** `Y = a` succeeds as well and keeps its mark, at trail height 1. */
  lemma ExampleSecondArgument()
    ensures Dispatch(ExY, 0, ExA, 0, true, true, Store([[Literal(ExA, 0), Free]], [Slot(0, 0)], [0, 0]), 8)
         == Ok((true, Store([[Literal(ExA, 0), Literal(ExA, 0)]], [Slot(0, 0), Slot(0, 1)], [0, 0, 1])))
  {
    var st4 := Store([[Literal(ExA, 0), Free]], [Slot(0, 0)], [0, 0, 1]);
    var st5 := Store([[Literal(ExA, 0), Literal(ExA, 0)]], [Slot(0, 0), Slot(0, 1)], [0, 0, 1]);
    assert [[Literal(ExA, 0), Free]][0][1 := Literal(ExA, 0)] == [Literal(ExA, 0), Literal(ExA, 0)];
    assert [[Literal(ExA, 0), Free]][0 := [Literal(ExA, 0), Literal(ExA, 0)]] == [[Literal(ExA, 0), Literal(ExA, 0)]];
    assert BindTo(st4, Slot(0, 1), ExA, 0, 7)
        == Ok((true, Store([[Literal(ExA, 0), Literal(ExA, 0)]], [Slot(0, 0)], [0, 0, 1])));
    assert Get(st4, Slot(0, 1)) == Free && [Slot(0, 0)] + [Slot(0, 1)] == [Slot(0, 0), Slot(0, 1)];
    assert VarToWhatever(ExY, 0, ExA, 0, true, true, st4, 7) == Ok((true, st5));
    assert Mark(Store([[Literal(ExA, 0), Free]], [Slot(0, 0)], [0, 0])) == st4 by { assert [0, 0] + [1] == [0, 0, 1]; }
  }

  /** `b = c` fails and undoes to its own mark, which frees nothing. */
  lemma ExampleThirdArgument()
    ensures var st5 := Store([[Literal(ExA, 0), Literal(ExA, 0)]], [Slot(0, 0), Slot(0, 1)], [0, 0, 1]);
      Dispatch(Atom("b", 4), 0, Atom("c", 7), 0, true, true, st5, 8) == Ok((false, st5))
  {
    var st5 := Store([[Literal(ExA, 0), Literal(ExA, 0)]], [Slot(0, 0), Slot(0, 1)], [0, 0, 1]);
    var st6 := Store([[Literal(ExA, 0), Literal(ExA, 0)]], [Slot(0, 0), Slot(0, 1)], [0, 0, 1, 2]);
    assert Mark(st5) == st6 by { assert [0, 0, 1] + [2] == [0, 0, 1, 2]; }
    assert PairUnify(Atom("b", 4), 0, Atom("c", 7), 0, true, true, st6, 7) == Ok((false, st6));
    assert st6.trail[2..] == [] && st6.trail[..2] == st6.trail && st6.marks[..3] == [0, 0, 1];
    assert UndoToMark(st6) == Ok(st5);
  }

  /** The argument loop stops at the third argument. */
  lemma ExampleArguments()
    ensures PairUnify(ExLeft, 0, ExRight, 0, true, true, Store([[Free, Free]], [], [0]), 9)
         == Ok((false, Store([[Literal(ExA, 0), Literal(ExA, 0)]], [Slot(0, 0), Slot(0, 1)], [0, 0, 1])))
  {
    var l := ExLeft.args;
    var m := ExRight.args;
    var st1 := Store([[Free, Free]], [], [0]);
    var st3 := Store([[Literal(ExA, 0), Free]], [Slot(0, 0)], [0, 0]);
    var st5 := Store([[Literal(ExA, 0), Literal(ExA, 0)]], [Slot(0, 0), Slot(0, 1)], [0, 0, 1]);
    ExampleFirstArgument();
    ExampleSecondArgument();
    ExampleThirdArgument();
    assert PairArgs(l, 0, m, 0, 2, true, true, st5, 8) == Ok((false, st5));
    assert PairArgs(l, 0, m, 0, 1, true, true, st3, 8) == Ok((false, st5));
    assert PairArgs(l, 0, m, 0, 0, true, true, st1, 8) == Ok((false, st5));
  }

  /** `f(X, Y, b) = f(a, a, c)` fails, yet afterwards `X` is still bound to `a`
      and two marks are left on the trail: the final undo only goes back to
      the mark that the nested unification of `Y` left behind. */
  lemma FailedUnifyLeaksBinding()
    ensures var r := Dispatch(ExLeft, 0, ExRight, 0, true, true, ExStart, 10);
      && r == Ok((false, Store([[Literal(ExA, 0), Free]], [Slot(0, 0)], [0, 0])))
      && r.value.1 != ExStart
  {
    var st5 := Store([[Literal(ExA, 0), Literal(ExA, 0)]], [Slot(0, 0), Slot(0, 1)], [0, 0, 1]);
    ExampleArguments();
    assert Mark(ExStart) == Store([[Free, Free]], [], [0]);
    assert st5.trail[1..] == [Slot(0, 1)] && [Slot(0, 1)][1..] == [] && st5.trail[..1] == [Slot(0, 0)];
    assert st5.marks[..2] == [0, 0];
    assert [[Literal(ExA, 0), Literal(ExA, 0)]][0][1 := Free] == [Literal(ExA, 0), Free];
    assert [[Literal(ExA, 0), Literal(ExA, 0)]][0 := [Literal(ExA, 0), Free]] == [[Literal(ExA, 0), Free]];
    assert ResetFree(st5, [Slot(0, 1)]).frames == [[Literal(ExA, 0), Free]];
    assert UndoToMark(st5) == Ok(Store([[Literal(ExA, 0), Free]], [Slot(0, 0)], [0, 0]));
  }
}

=== FILE: factorize.dfy ===
/** The first two steps of normalization: collecting every sub-term of a term,
    and compacting ("factorizing") the term so that statically equal
    sub-structures and same-named variables become one shared reference. */
module Factorization {
  import opened Results
  import opened Terms

  /** `collectTermsInto`: every sub-term in post-order (arguments left to
      right, then the term itself); repeats are kept. */
  function CollectInto(t: Term): (r: seq<Term>)
    ensures |r| > 0 && r[|r| - 1] == t
    ensures forall x :: x in r <==> Occurs(x, t)
    decreases t, 1
  {
    match t
    case Struct(_, _, args, _, _, _) => CollectArgs(args) + [t]
    case _ => [t]
  }

  function CollectArgs(ts: seq<Term>): (r: seq<Term>)
    ensures forall x :: x in r <==> OccursIn(x, ts)
    decreases ts, 0
  {
    if |ts| == 0 then []
    else
      OccursInCons(ts);
      CollectInto(ts[0]) + CollectArgs(ts[1..])
  }

  /** Occurring in a non-empty sequence is occurring in its head or its tail. */
  lemma OccursInCons(ts: seq<Term>)
    requires |ts| > 0
    ensures forall x :: OccursIn(x, ts) <==> Occurs(x, ts[0]) || OccursIn(x, ts[1..])
  {
    forall x | OccursIn(x, ts[1..]) ensures OccursIn(x, ts) {
      var i :| 0 <= i < |ts[1..]| && Occurs(x, ts[1..][i]);
      assert Occurs(x, ts[i + 1]);
    }
    forall x | OccursIn(x, ts) && !Occurs(x, ts[0]) ensures OccursIn(x, ts[1..]) {
      var i :| 0 <= i < |ts| && Occurs(x, ts[i]);
      assert Occurs(x, ts[1..][i - 1]);
    }
  }

  /** `collectTerms`: the collected sub-terms without the term itself, which
      the collection always ends with. */
  function CollectTerms(t: Term): (r: seq<Term>)
    ensures forall x :: x in r <==> t.Struct? && OccursIn(x, t.args)
  {
    var all := CollectInto(t);
    assert all[..|all| - 1] == if t.Struct? then CollectArgs(t.args) else [];
    all[..|all| - 1]
  }

  /** `findStructurallyEqualWithin`: the first element of `coll` that is a
      different reference and, as the receiver, statically equal to `x`. */
  function FindStaticallyEqual(x: Term, coll: seq<Term>): (r: Option<Term>)
    ensures r.Some? ==> r.value in coll && !SameRef(r.value, x) && StaticallyEquals(r.value, x)
    ensures r.Some? ==> exists k :: 0 <= k < |coll| && coll[k] == r.value &&
                          forall j :: 0 <= j < k ==> SameRef(coll[j], x) || !StaticallyEquals(coll[j], x)
    ensures r.None? <==> forall k :: 0 <= k < |coll| ==> SameRef(coll[k], x) || !StaticallyEquals(coll[k], x)
  {
    if |coll| == 0 then None
    else if !SameRef(coll[0], x) && StaticallyEquals(coll[0], x) then Some(coll[0])
    else
      var r := FindStaticallyEqual(x, coll[1..]);
      assert forall k :: 1 <= k < |coll| ==> coll[k] == coll[1..][k - 1];
      r
  }

  /** The first variable of `coll` called `name`. */
  function FirstVarNamed(name: string, coll: seq<Term>): (r: Option<Term>)
    ensures r.Some? ==> r.value in coll && r.value.Var? && r.value.name == name
    ensures r.None? <==> forall k :: 0 <= k < |coll| ==> !(coll[k].Var? && coll[k].name == name)
  {
    if |coll| == 0 then None
    else if coll[0].Var? && coll[0].name == name then Some(coll[0])
    else
      var r := FirstVarNamed(name, coll[1..]);
      assert forall k :: 1 <= k < |coll| ==> coll[k] == coll[1..][k - 1];
      r
  }

  /** A variable is never statically equal to a different reference, so the
      first look-up of `Var.compact` never finds anything. */
  lemma VarFindsNothing(v: Term, coll: seq<Term>)
    requires v.Var?
    ensures FindStaticallyEqual(v, coll) == None
  {
  }

  /** `compact`: `next` is the first unused reference; the second component
      of the result is the next unused one afterwards.
      - a number is left as it is;
      - a variable becomes the first variable of `coll` with its name, if any;
      - a structure compacts its arguments; when any of them came back as a
        different reference it is replaced by a new structure (reference
        `next`, after those of its arguments) holding the new arguments; the
        result is then swapped for the first different, statically equal
        element of `coll`, if there is one. */
  function Compact(t: Term, coll: seq<Term>, next: nat): (r: (Term, nat))
    ensures next <= r.1
    decreases t, 1
  {
    match t
    case Long(_) => (t, next)
    case Var(_, name, _) =>
      (match FindStaticallyEqual(t, coll)
       case Some(u) => (u, next)
       case None =>
         (match FirstVarNamed(name, coll)
          case Some(v) => (v, next)
          case None => (t, next)))
    case Struct(_, name, args, cls, prim, index) =>
      var (newArgs, after) := CompactArgs(args, coll, next);
      var (compacted, next') :=
        if AnyChange(args, newArgs) then (Struct(after, name, newArgs, cls, prim, index), after + 1)
        else (t, after);
      match FindStaticallyEqual(compacted, coll)
      case Some(u) => (u, next')
      case None => (compacted, next')
  }

  function CompactArgs(ts: seq<Term>, coll: seq<Term>, next: nat): (r: (seq<Term>, nat))
    ensures |r.0| == |ts| && next <= r.1
    decreases ts, 0
  {
    if |ts| == 0 then ([], next)
    else
      var (first, mid) := Compact(ts[0], coll, next);
      var (rest, after) := CompactArgs(ts[1..], coll, mid);
      ([first] + rest, after)
  }

  /** Some argument came back as a different reference. */
  predicate AnyChange(args: seq<Term>, newArgs: seq<Term>)
    requires |args| == |newArgs|
  {
    exists i :: 0 <= i < |args| && !SameRef(newArgs[i], args[i])
  }

  /** `factorize`: compaction against the term's own collected sub-terms;
      references from `next` upwards are free for new structures. */
  function Factorize(t: Term, next: nat): (r: (Term, nat))
    ensures next <= r.1
  {
    Compact(t, CollectTerms(t), next)
  }

  // ---------------------------------------------------------------------------
  // Correctness of compaction
  // ---------------------------------------------------------------------------

  /** Within `t`, one reference always denotes one node. */
  ghost predicate Wf(t: Term) {
    forall x, y :: Occurs(x, t) && Occurs(y, t) && SameRef(x, y) ==> x == y
  }

  ghost predicate WfAll(ts: seq<Term>) {
    forall x, y :: OccursIn(x, ts) && OccursIn(y, ts) && SameRef(x, y) ==> x == y
  }

  /** Every node of `r` is a node of the original term `orig`, or a structure
      allocated in `[lo, hi)`. */
  ghost predicate NodesFrom(r: Term, orig: Term, lo: nat, hi: nat) {
    forall y :: Occurs(y, r) ==> Occurs(y, orig) || (y.Struct? && lo <= y.id < hi)
  }

  ghost predicate NodesFromAll(rs: seq<Term>, orig: Term, lo: nat, hi: nat) {
    forall y :: OccursIn(y, rs) ==> Occurs(y, orig) || (y.Struct? && lo <= y.id < hi)
  }

  /** The variables of `r` that occur in `coll` are the canonical ones: the
      first of their name in `coll`. */
  ghost predicate VarsCanonical(r: Term, coll: seq<Term>) {
    forall v :: Occurs(v, r) && v.Var? && v in coll ==> FirstVarNamed(v.name, coll) == Some(v)
  }

  ghost predicate VarsCanonicalAll(rs: seq<Term>, coll: seq<Term>) {
    forall v :: OccursIn(v, rs) && v.Var? && v in coll ==> FirstVarNamed(v.name, coll) == Some(v)
  }

  /** The setting of a compaction: the original term is well formed, every
      reference in it lies below `start`, and `coll` holds its nodes. */
  ghost predicate Setting(orig: Term, coll: seq<Term>, start: nat) {
    && Wf(orig)
    && IdsWithin(orig, 0, start)
    && forall u :: u in coll ==> Occurs(u, orig)
  }

  lemma OccursTransitive(x: Term, y: Term, z: Term)
    requires Occurs(x, y) && Occurs(y, z)
    ensures Occurs(x, z)
    decreases z
  {
    if x != z && y != z {
      var i :| 0 <= i < |z.args| && Occurs(y, z.args[i]);
      OccursTransitive(x, y, z.args[i]);
    }
  }

  lemma OccursIdsWithin(x: Term, t: Term, lo: nat, hi: nat)
    requires Occurs(x, t) && IdsWithin(t, lo, hi) && !x.Long?
    ensures lo <= x.id < hi
    decreases t
  {
    if x != t {
      var i :| 0 <= i < |t.args| && Occurs(x, t.args[i]);
      OccursIdsWithin(x, t.args[i], lo, hi);
    }
  }

  /** Statically equal terms whose shared references denote one node are
      `equals`, and every variable of the receiver is a node of the other. */
  lemma {:induction false} StaticallyEqualNodes(orig: Term, start: nat, u: Term, c: Term)
    requires Wf(orig) && IdsWithin(orig, 0, start)
    requires forall y :: Occurs(y, u) ==> Occurs(y, orig)
    requires forall y :: Occurs(y, c) ==> Occurs(y, orig) || (y.Struct? && start <= y.id)
    requires StaticallyEquals(u, c)
    ensures JavaEquals(u, c)
    ensures forall w :: Occurs(w, u) && w.Var? ==> Occurs(w, c)
    decreases u
  {
    assert Occurs(u, u) && Occurs(c, c);
    if SameRef(u, c) && !u.Long? {
      OccursIdsWithin(u, orig, 0, start);
      assert Occurs(c, orig);
      assert u == c;
      JavaEqualsReflexive(u);
    } else if u.Struct? {
      forall i | 0 <= i < |u.args|
        ensures JavaEquals(u.args[i], c.args[i])
        ensures forall w :: Occurs(w, u.args[i]) && w.Var? ==> Occurs(w, c.args[i])
      {
        forall y | Occurs(y, u.args[i]) ensures Occurs(y, orig) {
          assert Occurs(y, u);
        }
        forall y | Occurs(y, c.args[i]) ensures Occurs(y, orig) || (y.Struct? && start <= y.id) {
          assert Occurs(y, c);
        }
        StaticallyEqualNodes(orig, start, u.args[i], c.args[i]);
      }
      forall w | Occurs(w, u) && w.Var? ensures Occurs(w, c) {
        var i :| 0 <= i < |u.args| && Occurs(w, u.args[i]);
        assert Occurs(w, c.args[i]);
      }
    }
  }

  lemma OrigSubterm(orig: Term, t: Term)
    requires Wf(orig) && Occurs(t, orig)
    ensures Wf(t)
    ensures forall y :: Occurs(y, t) ==> Occurs(y, orig)
  {
    forall y | Occurs(y, t) ensures Occurs(y, orig) {
      OccursTransitive(y, t, orig);
    }
  }

  lemma OccursArg(t: Term, i: int)
    requires t.Struct? && 0 <= i < |t.args|
    ensures Occurs(t.args[i], t)
  {
    assert Occurs(t.args[i], t.args[i]);
  }

  /** The structure allocated when some argument changed. */
  lemma NewStructFacts(orig: Term, coll: seq<Term>, start: nat, t: Term, newArgs: seq<Term>, next: nat, after: nat)
    requires t.Struct? && |newArgs| == |t.args|
    requires IdsWithin(orig, 0, start) && start <= next <= after
    requires forall i :: 0 <= i < |newArgs| ==> JavaEquals(newArgs[i], t.args[i])
    requires NodesFromAll(newArgs, orig, next, after) && WfAll(newArgs) && VarsCanonicalAll(newArgs, coll)
    ensures var c := Struct(after, t.name, newArgs, t.cls, t.prim, t.index);
      JavaEquals(c, t) && NodesFrom(c, orig, next, after + 1) && Wf(c) && VarsCanonical(c, coll)
  {
    var c := Struct(after, t.name, newArgs, t.cls, t.prim, t.index);
    assert forall y :: Occurs(y, c) ==> y == c || OccursIn(y, newArgs);
    forall x, y | Occurs(x, c) && Occurs(y, c) && SameRef(x, y) ensures x == y {
      if x == c && y != c {
        assert OccursIn(y, newArgs);
        if Occurs(y, orig) {
          OccursIdsWithin(y, orig, 0, start);
        }
      } else if y == c && x != c {
        assert OccursIn(x, newArgs);
        if Occurs(x, orig) {
          OccursIdsWithin(x, orig, 0, start);
        }
      }
    }
  }

  /** When no argument changed, compaction returned the very arguments. */
  lemma UnchangedArgs(orig: Term, start: nat, args: seq<Term>, newArgs: seq<Term>, next: nat, after: nat)
    requires Wf(orig) && IdsWithin(orig, 0, start) && start <= next
    requires |args| == |newArgs| && !AnyChange(args, newArgs)
    requires forall i :: 0 <= i < |args| ==> Occurs(args[i], orig)
    requires NodesFromAll(newArgs, orig, next, after)
    ensures newArgs == args
  {
    forall i | 0 <= i < |args| ensures newArgs[i] == args[i] {
      assert SameRef(newArgs[i], args[i]);
      if !args[i].Long? {
        assert Occurs(newArgs[i], newArgs[i]);
        assert OccursIn(newArgs[i], newArgs);
        OccursIdsWithin(args[i], orig, 0, start);
        assert Occurs(newArgs[i], orig);
        assert Occurs(args[i], orig);
      }
    }
  }

  /** The statically equal element found in the collection keeps every
      guarantee of the compacted structure it replaces. */
  lemma FoundFacts(orig: Term, coll: seq<Term>, start: nat, t: Term, compacted: Term, u: Term, next: nat, next': nat)
    requires Setting(orig, coll, start) && start <= next
    requires u in coll && StaticallyEquals(u, compacted)
    requires JavaEquals(compacted, t) && NodesFrom(compacted, orig, next, next') && VarsCanonical(compacted, coll)
    ensures JavaEquals(u, t) && NodesFrom(u, orig, next, next') && Wf(u) && VarsCanonical(u, coll)
  {
    OrigSubterm(orig, u);
    StaticallyEqualNodes(orig, start, u, compacted);
    JavaEqualsTransitive(u, compacted, t);
  }

  /** Compaction of a node of the original term keeps it `equals` to that
      node, builds it from original nodes and fresh structures only, keeps
      one node per reference, and leaves only canonical variables. */
  lemma {:induction false} CompactCorrect(orig: Term, coll: seq<Term>, start: nat, t: Term, next: nat)
    requires Setting(orig, coll, start) && start <= next
    requires Occurs(t, orig)
    ensures var r := Compact(t, coll, next);
      && JavaEquals(r.0, t)
      && NodesFrom(r.0, orig, next, r.1)
      && Wf(r.0)
      && VarsCanonical(r.0, coll)
    decreases t, 1
  {
    match t
    case Long(_) =>
    case Var(_, name, _) =>
      VarFindsNothing(t, coll);
      var v := FirstVarNamed(name, coll);
      if v.Some? {
        assert Occurs(v.value, orig);
        assert forall y :: Occurs(y, v.value) ==> y == v.value;
      } else {
        assert forall y :: Occurs(y, t) ==> y == t;
      }
    case Struct(_, name, args, cls, prim, index) =>
      forall i | 0 <= i < |args| ensures Occurs(args[i], orig) {
        OccursArg(t, i);
        OccursTransitive(args[i], t, orig);
      }
      CompactArgsCorrect(orig, coll, start, args, next);
      var ra := CompactArgs(args, coll, next);
      var newArgs, after := ra.0, ra.1;
      var compacted, next' :=
        if AnyChange(args, newArgs) then Struct(after, name, newArgs, cls, prim, index) else t,
        if AnyChange(args, newArgs) then after + 1 else after;
      if AnyChange(args, newArgs) {
        NewStructFacts(orig, coll, start, t, newArgs, next, after);
      } else {
        UnchangedArgs(orig, start, args, newArgs, next, after);
        OrigSubterm(orig, t);
        JavaEqualsReflexive(t);
        assert forall y :: Occurs(y, t) ==> y == t || OccursIn(y, args);
      }
      assert JavaEquals(compacted, t) && NodesFrom(compacted, orig, next, next') && Wf(compacted) && VarsCanonical(compacted, coll);
      match FindStaticallyEqual(compacted, coll)
      case Some(u) =>
        FoundFacts(orig, coll, start, t, compacted, u, next, next');
      case None =>
  }

  lemma {:induction false} CompactArgsCorrect(orig: Term, coll: seq<Term>, start: nat, ts: seq<Term>, next: nat)
    requires Setting(orig, coll, start) && start <= next
    requires forall i :: 0 <= i < |ts| ==> Occurs(ts[i], orig)
    ensures var r := CompactArgs(ts, coll, next);
      && (forall i :: 0 <= i < |ts| ==> JavaEquals(r.0[i], ts[i]))
      && NodesFromAll(r.0, orig, next, r.1)
      && WfAll(r.0)
      && VarsCanonicalAll(r.0, coll)
    decreases ts, 0
  {
    if |ts| > 0 {
      CompactCorrect(orig, coll, start, ts[0], next);
      var r0 := Compact(ts[0], coll, next);
      var first, mid := r0.0, r0.1;
      CompactArgsCorrect(orig, coll, start, ts[1..], mid);
      var rr := CompactArgs(ts[1..], coll, mid);
      var rest, after := rr.0, rr.1;
      var rs := [first] + rest;
      assert CompactArgs(ts, coll, next) == (rs, after);
      OccursInCons(rs);
      assert rs[1..] == rest;
      forall x, y | OccursIn(x, rs) && OccursIn(y, rs) && SameRef(x, y) ensures x == y {
        if !x.Long? {
          if Occurs(x, orig) { OccursIdsWithin(x, orig, 0, start); }
          if Occurs(y, orig) { OccursIdsWithin(y, orig, 0, start); }
        }
      }
    }
  }

  /** Two variables of one name are one node. */
  ghost predicate NamesShared(t: Term) {
    forall v, w :: Occurs(v, t) && Occurs(w, t) && v.Var? && w.Var? && v.name == w.name ==> v == w
  }

  /** `factorize` of a well-formed term whose references lie below `next`
      gives an `equals` term, still well formed, in which all variables of one
      name are a single shared node. */
  lemma FactorizeCorrect(t: Term, next: nat)
    requires Wf(t) && IdsWithin(t, 0, next)
    ensures var r := Factorize(t, next);
      JavaEquals(r.0, t) && Wf(r.0) && NamesShared(r.0) && next <= r.1 && IdsWithin(r.0, 0, r.1)
  {
    var coll := CollectTerms(t);
    assert Occurs(t, t);
    forall u | u in coll ensures Occurs(u, t) {
      var i :| 0 <= i < |t.args| && Occurs(u, t.args[i]);
      OccursArg(t, i);
      OccursTransitive(u, t.args[i], t);
    }
    CompactCorrect(t, coll, next, t, next);
    var r := Compact(t, coll, next).0;
    IdsFromNodes(r, t, next, Compact(t, coll, next).1);
    if t.Struct? {
      forall v | Occurs(v, r) && v.Var? ensures v in coll {
        assert Occurs(v, t) && v != t;
        var i :| 0 <= i < |t.args| && Occurs(v, t.args[i]);
      }
    } else {
      assert coll == [];
      assert forall y :: Occurs(y, r) ==> y == r;
    }
  }

  /** A term built from nodes of a term whose references lie below `start`
      and from structures allocated in `[start, hi)` has its references
      below `hi`, so it can be factorized again from `hi`. */
  lemma {:induction false} IdsFromNodes(r: Term, orig: Term, start: nat, hi: nat)
    requires IdsWithin(orig, 0, start) && start <= hi && NodesFrom(r, orig, start, hi)
    ensures IdsWithin(r, 0, hi)
    decreases r
  {
    if !r.Long? {
      assert Occurs(r, r);
      if Occurs(r, orig) { OccursIdsWithin(r, orig, 0, start); }
    }
    if r.Struct? {
      forall i | 0 <= i < |r.args| ensures IdsWithin(r.args[i], 0, hi) {
        OccursArg(r, i);
        forall y | Occurs(y, r.args[i]) ensures Occurs(y, r) {
          OccursTransitive(y, r.args[i], r);
        }
        IdsFromNodes(r.args[i], orig, start, hi);
      }
    }
  }

  /** Idempotence up to `equals`: factorizing the result of `factorize` again
      gives a term `equals` to it and to the original, still well formed and
      with its variables shared by name. */
  lemma FactorizeTwiceEquals(t: Term, next: nat)
    requires Wf(t) && IdsWithin(t, 0, next)
    ensures var r1 := Factorize(t, next);
      var r2 := Factorize(r1.0, r1.1);
      && JavaEquals(r2.0, r1.0) && JavaEquals(r2.0, t)
      && Wf(r2.0) && NamesShared(r2.0) && r1.1 <= r2.1
  {
    FactorizeCorrect(t, next);
    var r1 := Factorize(t, next);
    FactorizeCorrect(r1.0, r1.1);
    JavaEqualsTransitive(Factorize(r1.0, r1.1).0, r1.0, t);
  }

  /** Two atoms `a` with different references, and the structure `f` over
      them in the given order. */
  function AtomA(id: nat): Term {
    Atom("a", id)
  }

  function PairF(i: nat, j: nat, id: nat): Term {
    MakeStruct("f", [AtomA(i), AtomA(j)], id)
  }

  /** Duplicate atoms are not shared: the first look-up excludes the term's
      own reference, so in `f(a, a)` with two distinct `a` nodes each argument
      is swapped for the other one and a new `f` is built. */
  lemma FactorizeSwapsPair(i: nat, j: nat, id: nat, n: nat)
    requires i != j
    ensures Factorize(PairF(i, j, id), n) == (PairF(j, i, n), n + 1)
  {
    var f := PairF(i, j, id);
    var coll := [AtomA(i), AtomA(j)];
    CollectPair(i, j, id);
    SwapArgs(i, j, n);
    assert AnyChange(coll, [AtomA(j), AtomA(i)]) by {
      assert !SameRef([AtomA(j), AtomA(i)][0], coll[0]);
    }
    var g := PairF(j, i, n);
    assert FindStaticallyEqual(g, [AtomA(j)]) == None;
    assert FindStaticallyEqual(g, coll) == None;
  }

  /** The instance `f(a#1, a#2)` with reference 3, factorized from reference 4. */
  lemma FactorizeSwapsDuplicateAtoms(a1: Term, a2: Term, f: Term)
    requires a1 == Atom("a", 1) && a2 == Atom("a", 2) && f == MakeStruct("f", [a1, a2], 3)
    ensures Factorize(f, 4).0 == MakeStruct("f", [a2, a1], 4)
  {
    FactorizeSwapsPair(1, 2, 3, 4);
  }

  /** `factorize` is not idempotent: factorizing the result of the first pass
      swaps the two `a` nodes back and allocates yet another `f`. Both results
      are `equals` (`FactorizeTwiceEquals`), but neither pass shares the
      duplicate atoms. */
  lemma FactorizeNotIdempotent()
    ensures var r1 := Factorize(PairF(1, 2, 3), 4);
      && r1 == (PairF(2, 1, 4), 5)
      && Factorize(r1.0, r1.1).0 == PairF(1, 2, 5)
      && Factorize(r1.0, r1.1).0 != r1.0
  {
    FactorizeSwapsPair(1, 2, 3, 4);
    FactorizeSwapsPair(2, 1, 4, 5);
  }

  /** Each of the two `a` nodes is compacted into the other one. */
  lemma SwapAtoms(i: nat, j: nat, n: nat)
    requires i != j
    ensures Compact(AtomA(i), [AtomA(i), AtomA(j)], n) == (AtomA(j), n)
    ensures Compact(AtomA(j), [AtomA(i), AtomA(j)], n) == (AtomA(i), n)
  {
    var coll := [AtomA(i), AtomA(j)];
    assert FindStaticallyEqual(AtomA(i), coll) == Some(AtomA(j));
    assert FindStaticallyEqual(AtomA(j), [AtomA(j)]) == None;
    assert FindStaticallyEqual(AtomA(j), coll) == Some(AtomA(i));
  }

  lemma SwapArgs(i: nat, j: nat, n: nat)
    requires i != j
    ensures CompactArgs([AtomA(i), AtomA(j)], [AtomA(i), AtomA(j)], n) == ([AtomA(j), AtomA(i)], n)
  {
    var a1, a2 := AtomA(i), AtomA(j);
    var coll := [a1, a2];
    SwapAtoms(i, j, n);
    assert [a1, a2][1..] == [a2] && [a2][1..] == [];
    assert CompactArgs([], coll, n) == ([], n);
    assert [a2][0] == a2 && [a1] + [] == [a1];
    assert CompactArgs([a2], coll, n) == ([a1], n);
    assert [a1, a2][0] == a1 && [a2] + [a1] == [a2, a1];
  }

  lemma CollectPair(i: nat, j: nat, id: nat)
    ensures CollectTerms(PairF(i, j, id)) == [AtomA(i), AtomA(j)]
  {
    var a1, a2 := AtomA(i), AtomA(j);
    assert CollectInto(a1) == [a1] && CollectInto(a2) == [a2];
    assert [a1, a2][1..] == [a2] && [a2][1..] == [];
    assert CollectArgs([a2]) == [a2];
    assert CollectArgs([a1, a2]) == [a1, a2];
    assert CollectInto(PairF(i, j, id)) == [a1, a2, PairF(i, j, id)];
  }
}

=== FILE: library.dfy ===
/** The built-in predicates and functors of `CoreLibrary`, with the helpers
    of `LibraryBase` they rely on.

    A predicate primitive is a function from its arguments, the frame they
    are read in, the goal frame and the bindings to an `Outcome`: the
    binding states at which it signalled a solution to its listener, in
    order, the goal frame afterwards, and the bindings it leaves behind.
    The solver that runs nested goals, the listener's answers and the term
    factory are not part of this model; they are the `Engine` parameter. */
module Library {
  import opened Results
  import opened Terms
  import opened Bindings
  import opened Unification
  import opened TermApi

  /** A listener's answer to a solution. */
  datatype Continuation = Continue | UserAbort

  /** The part of the goal frame a primitive touches: the cut signal and the
      user's request to stop. */
  datatype GoalFrame = GoalFrame(cut: bool, userCanceled: bool)

  datatype Outcome = Outcome(solutions: seq<Store>, gf: GoalFrame, st: Store)

  /** What the primitives see of the rest of the engine: the listener's
      answer at a solution; the solver, as the binding states at each
      solution of a goal read in a frame; the term factory in atom mode; and
      the functors of other libraries. */
  datatype Engine = Engine(
    answer: Store -> Continuation,
    solve: (Term, nat, Store) -> seq<Store>,
    create: Obj -> Result<Term>,
    foreign: (Term, nat, Store) -> Result<Option<Term>>)

  // ---------------------------------------------------------------------------
  // LibraryBase
  // ---------------------------------------------------------------------------

  /** `notifySolution`: one solution, in the current bindings; the goal frame
      is cancelled when the listener asks to stop. */
  function NotifySolution(gf: GoalFrame, st: Store, e: Engine): (r: Outcome)
    ensures r.solutions == [st] && r.st == st && r.gf.cut == gf.cut
    ensures r.gf.userCanceled <==> gf.userCanceled || e.answer(st) == UserAbort
  {
    Outcome([st], if e.answer(st) == UserAbort then gf.(userCanceled := true) else gf, st)
  }

  /** `notifyIfUnified`: after a successful unification, notify and then
      undo it; otherwise nothing. */
  function NotifyIfUnified(unified: bool, gf: GoalFrame, st: Store, e: Engine): (r: Result<Outcome>)
    ensures !unified ==> r == Ok(Outcome([], gf, st))
    ensures unified ==> (r.Ok? <==> st.marks != [])
    ensures unified && r.Ok? ==>
              && r.value.solutions == [st]
              && Deunify(st) == Ok(r.value.st)
              && r.value.gf == NotifySolution(gf, st, e).gf
  {
    if unified then
      var o := NotifySolution(gf, st, e);
      var st' :- Deunify(st);
      Ok(o.(st := st'))
    else Ok(Outcome([], gf, st))
  }

  /** Unify, then `notifyIfUnified`: at most one solution, in the unified
      bindings, and the bindings are left exactly as they were. */
  function UnifyThenNotify(t1: Term, f1: nat, t2: Term, f2: nat, gf: GoalFrame, st: Store, e: Engine, fuel: nat)
    : (r: Result<Outcome>)
    ensures var u := Unify(t1, f1, t2, f2, st, fuel);
            && (r.Ok? <==> u.Ok?)
            && (r.Err? ==> r.error == u.error)
            && (r.Ok? ==> r.value.st == st)
            && (r.Ok? && u.value.0 ==> r.value.solutions == [u.value.1] && r.value.gf == NotifySolution(gf, u.value.1, e).gf)
            && (r.Ok? && !u.value.0 ==> r.value.solutions == [] && r.value.gf == gf)
  {
    var (ok, st') :- Unify(t1, f1, t2, f2, st, fuel);
    NotifyIfUnified(ok, gf, st', e)
  }

  /** `dereferencedBinding`: a variable's binding at the end of its chain;
      any other term as a literal in the given frame. */
  function DereferencedBinding(t: Term, frame: nat, st: Store, fuel: nat): (r: Result<Binding>)
    ensures !t.Var? ==> r == Ok(Literal(t, frame))
    ensures r.Ok? ==> !r.value.Link?
    ensures t.Var? ==>
              (r.Ok? <==> BindingWithin(t, frame, st).Ok? && FollowLinks(st, BindingWithin(t, frame, st).value, fuel).Ok?)
    ensures t.Var? && r.Ok? ==> r.value == Get(st, FollowLinks(st, BindingWithin(t, frame, st).value, fuel).value)
  {
    if t.Var? then
      var s :- BindingWithin(t, frame, st);
      var end :- FollowLinks(st, s, fuel);
      Ok(Get(st, end))
    else Ok(Literal(t, frame))
  }

  /** A term seen through the bindings: the literal it stands for and that
      literal's frame, or `free` when it is a variable whose chain ends free. */
  datatype Focused = Focused(referrer: Term, frame: nat, free: bool)

  /** `Bindings.focus`, which is not part of this model, taken as
      dereferencing: a literal binding gives its term and frame, a free one
      the term itself. */
  function Focus(t: Term, frame: nat, st: Store, fuel: nat): (r: Result<Focused>)
    ensures !t.Var? ==> r == Ok(Focused(t, frame, false))
    ensures r.Ok? <==> DereferencedBinding(t, frame, st, fuel).Ok?
    ensures r.Ok? ==> (r.value.free <==> !DereferencedBinding(t, frame, st, fuel).value.Literal?)
  {
    var b :- DereferencedBinding(t, frame, st, fuel);
    if b.Literal? then Ok(Focused(b.term, b.frame, false)) else Ok(Focused(t, frame, true))
  }

  /** `assertValidBindings`: a primitive refuses a goal that is a free variable. */
  function AssertValidBindings(f: Focused): (r: Result<Focused>)
    ensures r.Err? <==> f.free
    ensures r.Err? ==> r.error == NonSpecific
    ensures r.Ok? ==> r.value == f
  {
    if f.free then Err(NonSpecific) else Ok(f)
  }

  /** `createConstantTerm`: Java's `null` is the anonymous variable, and any
      other object goes to the term factory in atom mode. */
  function CreateConstantTerm(o: Obj, e: Engine): (r: Result<Term>)
    ensures o.Null? ==> r == Ok(AnonymousVar)
    ensures !o.Null? ==> r == e.create(o)
  {
    if o.Null? then Ok(AnonymousVar) else e.create(o)
  }

  function CreateConstantTerms(os: seq<Obj>, e: Engine): (r: Result<seq<Term>>)
    ensures r.Ok? <==> forall i :: 0 <= i < |os| ==> CreateConstantTerm(os[i], e).Ok?
    ensures r.Ok? ==> |r.value| == |os| && forall i :: 0 <= i < |os| ==> CreateConstantTerm(os[i], e) == Ok(r.value[i])
  {
    if |os| == 0 then Ok([])
    else
      var first :- CreateConstantTerm(os[0], e);
      var rest :- CreateConstantTerms(os[1..], e);
      assert forall i :: 1 <= i < |os| ==> os[i] == os[1..][i - 1];
      Ok([first] + rest)
  }

  const GroupFunctor: string := "group"

  /** `unifyAndNotify`: one unification of `group(vars)` with
      `group(values)`, both read in the same frame, then `notifyIfUnified`.
      The two structures are allocated at `id` and `id + 1`. */
  function UnifyAndNotify(vars: seq<Term>, values: seq<Obj>, frame: nat, gf: GoalFrame, st: Store, e: Engine, fuel: nat, id: nat)
    : (r: Result<Outcome>)
    ensures r.Ok? ==> r.value.st == st && |r.value.solutions| <= 1
    ensures CreateConstantTerms(values, e).Err? ==> r == Err(CreateConstantTerms(values, e).error)
    ensures CreateConstantTerms(values, e).Ok? ==>
              r == UnifyThenNotify(MakeStruct(GroupFunctor, vars, id), frame,
                                   MakeStruct(GroupFunctor, CreateConstantTerms(values, e).value, id + 1), frame, gf, st, e, fuel)
  {
    var terms :- CreateConstantTerms(values, e);
    UnifyThenNotify(MakeStruct(GroupFunctor, vars, id), frame, MakeStruct(GroupFunctor, terms, id + 1), frame, gf, st, e, fuel)
  }

  /** Values for as many variables as there are never match. */
  lemma UnifyAndNotifyArity(vars: seq<Term>, values: seq<Obj>, frame: nat, gf: GoalFrame, st: Store, e: Engine, fuel: nat, id: nat)
    requires |vars| != |values| && fuel > 0
    requires CreateConstantTerms(values, e).Ok?
    ensures UnifyAndNotify(vars, values, frame, gf, st, e, fuel, id) == Ok(Outcome([], gf, st))
  {
    var g1 := MakeStruct(GroupFunctor, vars, id);
    var g2 := MakeStruct(GroupFunctor, CreateConstantTerms(values, e).value, id + 1);
    assert UnifyInternal(g1, frame, g2, frame, Mark(st), fuel) == Ok((false, Mark(st)));
  }

  // ---------------------------------------------------------------------------
  // Evaluation of arithmetic
  // ---------------------------------------------------------------------------

  /** The term an evaluation works on and the frame to read it in: a variable
      other than the anonymous one is replaced by the literal its chain ends
      on, or gives nothing when it ends free.  `asWritten` keeps the caller's
      frame for the literal, as `evaluateFunctor` does; otherwise the
      literal is read in its own frame. */
  function Deref(t: Term, frame: nat, st: Store, fuel: nat, asWritten: bool): (r: Result<Option<(Term, nat)>>)
    ensures !t.Var? || IsAnonymous(t) ==> r == Ok(Some((t, frame)))
    ensures r.Ok? && r.value.Some? && !asWritten && t.Var? && !IsAnonymous(t) ==>
              DereferencedBinding(t, frame, st, fuel) == Ok(Literal(r.value.value.0, r.value.value.1))
  {
    if t.Var? && !IsAnonymous(t) then
      var b :- DereferencedBinding(t, frame, st, fuel);
      if !b.Literal? then Ok(None)
      else Ok(Some((b.term, if asWritten then frame else b.frame)))
    else Ok(Some((t, frame)))
  }

  predicate IsFunctorStruct(t: Term) {
    t.Struct? && t.prim.Some? && t.prim.value.kind == Functor
  }

  /** `evaluateFunctor`: Java's `null` (here `None`) for no input, for a
      variable whose chain ends free, for a structure without a functor
      primitive, and for any other term that is not a number; a number as it
      is; the result of the functor primitive otherwise. */
  function EvaluateFunctor(t: Option<Term>, frame: nat, st: Store, e: Engine, fuel: nat, asWritten: bool)
    : (r: Result<Option<Term>>)
    ensures t.None? ==> r == Ok(None)
    ensures t.Some? && t.value.Long? ==> r == Ok(t)
    ensures t.Some? && t.value.Struct? && !IsFunctorStruct(t.value) ==> r == Ok(None)
    ensures t.Some? && IsAnonymous(t.value) ==> r == Ok(None)
    decreases fuel, 0
  {
    if t.None? then Ok(None)
    else
      var d :- Deref(t.value, frame, st, fuel, asWritten);
      if d.None? then Ok(None)
      else
        var (x, f) := d.value;
        if x.Long? then Ok(Some(x))
        else if !IsFunctorStruct(x) then Ok(None)
        else if fuel == 0 then Err(StackExhausted)
        else InvokeFunctor(x, f, st, e, fuel - 1, asWritten)
  }

  /** The functor primitives of this library, by name and arity; any other
      functor belongs to another library. */
  function InvokeFunctor(s: Term, frame: nat, st: Store, e: Engine, fuel: nat, asWritten: bool)
    : (r: Result<Option<Term>>)
    requires s.Struct?
    decreases fuel, 2
  {
    if s.name == "+" && |s.args| == 2 then
      var v :- Arithmetic(Add, s.args[0], s.args[1], frame, st, e, fuel, asWritten); Ok(Some(v))
    else if s.name == "-" && |s.args| == 2 then
      var v :- Arithmetic(Subtract, s.args[0], s.args[1], frame, st, e, fuel, asWritten); Ok(Some(v))
    else if s.name == "*" && |s.args| == 2 then
      var v :- Arithmetic(Multiply, s.args[0], s.args[1], frame, st, e, fuel, asWritten); Ok(Some(v))
    else if s.name == "-" && |s.args| == 1 then
      var v :- Negate(s.args[0], frame, st, e, fuel, asWritten); Ok(Some(v))
    else e.foreign(s, frame, st)
  }

  datatype ArithOp = Add | Subtract | Multiply

  /** Java `long` arithmetic: the exact result wrapped to 64 bits. */
  function Apply(op: ArithOp, a: Int64, b: Int64): (r: Int64)
    ensures MinLong <= (match op case Add => a + b case Subtract => a - b case Multiply => a * b) <= MaxLong ==>
              r == (match op case Add => a + b case Subtract => a - b case Multiply => a * b)
  {
    match op
    case Add => Wrap64(a + b)
    case Subtract => Wrap64(a - b)
    case Multiply => Wrap64(a * b)
  }

  /** `plus`, `minus` and `multiply`: both operands are evaluated, left first;
      two numbers give a number, anything else is an invalid term. */
  function Arithmetic(op: ArithOp, t1: Term, t2: Term, frame: nat, st: Store, e: Engine, fuel: nat, asWritten: bool)
    : (r: Result<Term>)
    ensures var a := EvaluateFunctor(Some(t1), frame, st, e, fuel, asWritten);
            var b := EvaluateFunctor(Some(t2), frame, st, e, fuel, asWritten);
            && (a.Err? ==> r == Err(a.error))
            && (a.Ok? && b.Err? ==> r == Err(b.error))
            && (a.Ok? && b.Ok? ==>
                  if a.value.Some? && a.value.value.Long? && b.value.Some? && b.value.value.Long?
                  then r == Ok(Long(Apply(op, a.value.value.value, b.value.value.value)))
                  else r == Err(InvalidTerm))
    decreases fuel, 1
  {
    var a :- EvaluateFunctor(Some(t1), frame, st, e, fuel, asWritten);
    var b :- EvaluateFunctor(Some(t2), frame, st, e, fuel, asWritten);
    if a.Some? && a.value.Long? && b.Some? && b.value.Long? then Ok(Long(Apply(op, a.value.value, b.value.value)))
    else Err(InvalidTerm)
  }

  /** Unary `minus`: a number gives its negation, wrapped to 64 bits; Java's
      `null` fails with a null reference (the message reads its class); any
      other term is invalid. */
  function Negate(t: Term, frame: nat, st: Store, e: Engine, fuel: nat, asWritten: bool): (r: Result<Term>)
    ensures var a := EvaluateFunctor(Some(t), frame, st, e, fuel, asWritten);
            && (a.Err? ==> r == Err(a.error))
            && (a.Ok? && a.value.None? ==> r == Err(NullReference))
            && (a.Ok? && a.value.Some? && a.value.value.Long? ==> r == Ok(Long(Wrap64(0 - a.value.value.value))))
            && (a.Ok? && a.value.Some? && !a.value.value.Long? ==> r == Err(InvalidTerm))
    decreases fuel, 1
  {
    var a :- EvaluateFunctor(Some(t), frame, st, e, fuel, asWritten);
    if a.None? then Err(NullReference)
    else if a.value.Long? then Ok(Long(Wrap64(0 - a.value.value)))
    else Err(InvalidTerm)
  }

  /** `evaluateFunctor` with a bound literal read in its own frame. */
  function Evaluate(t: Term, frame: nat, st: Store, e: Engine, fuel: nat): (r: Result<Option<Term>>)
    ensures t.Long? ==> r == Ok(Some(t))
    ensures t.Struct? && !IsFunctorStruct(t) ==> r == Ok(None)
  {
    EvaluateFunctor(Some(t), frame, st, e, fuel, false)
  }

  /** Evaluating a variable bound to a literal is evaluating that literal in
      its own frame. */
  lemma EvaluateThroughBinding(v: Term, frame: nat, st: Store, e: Engine, fuel: nat)
    requires v.Var? && !IsAnonymous(v)
    requires DereferencedBinding(v, frame, st, fuel).Ok? && DereferencedBinding(v, frame, st, fuel).value.Literal?
    requires !DereferencedBinding(v, frame, st, fuel).value.term.Var?
    ensures var b := DereferencedBinding(v, frame, st, fuel).value;
            && Evaluate(v, frame, st, e, fuel) == Evaluate(b.term, b.frame, st, e, fuel)
            && EvaluateTerm(Some(v), frame, st, e, fuel, false) == EvaluateTerm(Some(b.term), b.frame, st, e, fuel, false)
  {
  }

  /** `evaluate` of `TermApi`: like `evaluateFunctor`, but a term that is
      neither a structure nor a variable bound to one is returned as it is.
      As written (`asWritten`), a bound literal is invoked in the caller's
      frame, as `evaluateFunctor` does. */
  function EvaluateTerm(t: Option<Term>, frame: nat, st: Store, e: Engine, fuel: nat, asWritten: bool)
    : (r: Result<Option<Term>>)
    ensures t.None? ==> r == Ok(None)
    ensures t.Some? && (t.value.Long? || IsAnonymous(t.value)) ==> r == Ok(t)
    ensures t.Some? && t.value.Struct? && !IsFunctorStruct(t.value) ==> r == Ok(None)
    ensures t.Some? && IsFunctorStruct(t.value) && fuel > 0 ==> r == EvaluateFunctor(t, frame, st, e, fuel, asWritten)
  {
    if t.None? then Ok(None)
    else
      var d :- Deref(t.value, frame, st, fuel, asWritten);
      if d.None? then Ok(None)
      else
        var (x, f) := d.value;
        if !x.Struct? then Ok(Some(x))
        else if !IsFunctorStruct(x) then Ok(None)
        else if fuel == 0 then Err(StackExhausted)
        else InvokeFunctor(x, f, st, e, fuel - 1, asWritten)
  }

  /** The two evaluations fail alike and agree on every value; where
      `evaluateFunctor` gives `null`, `evaluate` gives `null` or the term
      itself, which is then not a structure. */
  lemma EvaluationsAgree(t: Term, frame: nat, st: Store, e: Engine, fuel: nat, asWritten: bool)
    ensures var a := EvaluateFunctor(Some(t), frame, st, e, fuel, asWritten);
            var b := EvaluateTerm(Some(t), frame, st, e, fuel, asWritten);
            && (a.Err? <==> b.Err?)
            && (a.Err? ==> b == a)
            && (a.Ok? && a.value.Some? ==> b == a)
            && (a.Ok? && a.value.None? ==> b.Ok? && (b.value.None? || !b.value.value.Struct?))
  {
  }

  // ---------------------------------------------------------------------------
  // The finding: a bound expression evaluated in the caller's frame
  // ---------------------------------------------------------------------------

  const SumPrimitive: PrimitiveInfo := PrimitiveInfo(Functor, "+/2")
  /** `X` at offset 0 and `Y` at offset 1. */
  const VarX: Term := Var(30, "X", 0)
  const VarY: Term := Var(31, "Y", 1)
  /** `Y + 1`, with the `+/2` functor attached. */
  const YPlusOne: Term := Struct(32, "+", [VarY, Long(1)], PlainStruct, Some(SumPrimitive), 2)
  /** Frame 0 is the caller's: `X` is bound to `Y + 1` read in frame 1, and
      the caller's own offset 1 holds 7.  In frame 1, `Y` is 5. */
  const TwoFrames: Store :=
    Store([[Literal(YPlusOne, 1), Literal(Long(7), 0)], [Free, Literal(Long(5), 1)]], [], [])

  /** As written, `X` evaluates to 7 + 1, reading `Y` at the caller's offset
      1; read in its own frame, `Y + 1` is 5 + 1. */
  lemma EvaluationUsesCallerFrame(e: Engine)
    ensures EvaluateFunctor(Some(VarX), 0, TwoFrames, e, 2, true) == Ok(Some(Long(8)))
    ensures Evaluate(VarX, 0, TwoFrames, e, 2) == Ok(Some(Long(6)))
  {
    assert BindingWithin(VarX, 0, TwoFrames) == Ok(Slot(0, 0));
    assert BindingWithin(VarY, 0, TwoFrames) == Ok(Slot(0, 1));
    assert BindingWithin(VarY, 1, TwoFrames) == Ok(Slot(1, 1));
    assert Get(TwoFrames, Slot(0, 0)) == Literal(YPlusOne, 1);
    assert Get(TwoFrames, Slot(0, 1)) == Literal(Long(7), 0);
    assert Get(TwoFrames, Slot(1, 1)) == Literal(Long(5), 1);
    assert EvaluateFunctor(Some(VarY), 0, TwoFrames, e, 1, true) == Ok(Some(Long(7)));
    assert EvaluateFunctor(Some(VarY), 1, TwoFrames, e, 1, false) == Ok(Some(Long(5)));
    assert Arithmetic(Add, VarY, Long(1), 0, TwoFrames, e, 1, true) == Ok(Long(8));
    assert Arithmetic(Add, VarY, Long(1), 1, TwoFrames, e, 1, false) == Ok(Long(6));
  }

  /** `evaluate` shares the defect: as written, `X` is 8; corrected, 6. */
  lemma EvaluateTermUsesCallerFrame(e: Engine)
    ensures EvaluateTerm(Some(VarX), 0, TwoFrames, e, 2, true) == Ok(Some(Long(8)))
    ensures EvaluateTerm(Some(VarX), 0, TwoFrames, e, 2, false) == Ok(Some(Long(6)))
  {
    EvaluationUsesCallerFrame(e);
    EvaluationsAgree(VarX, 0, TwoFrames, e, 2, true);
    EvaluationsAgree(VarX, 0, TwoFrames, e, 2, false);
  }

  // ---------------------------------------------------------------------------
  // CoreLibrary
  // ---------------------------------------------------------------------------

  /** `true`: exactly one solution. */
  function TruePrimitive(gf: GoalFrame, st: Store, e: Engine): (r: Outcome)
    ensures r.solutions == [st] && r.st == st && r.gf.cut == gf.cut
    ensures r.gf.userCanceled <==> gf.userCanceled || e.answer(st) == UserAbort
  {
    NotifySolution(gf, st, e)
  }

  /** `fail`: no solution. */
  function FailPrimitive(gf: GoalFrame, st: Store): (r: Outcome)
    ensures r.solutions == [] && r.st == st && r.gf == gf
  {
    Outcome([], gf, st)
  }

  /** `!`: signals the cut on the goal frame, then one solution. */
  function CutPrimitive(gf: GoalFrame, st: Store, e: Engine): (r: Outcome)
    ensures r.gf.cut && r.solutions == [st] && r.st == st
    ensures r.gf.userCanceled <==> gf.userCanceled || e.answer(st) == UserAbort
  {
    NotifySolution(gf.(cut := true), st, e)
  }

  /** `var/1`: one solution when the argument is the anonymous variable or a
      variable whose chain ends free; none for any other term. */
  function VarPrimitive(t: Term, frame: nat, gf: GoalFrame, st: Store, e: Engine, fuel: nat): (r: Result<Outcome>)
    ensures r.Ok? ==> r.value.st == st && |r.value.solutions| <= 1
    ensures !t.Var? ==> r == Ok(Outcome([], gf, st))
    ensures IsAnonymous(t) ==> r == Ok(NotifySolution(gf, st, e))
    ensures t.Var? && !IsAnonymous(t) ==>
              && (r.Ok? <==> DereferencedBinding(t, frame, st, fuel).Ok?)
              && (r.Ok? ==> (|r.value.solutions| == 1 <==> !DereferencedBinding(t, frame, st, fuel).value.Literal?))
  {
    if !t.Var? then Ok(Outcome([], gf, st))
    else if IsAnonymous(t) then Ok(NotifySolution(gf, st, e))
    else
      var b :- DereferencedBinding(t, frame, st, fuel);
      if !b.Literal? then Ok(NotifySolution(gf, st, e)) else Ok(Outcome([], gf, st))
  }

  /** `=`: one solution iff the terms unify, and the bindings are undone
      afterwards. */
  function UnifyPrimitive(t1: Term, t2: Term, frame: nat, gf: GoalFrame, st: Store, e: Engine, fuel: nat): (r: Result<Outcome>)
    ensures var u := Unify(t1, frame, t2, frame, st, fuel);
            && (r.Ok? <==> u.Ok?)
            && (r.Ok? ==> r.value.st == st && (|r.value.solutions| == 1 <==> u.value.0) && |r.value.solutions| <= 1)
            && (r.Ok? && u.value.0 ==> r.value.solutions[0] == u.value.1)
  {
    UnifyThenNotify(t1, frame, t2, frame, gf, st, e, fuel)
  }

  /** `\=`: one solution iff the terms do not unify, in the bindings as they
      were; no binding is left behind either way. */
  function NotUnifyPrimitive(t1: Term, t2: Term, frame: nat, gf: GoalFrame, st: Store, e: Engine, fuel: nat)
    : (r: Result<Outcome>)
    ensures var u := Unify(t1, frame, t2, frame, st, fuel);
            && (r.Ok? <==> u.Ok?)
            && (r.Ok? ==> r.value.st == st && (|r.value.solutions| == 1 <==> !u.value.0) && |r.value.solutions| <= 1)
            && (r.Ok? && !u.value.0 ==> r.value.solutions == [st])
  {
    var (ok, st') :- Unify(t1, frame, t2, frame, st, fuel);
    if !ok then Ok(NotifySolution(gf, st', e))
    else Ok(Outcome([], gf, Deunify(st').value))
  }

  /** Of `=` and `\=` on the same terms, exactly one has a solution. */
  lemma UnifyOrNotUnify(t1: Term, t2: Term, frame: nat, gf: GoalFrame, st: Store, e: Engine, fuel: nat)
    requires Unify(t1, frame, t2, frame, st, fuel).Ok?
    ensures |UnifyPrimitive(t1, t2, frame, gf, st, e, fuel).value.solutions|
            + |NotUnifyPrimitive(t1, t2, frame, gf, st, e, fuel).value.solutions| == 1
  {
  }

  /** `var(X)` holds before `X = t` and fails in its solution, for a variable
      whose own binding is free and a term that is not a variable. */
  lemma VarThenBound(x: Term, t: Term, frame: nat, gf: GoalFrame, st: Store, e: Engine, fuel: nat)
    requires x.Var? && !IsAnonymous(x) && !t.Var? && fuel > 0
    requires BindingWithin(x, frame, st).Ok? && Get(st, Slot(frame, x.index)).Free?
    ensures |VarPrimitive(x, frame, gf, st, e, fuel).value.solutions| == 1
    ensures var u := UnifyPrimitive(x, t, frame, gf, st, e, fuel);
            && u.Ok? && |u.value.solutions| == 1
            && VarPrimitive(x, frame, gf, u.value.solutions[0], e, fuel) == Ok(Outcome([], gf, u.value.solutions[0]))
  {
    var s := Slot(frame, x.index);
    var st' := BindFree(x, t, frame, frame, st, fuel);
    assert BindingWithin(x, frame, st') == Ok(s);
  }

  /** Unifying a variable whose own binding is free with a term that is not a
      variable binds it to that term, read in its frame. */
  lemma BindFree(x: Term, t: Term, fx: nat, ft: nat, st: Store, fuel: nat) returns (st': Store)
    requires x.Var? && !IsAnonymous(x) && !t.Var? && fuel > 0
    requires BindingWithin(x, fx, st).Ok? && Get(st, Slot(fx, x.index)).Free?
    ensures Unify(x, fx, t, ft, st, fuel) == Ok((true, st'))
    ensures st'.frames == Set(st, Slot(fx, x.index), Literal(t, ft)).frames
    ensures Get(st', Slot(fx, x.index)) == Literal(t, ft)
  {
    var s := Slot(fx, x.index);
    var m := Mark(st);
    assert BindingWithin(x, fx, m) == Ok(s);
    assert FollowLinks(m, s, fuel) == Ok(s);
    UnifyFreeVar(x, fx, t, ft, m, fuel);
    st' := AddBinding(Set(m, s, Literal(t, ft)), s);
  }

  /** `\+`: one solution iff the goal has none; the bindings do not change.
      The goal is solved in the caller's goal frame under a listener that
      answers `USER_ABORT` at its first solution, and notifying that answer
      raises the user cancellation on the goal frame. */
  function NotPrimitive(goal: Term, frame: nat, gf: GoalFrame, st: Store, e: Engine, fuel: nat): (r: Result<Outcome>)
    ensures var f := Focus(goal, frame, st, fuel);
            && (r.Ok? <==> f.Ok? && !f.value.free)
            && (r.Err? && f.Ok? ==> r.error == NonSpecific)
            && (r.Ok? ==> r.value.st == st && r.value.gf.cut == gf.cut)
            && (r.Ok? ==> (r.value.solutions == [st] <==> e.solve(f.value.referrer, f.value.frame, st) == []))
            && (r.Ok? ==> (r.value.gf.userCanceled <==> gf.userCanceled || e.solve(f.value.referrer, f.value.frame, st) != []))
            && (r.Ok? ==> |r.value.solutions| <= 1)
  {
    var f :- Focus(goal, frame, st, fuel);
    var g :- AssertValidBindings(f);
    if e.solve(g.referrer, g.frame, st) == [] then Ok(Outcome([st], gf, st))
    else Ok(Outcome([], gf.(userCanceled := true), st))
  }

  const EqualsFunctor: string := "="

  /** With a solver that answers `A = B` as the `=` primitive does, `\+ A = B`
      has a solution exactly when `A \= B` has. */
  lemma NegatedEquality(goal: Term, frame: nat, gf: GoalFrame, st: Store, e: Engine, fuel: nat)
    requires goal.Struct? && goal.name == EqualsFunctor && |goal.args| == 2
    requires UnifyPrimitive(goal.args[0], goal.args[1], frame, gf, st, e, fuel).Ok?
    requires e.solve(goal, frame, st) == UnifyPrimitive(goal.args[0], goal.args[1], frame, gf, st, e, fuel).value.solutions
    ensures NotPrimitive(goal, frame, gf, st, e, fuel).value.solutions
            == NotUnifyPrimitive(goal.args[0], goal.args[1], frame, gf, st, e, fuel).value.solutions
  {
  }

  /** `t` is the template substituted in the bindings `s`, whatever
      reference the substitution allocates from. */
  ghost predicate IsInstance(template: Term, frame: nat, s: Store, fuel: nat, t: Term) {
    exists n: nat :: Substitute(template, frame, s, None, fuel, n).Ok? && Substitute(template, frame, s, None, fuel, n).value.0 == t
  }

  lemma SubstitutedInstance(template: Term, frame: nat, s: Store, fuel: nat, n: nat)
    requires Substitute(template, frame, s, None, fuel, n).Ok?
    ensures IsInstance(template, frame, s, fuel, Substitute(template, frame, s, None, fuel, n).value.0)
  {
  }

  /** The template, substituted in the bindings of each solution, in order;
      new structures are allocated from `next` on. */
  function Instances(template: Term, frame: nat, sols: seq<Store>, fuel: nat, next: nat): (r: Result<(seq<Term>, nat)>)
    ensures r.Ok? ==> |r.value.0| == |sols| && next <= r.value.1
    ensures r.Ok? ==> forall i :: 0 <= i < |sols| ==> IsInstance(template, frame, sols[i], fuel, r.value.0[i])
  {
    if |sols| == 0 then Ok(([], next))
    else
      var (first, mid) :- Substitute(template, frame, sols[0], None, fuel, next);
      var (rest, after) :- Instances(template, frame, sols[1..], fuel, mid);
      var items := [first] + rest;
      assert forall i :: 0 <= i < |sols| ==> IsInstance(template, frame, sols[i], fuel, items[i]) by {
        forall i | 0 <= i < |sols| ensures IsInstance(template, frame, sols[i], fuel, items[i]) {
          if i == 0 {
            SubstitutedInstance(template, frame, sols[0], fuel, next);
          } else {
            assert sols[i] == sols[1..][i - 1] && items[i] == rest[i - 1];
          }
        }
      }
      Ok((items, after))
  }

  /** `findall/3`: the template is substituted once per solution of the goal,
      in the goal's bindings, and the list of those instances is unified with
      the result.  The list cells are allocated after the instances. */
  function FindAllPrimitive(template: Term, goal: Term, result: Term, frame: nat, gf: GoalFrame, st: Store, e: Engine, fuel: nat, next: nat)
    : (r: Result<Outcome>)
    ensures r.Ok? ==> r.value.st == st && |r.value.solutions| <= 1
    ensures Focus(goal, frame, st, fuel).Ok? && Focus(goal, frame, st, fuel).value.free ==> r == Err(NonSpecific)
  {
    var f :- Focus(goal, frame, st, fuel);
    var g :- AssertValidBindings(f);
    var (items, after) :- Instances(template, g.frame, e.solve(g.referrer, g.frame, st), fuel, next);
    UnifyThenNotify(result, frame, CreatePList(items, after), frame, gf, st, e, fuel)
  }

  /** With a result variable whose own binding is free, `findall` has one
      solution, binding the result to the list of the instances of the
      template, one per solution of the goal, in order. */
  lemma FindAllCollects(template: Term, goal: Term, result: Term, frame: nat, gf: GoalFrame, st: Store, e: Engine, fuel: nat, next: nat)
    requires result.Var? && !IsAnonymous(result) && fuel > 0
    requires BindingWithin(result, frame, st).Ok? && Get(st, Slot(frame, result.index)).Free?
    requires Focus(goal, frame, st, fuel).Ok? && !Focus(goal, frame, st, fuel).value.free
    requires var g := Focus(goal, frame, st, fuel).value;
             Instances(template, g.frame, e.solve(g.referrer, g.frame, st), fuel, next).Ok?
    ensures var g := Focus(goal, frame, st, fuel).value;
            var (items, after) := Instances(template, g.frame, e.solve(g.referrer, g.frame, st), fuel, next).value;
            var r := FindAllPrimitive(template, goal, result, frame, gf, st, e, fuel, next);
            && r.Ok? && |r.value.solutions| == 1
            && Get(r.value.solutions[0], Slot(frame, result.index)) == Literal(CreatePList(items, after), frame)
            && ListElements(CreatePList(items, after)) == items
            && |items| == |e.solve(g.referrer, g.frame, st)|
  {
    var g := Focus(goal, frame, st, fuel).value;
    var (items, after) := Instances(template, g.frame, e.solve(g.referrer, g.frame, st), fuel, next).value;
    var st' := BindFree(result, CreatePList(items, after), frame, frame, st, fuel);
    CreatePListRoundTrip(items, after);
  }

  /** `=..`: a structure `f(a1, ..., an)` gives the list `[f, a1, ..., an]`,
      read in the structure's frame, to unify with the right side; a free left
      side is built from the list on the right; both free is an error.  The
      atom `f` is allocated at `id` and the list cells from `id + 1` on; a
      structure built from a list is allocated at `id`. */
  function UnivPrimitive(pred: Term, list: Term, frame: nat, gf: GoalFrame, st: Store, e: Engine, fuel: nat, id: nat)
    : (r: Result<Outcome>)
    ensures r.Ok? ==> r.value.st == st && |r.value.solutions| <= 1
    ensures var p := Focus(pred, frame, st, fuel);
            var l := Focus(list, frame, st, fuel);
            p.Ok? && p.value.free && l.Ok? && l.value.free ==> r == Err(NonSpecific)
    ensures var p := Focus(pred, frame, st, fuel);
            p.Ok? && !p.value.free && !p.value.referrer.Struct? ==> r == Ok(Outcome([], gf, st))
  {
    var p :- Focus(pred, frame, st, fuel);
    if p.free then
      var l :- Focus(list, frame, st, fuel);
      var lst :- AssertValidBindings(l);
      if !lst.referrer.Struct? then Err(ClassCast)
      else
        var flattened :- PredicateFromPList(lst.referrer, id);
        if flattened.None? then Err(NullReference)
        else UnifyThenNotify(pred, frame, flattened.value, lst.frame, gf, st, e, fuel)
    else if p.referrer.Struct? then
      var s := p.referrer;
      UnifyThenNotify(list, frame, CreatePList([Atom(s.name, id)] + s.args, id + 1), p.frame, gf, st, e, fuel)
    else Ok(Outcome([], gf, st))
  }

  /** `f(a1, ..., an) =.. L` binds a free `L` to `[f, a1, ..., an]`, and
      turning that list back into a structure gives `f(a1, ..., an)`. */
  lemma UnivRoundTrip(s: Term, list: Term, frame: nat, gf: GoalFrame, st: Store, e: Engine, fuel: nat, id: nat, id': nat)
    requires s.Struct? && list.Var? && !IsAnonymous(list) && fuel > 0
    requires BindingWithin(list, frame, st).Ok? && Get(st, Slot(frame, list.index)).Free?
    ensures var plist := CreatePList([Atom(s.name, id)] + s.args, id + 1);
            var r := UnivPrimitive(s, list, frame, gf, st, e, fuel, id);
            && r.Ok? && |r.value.solutions| == 1
            && Get(r.value.solutions[0], Slot(frame, list.index)) == Literal(plist, frame)
            && ListElements(plist) == [Atom(s.name, id)] + s.args
            && PredicateFromPList(plist, id') == Ok(Some(StructOf(s.name, s.args, id')))
  {
    var plist := CreatePList([Atom(s.name, id)] + s.args, id + 1);
    var st' := BindFree(list, plist, frame, frame, st, fuel);
    CreatePListRoundTrip([Atom(s.name, id)] + s.args, id + 1);
    PredicateFromCreatedPList(Atom(s.name, id), s.args, id + 1, id');
  }

  /** `X =.. [f, a1, ..., an]` with `X` free builds `f(a1, ..., an)` at `id`
      and binds `X` to it, read in the list's frame, in the one solution; the
      bindings are left as they were. */
  lemma UnivFromList(pred: Term, list: Term, frame: nat, gf: GoalFrame, st: Store, e: Engine, fuel: nat, id: nat,
                     f: Term, xs: seq<Term>, j: nat, lf: nat)
    requires pred.Var? && !IsAnonymous(pred) && fuel > 0
    requires BindingWithin(pred, frame, st).Ok? && Get(st, Slot(frame, pred.index)).Free?
    requires IsAtom(f) && Focus(list, frame, st, fuel) == Ok(Focused(CreatePList([f] + xs, j), lf, false))
    ensures var r := UnivPrimitive(pred, list, frame, gf, st, e, fuel, id);
            && r.Ok? && r.value.st == st && |r.value.solutions| == 1
            && Get(r.value.solutions[0], Slot(frame, pred.index)) == Literal(StructOf(f.name, xs, id), lf)
            && r.value.gf == NotifySolution(gf, r.value.solutions[0], e).gf
  {
    UnivFromListUnifies(pred, list, frame, gf, st, e, fuel, id, f, xs, j, lf);
    var st' := BindFree(pred, StructOf(f.name, xs, id), frame, lf, st, fuel);
  }

  /** With a free left side, `=..` is the unification with the structure built
      from the list. */
  lemma UnivFromListUnifies(pred: Term, list: Term, frame: nat, gf: GoalFrame, st: Store, e: Engine, fuel: nat, id: nat,
                            f: Term, xs: seq<Term>, j: nat, lf: nat)
    requires pred.Var? && BindingWithin(pred, frame, st).Ok? && Get(st, Slot(frame, pred.index)).Free?
    requires IsAtom(f) && Focus(list, frame, st, fuel) == Ok(Focused(CreatePList([f] + xs, j), lf, false))
    ensures UnivPrimitive(pred, list, frame, gf, st, e, fuel, id)
            == UnifyThenNotify(pred, frame, StructOf(f.name, xs, id), lf, gf, st, e, fuel)
  {
    var s := Slot(frame, pred.index);
    assert FollowLinks(st, s, fuel) == Ok(s);
    assert Focus(pred, frame, st, fuel).value.free;
    PredicateFromCreatedPList(f, xs, j, id);
  }

  /** `is/2`: no solution when the right side does not evaluate; otherwise
      one iff the left side unifies with the value.  As written
      (`asWritten`), the right side is evaluated as `evaluateFunctor` does,
      a bound literal in the caller's frame. */
  function IsPrimitive(t1: Term, t2: Term, frame: nat, gf: GoalFrame, st: Store, e: Engine, fuel: nat, asWritten: bool)
    : (r: Result<Outcome>)
    ensures r.Ok? ==> r.value.st == st && |r.value.solutions| <= 1
    ensures var v := EvaluateFunctor(Some(t2), frame, st, e, fuel, asWritten);
            && (v.Err? ==> r == Err(v.error))
            && (v.Ok? && v.value.None? ==> r == Ok(Outcome([], gf, st)))
            && (v.Ok? && v.value.Some? ==> r == UnifyThenNotify(t1, frame, v.value.value, frame, gf, st, e, fuel))
  {
    var v :- EvaluateFunctor(Some(t2), frame, st, e, fuel, asWritten);
    if v.None? then Ok(Outcome([], gf, st))
    else UnifyThenNotify(t1, frame, v.value, frame, gf, st, e, fuel)
  }

  /** `X is E`, for a variable whose own binding is free and an expression
      with a value, binds `X` to that value in its one solution. */
  lemma IsBindsValue(x: Term, t: Term, frame: nat, gf: GoalFrame, st: Store, e: Engine, fuel: nat, asWritten: bool)
    requires x.Var? && !IsAnonymous(x) && fuel > 0
    requires BindingWithin(x, frame, st).Ok? && Get(st, Slot(frame, x.index)).Free?
    requires var v := EvaluateFunctor(Some(t), frame, st, e, fuel, asWritten);
             v.Ok? && v.value.Some? && !v.value.value.Var?
    ensures var n := EvaluateFunctor(Some(t), frame, st, e, fuel, asWritten).value.value;
            var r := IsPrimitive(x, t, frame, gf, st, e, fuel, asWritten);
            && r.Ok? && |r.value.solutions| == 1
            && Get(r.value.solutions[0], Slot(frame, x.index)) == Literal(n, frame)
  {
    var n := EvaluateFunctor(Some(t), frame, st, e, fuel, asWritten).value.value;
    var st' := BindFree(x, n, frame, frame, st, fuel);
  }

  /** As written, `6 is X` with `X` bound to `Y + 1` read in frame 1 has no
      solution, since `Y` is read at the caller's offset and `X` is 8;
      corrected, `X` is 6 and there is one solution. */
  lemma IsUsesCallerFrame(gf: GoalFrame, e: Engine)
    ensures IsPrimitive(Long(6), VarX, 0, gf, TwoFrames, e, 2, true) == Ok(Outcome([], gf, TwoFrames))
    ensures var r := IsPrimitive(Long(6), VarX, 0, gf, TwoFrames, e, 2, false);
            r.Ok? && |r.value.solutions| == 1
  {
    EvaluationUsesCallerFrame(e);
    UnifyGround(Long(6), 0, Long(8), 0, Mark(TwoFrames), 2);
    UnifyGround(Long(6), 0, Long(6), 0, Mark(TwoFrames), 2);
  }

  /** `>` and `<`: both sides are evaluated, left first, as `evaluateFunctor`
      does (`asWritten`) or corrected; one solution iff both are numbers in
      that order. */
  function ComparePrimitive(greater: bool, t1: Term, t2: Term, frame: nat, gf: GoalFrame, st: Store, e: Engine, fuel: nat,
                            asWritten: bool)
    : (r: Result<Outcome>)
    ensures var a := EvaluateFunctor(Some(t1), frame, st, e, fuel, asWritten);
            var b := EvaluateFunctor(Some(t2), frame, st, e, fuel, asWritten);
            && (r.Ok? <==> a.Ok? && b.Ok?)
            && (a.Err? ==> r == Err(a.error))
            && (r.Ok? ==> r.value.st == st && |r.value.solutions| <= 1)
            && (r.Ok? ==>
                  (|r.value.solutions| == 1 <==>
                     && a.value.Some? && a.value.value.Long? && b.value.Some? && b.value.value.Long?
                     && if greater then a.value.value.value > b.value.value.value
                        else a.value.value.value < b.value.value.value))
  {
    var a :- EvaluateFunctor(Some(t1), frame, st, e, fuel, asWritten);
    var b :- EvaluateFunctor(Some(t2), frame, st, e, fuel, asWritten);
    if a.Some? && a.value.Long? && b.Some? && b.value.Long?
       && (if greater then a.value.value > b.value.value else a.value.value < b.value.value)
    then Ok(NotifySolution(gf, st, e))
    else Ok(Outcome([], gf, st))
  }

  /** `A > B` has a solution exactly when `B < A` has. */
  lemma GreaterIsSwappedLess(t1: Term, t2: Term, frame: nat, gf: GoalFrame, st: Store, e: Engine, fuel: nat, asWritten: bool)
    requires EvaluateFunctor(Some(t1), frame, st, e, fuel, asWritten).Ok?
    requires EvaluateFunctor(Some(t2), frame, st, e, fuel, asWritten).Ok?
    ensures |ComparePrimitive(true, t1, t2, frame, gf, st, e, fuel, asWritten).value.solutions|
            == |ComparePrimitive(false, t2, t1, frame, gf, st, e, fuel, asWritten).value.solutions|
  {
  }

  /** Wrapped subtraction undoes wrapped addition, overflow or not. */
  lemma SubtractUndoesAdd(a: Int64, b: Int64)
    ensures Apply(Subtract, Apply(Add, a, b), b) == a
  {
    var s := a + b;
    var w := Apply(Add, a, b);
    assert (w - s) % 0x1_0000_0000_0000_0000 == 0;
    WrapCongruent(w - b, a);
  }

  /** Two integers congruent modulo 2^64 wrap to the same `long`. */
  lemma WrapCongruent(x: int, y: int)
    requires (x - y) % 0x1_0000_0000_0000_0000 == 0
    ensures Wrap64(x) == Wrap64(y)
  {
    var k := (x - y) / 0x1_0000_0000_0000_0000;
    assert x - MinLong == (y - MinLong) + k * 0x1_0000_0000_0000_0000;
  }

  /** Negating the smallest `long` gives it back, as in Java. */
  lemma NegateSmallest(frame: nat, st: Store, e: Engine, fuel: nat)
    ensures Negate(Long(MinLong), frame, st, e, fuel, false) == Ok(Long(MinLong))
  {
  }
}

=== FILE: marshaller.dfy ===
/** `DefaultTermMarshaller`: the text of a term.  Without an engine a
    structure is written in canonical form, `name(arg, arg)`, with lists as
    `[a,b|T]`; with an engine, operators are written infix, prefix or
    postfix according to their priority.  `Parser.isAtom` (may a name go
    unquoted) and the operator manager's `opPrio` are not part of this model
    and are given as parameters. */
module Marshalling {
  import opened Results
  import opened Terms
  import opened Bindings
  import opened TermApi
  import Text
  import ReferenceTexts

  /** The operator types of the operator manager. */
  datatype OpType = XFX | YFX | XFY | FX | FY | XF | YF

  /** Priorities range over 1..1200, as in section 6.3.4 of ISO/IEC 13211-1. */
  const OpLowest: int := 1
  const OpHighest: int := 1200

  const ArgSeparator: string := ", "
  const ElemSeparator: string := ","

  /** The syntax the marshaller consults: which names are plain atoms, and
      the priority of a name as an operator of a type (below `OpLowest` when
      it is not one). */
  datatype Syntax = Syntax(isAtomName: string -> bool, opPrio: (string, OpType) -> int)

  // ---------------------------------------------------------------------------
  // Quoting
  // ---------------------------------------------------------------------------

  predicate IsLowerAscii(c: char) { 'a' <= c <= 'z' }

  /** `possiblyQuote`: quotes the text unless it starts with a lower-case
      letter and holds no '.'; the empty text becomes `''`. */
  function PossiblyQuote(text: string): (r: string)
    ensures r == text <==> |text| > 0 && IsLowerAscii(text[0]) && '.' !in text
    ensures r != text ==> r == "'" + text + "'"
  {
    if |text| == 0 then "''"
    else if !IsLowerAscii(text[0]) || '.' in text then "'" + text + "'"
    else text
  }

  /** Removes one pair of surrounding quotes. */
  function Unquote(s: string): string {
    if |s| >= 2 && s[0] == '\'' && s[|s| - 1] == '\'' then s[1..|s| - 1] else s
  }

  /** Quoting loses nothing: unquoting gives the text back. */
  lemma QuoteRoundTrip(text: string)
    ensures Unquote(PossiblyQuote(text)) == text
  {
    var q := PossiblyQuote(text);
    if q != text {
      assert q[1..|q| - 1] == text;
    } else {
      assert q[0] != '\'';
    }
  }

  // ---------------------------------------------------------------------------
  // Canonical form, optionally through bindings
  // ---------------------------------------------------------------------------

  /** The visitor on a term: numbers in decimal, variables by `VisitVar`,
      structures by `FormatStruct`.  `frame` is the bindings to resolve
      variables in, or none. */
  function AcceptTerm(t: Term, frame: Option<nat>, st: Store, syn: Syntax, fuel: nat): (r: Result<string>)
    ensures t.Long? ==> r == Ok(Text.IntToString(t.value))
    decreases fuel, t, 2
  {
    match t
    case Long(v) => Ok(Text.IntToString(v))
    case Var(_, _, _) => VisitVar(t, frame, st, syn, fuel)
    case Struct(_, _, _, _, _, _) => FormatStruct(t, frame, st, syn, fuel)
  }

  /** `visit(Var)`: without bindings the name; the anonymous variable as
      `_`; a variable whose chain ends free by its name; otherwise the bound
      term, formatted within its own bindings. */
  function VisitVar(v: Term, frame: Option<nat>, st: Store, syn: Syntax, fuel: nat): (r: Result<string>)
    requires v.Var?
    ensures frame.None? ==> r == Ok(v.name)
    ensures frame.Some? && IsAnonymous(v) ==> r == Ok(AnonymousName)
    decreases fuel, v, 1
  {
    if frame.None? then Ok(v.name)
    else if IsAnonymous(v) then Ok(AnonymousName)
    else
      var s :- BindingWithin(v, frame.value, st);
      var e :- FollowLinks(st, s, fuel);
      var b := Get(st, e);
      if !b.Literal? then Ok(v.name)
      else if fuel == 0 then Err(StackExhausted)
      else AcceptTerm(b.term, Some(b.frame), st, syn, fuel - 1)
  }

  /** `formatStruct`. */
  function FormatStruct(t: Term, frame: Option<nat>, st: Store, syn: Syntax, fuel: nat): (r: Result<string>)
    requires t.Struct?
    ensures IsEmptyList(t) ==> r == Ok(EmptyListFunctor)
    decreases fuel, t, 1
  {
    if IsEmptyList(t) then Ok(EmptyListFunctor)
    else if t.name == ListFunctor && |t.args| == 2 then
      var inner :- FormatPList(t, frame, st, syn, fuel);
      Ok("[" + inner + "]")
    else
      var head := if syn.isAtomName(t.name) then t.name else "'" + t.name + "'";
      if |t.args| == 0 then
        Ok(head)
      else
        var inner :- FormatArgs(t.args, frame, st, syn, fuel);
        Ok(head + "(" + inner + ")")
  }

  /** The arguments, each formatted, separated by ", ". */
  function FormatArgs(ts: seq<Term>, frame: Option<nat>, st: Store, syn: Syntax, fuel: nat): (r: Result<string>)
    requires |ts| > 0
    decreases fuel, ts, 0
  {
    var first :- AcceptTerm(ts[0], frame, st, syn, fuel);
    if |ts| == 1 then Ok(first)
    else
      var rest :- FormatArgs(ts[1..], frame, st, syn, fuel);
      Ok(first + ArgSeparator + rest)
  }

  /** `formatPListRecursive`: the elements of a proper list separated by ",",
      and an improper tail after '|'. */
  function FormatPList(t: Term, frame: Option<nat>, st: Store, syn: Syntax, fuel: nat): (r: Result<string>)
    requires t.Struct? && t.name == ListFunctor && |t.args| == 2
    decreases fuel, t, 0
  {
    var h :- AcceptTerm(t.args[0], frame, st, syn, fuel);
    var tail := t.args[1];
    if IsList(tail) then
      if IsEmptyList(tail) then Ok(h)
      else
        var rest :- FormatPList(tail, frame, st, syn, fuel);
        Ok(h + ElemSeparator + rest)
    else
      var tl :- AcceptTerm(tail, frame, st, syn, fuel);
      Ok(h + "|" + tl)
  }

  /** The pieces joined with a separator. */
  function Join(pieces: seq<string>, sep: string): string {
    if |pieces| == 0 then ""
    else if |pieces| == 1 then pieces[0]
    else pieces[0] + sep + Join(pieces[1..], sep)
  }

  /** Each term formatted on its own, stopping at the first failure. */
  function RenderEach(ts: seq<Term>, frame: Option<nat>, st: Store, syn: Syntax, fuel: nat): (r: Result<seq<string>>)
    ensures r.Ok? ==> |r.value| == |ts|
  {
    if |ts| == 0 then Ok([])
    else
      var first :- AcceptTerm(ts[0], frame, st, syn, fuel);
      var rest :- RenderEach(ts[1..], frame, st, syn, fuel);
      Ok([first] + rest)
  }

  /** A compound that is not a list cell is written `name(a1, ..., an)`, the
      name quoted unless the parser takes it for an atom. */
  lemma {:induction false} CanonicalCompound(t: Term, frame: Option<nat>, st: Store, syn: Syntax, fuel: nat)
    requires t.Struct? && |t.args| > 0 && !(t.name == ListFunctor && |t.args| == 2)
    ensures var pieces := RenderEach(t.args, frame, st, syn, fuel);
            var head := if syn.isAtomName(t.name) then t.name else "'" + t.name + "'";
            FormatStruct(t, frame, st, syn, fuel)
              == if pieces.Ok? then Ok(head + "(" + Join(pieces.value, ArgSeparator) + ")") else Err(pieces.error)
  {
    ArgsJoined(t.args, frame, st, syn, fuel);
  }

  lemma {:induction false} ArgsJoined(ts: seq<Term>, frame: Option<nat>, st: Store, syn: Syntax, fuel: nat)
    requires |ts| > 0
    ensures var pieces := RenderEach(ts, frame, st, syn, fuel);
            FormatArgs(ts, frame, st, syn, fuel)
              == if pieces.Ok? then Ok(Join(pieces.value, ArgSeparator)) else Err(pieces.error)
  {
    if |ts| > 1 {
      ArgsJoined(ts[1..], frame, st, syn, fuel);
      var first := AcceptTerm(ts[0], frame, st, syn, fuel);
      var rest := RenderEach(ts[1..], frame, st, syn, fuel);
      if first.Ok? && rest.Ok? {
        assert ([first.value] + rest.value)[1..] == rest.value;
      }
    }
  }

  /** A proper list with elements `xs` is written `[x1,...,xn]`. */
  lemma {:induction false} ProperListRendering(xs: seq<Term>, id: nat, frame: Option<nat>, st: Store, syn: Syntax, fuel: nat)
    requires |xs| > 0
    ensures var pieces := RenderEach(xs, frame, st, syn, fuel);
            FormatStruct(CreatePList(xs, id), frame, st, syn, fuel)
              == if pieces.Ok? then Ok("[" + Join(pieces.value, ElemSeparator) + "]") else Err(pieces.error)
  {
    ListElementsJoined(xs, id, frame, st, syn, fuel);
  }

  lemma {:induction false} ListElementsJoined(xs: seq<Term>, id: nat, frame: Option<nat>, st: Store, syn: Syntax, fuel: nat)
    requires |xs| > 0
    ensures var pieces := RenderEach(xs, frame, st, syn, fuel);
            FormatPList(CreatePList(xs, id), frame, st, syn, fuel)
              == if pieces.Ok? then Ok(Join(pieces.value, ElemSeparator)) else Err(pieces.error)
  {
    var l := CreatePList(xs, id);
    assert l.args[0] == xs[0] && l.args[1] == CreatePList(xs[1..], id + 1);
    if |xs| > 1 {
      ListElementsJoined(xs[1..], id + 1, frame, st, syn, fuel);
      var first := AcceptTerm(xs[0], frame, st, syn, fuel);
      var rest := RenderEach(xs[1..], frame, st, syn, fuel);
      if first.Ok? && rest.Ok? {
        assert ([first.value] + rest.value)[1..] == rest.value;
      }
    }
  }

  /** No variable occurs in the term. */
  predicate VarFree(t: Term) {
    match t
    case Var(_, _, _) => false
    case Struct(_, _, args, _, _, _) => forall i :: 0 <= i < |args| ==> VarFree(args[i])
    case Long(_) => true
  }

  /** Bindings play no part in the text of a term without variables. */
  lemma {:induction false} GroundIgnoresBindings(t: Term, frame: nat, st: Store, syn: Syntax, fuel: nat)
    requires VarFree(t)
    ensures AcceptTerm(t, Some(frame), st, syn, fuel) == AcceptTerm(t, None, st, syn, fuel)
    decreases t, 1
  {
    if t.Struct? {
      if IsEmptyList(t) {
      } else if t.name == ListFunctor && |t.args| == 2 {
        PListIgnoresBindings(t, frame, st, syn, fuel);
      } else if |t.args| > 0 {
        ArgsIgnoreBindings(t.args, frame, st, syn, fuel);
      }
    }
  }

  lemma {:induction false} ArgsIgnoreBindings(ts: seq<Term>, frame: nat, st: Store, syn: Syntax, fuel: nat)
    requires |ts| > 0 && forall i :: 0 <= i < |ts| ==> VarFree(ts[i])
    ensures FormatArgs(ts, Some(frame), st, syn, fuel) == FormatArgs(ts, None, st, syn, fuel)
    decreases ts, 0
  {
    GroundIgnoresBindings(ts[0], frame, st, syn, fuel);
    if |ts| > 1 {
      assert forall i :: 0 <= i < |ts[1..]| ==> ts[1..][i] == ts[i + 1];
      ArgsIgnoreBindings(ts[1..], frame, st, syn, fuel);
    }
  }

  lemma {:induction false} PListIgnoresBindings(t: Term, frame: nat, st: Store, syn: Syntax, fuel: nat)
    requires t.Struct? && t.name == ListFunctor && |t.args| == 2 && VarFree(t)
    ensures FormatPList(t, Some(frame), st, syn, fuel) == FormatPList(t, None, st, syn, fuel)
    decreases t, 0
  {
    GroundIgnoresBindings(t.args[0], frame, st, syn, fuel);
    var tail := t.args[1];
    if IsList(tail) && !IsEmptyList(tail) {
      PListIgnoresBindings(tail, frame, st, syn, fuel);
    } else if !IsList(tail) {
      GroundIgnoresBindings(tail, frame, st, syn, fuel);
    }
  }

  // ---------------------------------------------------------------------------
  // Operator-aware form
  // ---------------------------------------------------------------------------

  /** The parenthesis rule: an X argument needs parentheses from equal
      priority on, a Y argument only above it. */
  predicate NeedsParens(p: int, prio: int, x: bool) {
    (x && p >= prio) || (!x && p > prio)
  }

  function Parenthesized(s: string, parens: bool): string {
    if parens then "(" + s + ")" else s
  }

  /** `toStringAsArg` with its list shortcut as written (`asWritten`), or
      corrected: see `ToStringAsArgAsWritten` and `ToStringAsArg`. */
  function RenderArg(t: Term, prio: int, x: bool, syn: Syntax, asWritten: bool): (r: string)
    ensures t.Struct? && t.name == ListFunctor && |t.args| == 2 && !(asWritten && IsEmptyList(t.args[0])) ==>
              |r| >= 2 && r[0] == '[' && r[|r| - 1] == ']'
    decreases t, 2
  {
    if !t.Struct? then
      if t.Var? then t.name else Text.IntToString(t.value)
    else if !asWritten && IsEmptyList(t) then EmptyListFunctor
    else if t.name == ListFunctor && |t.args| == 2 then
      if asWritten && IsEmptyList(t.args[0]) then EmptyListFunctor
      else "[" + RenderList(t, syn, asWritten) + "]"
    else if |t.args| == 2 && syn.opPrio(t.name, XFX) >= OpLowest then
      var p := syn.opPrio(t.name, XFX);
      Parenthesized(RenderArg(t.args[0], p, true, syn, asWritten) + " " + t.name + " " + RenderArg(t.args[1], p, true, syn, asWritten), NeedsParens(p, prio, x))
    else if |t.args| == 2 && syn.opPrio(t.name, YFX) >= OpLowest then
      var p := syn.opPrio(t.name, YFX);
      Parenthesized(RenderArg(t.args[0], p, false, syn, asWritten) + " " + t.name + " " + RenderArg(t.args[1], p, true, syn, asWritten), NeedsParens(p, prio, x))
    else if |t.args| == 2 && syn.opPrio(t.name, XFY) >= OpLowest then
      var p := syn.opPrio(t.name, XFY);
      var infix := if t.name != ArgSeparator then " " + t.name + " " else ArgSeparator;
      Parenthesized(RenderArg(t.args[0], p, true, syn, asWritten) + infix + RenderArg(t.args[1], p, false, syn, asWritten), NeedsParens(p, prio, x))
    else if |t.args| == 1 && syn.opPrio(t.name, FX) >= OpLowest then
      var p := syn.opPrio(t.name, FX);
      Parenthesized(t.name + " " + RenderArg(t.args[0], p, true, syn, asWritten), NeedsParens(p, prio, x))
    else if |t.args| == 1 && syn.opPrio(t.name, FY) >= OpLowest then
      var p := syn.opPrio(t.name, FY);
      Parenthesized(t.name + " " + RenderArg(t.args[0], p, false, syn, asWritten), NeedsParens(p, prio, x))
    else if |t.args| == 1 && syn.opPrio(t.name, XF) >= OpLowest then
      var p := syn.opPrio(t.name, XF);
      Parenthesized(RenderArg(t.args[0], p, true, syn, asWritten) + " " + t.name + " ", NeedsParens(p, prio, x))
    else if |t.args| == 1 && syn.opPrio(t.name, YF) >= OpLowest then
      var p := syn.opPrio(t.name, YF);
      Parenthesized(RenderArg(t.args[0], p, false, syn, asWritten) + " " + t.name + " ", NeedsParens(p, prio, x))
    else
      var head := if syn.isAtomName(t.name) then t.name else "'" + t.name + "'";
      if |t.args| == 0 then head else head + "(" + RenderArgsY(t.args, syn, asWritten) + ")"
  }

  /** The arguments of a plain compound, as Y arguments of priority 0. */
  function RenderArgsY(ts: seq<Term>, syn: Syntax, asWritten: bool): string
    requires |ts| > 0
    decreases ts, 0
  {
    if |ts| == 1 then RenderArg(ts[0], 0, false, syn, asWritten)
    else RenderArg(ts[0], 0, false, syn, asWritten) + ArgSeparator + RenderArgsY(ts[1..], syn, asWritten)
  }

  /** `toStringAsList`: elements separated by ", ", an improper tail after '|'. */
  function RenderList(t: Term, syn: Syntax, asWritten: bool): string
    requires t.Struct? && t.name == ListFunctor && |t.args| == 2
    decreases t, 1
  {
    var h := RenderArg(t.args[0], 0, false, syn, asWritten);
    var tail := t.args[1];
    if IsList(tail) then
      if IsEmptyList(tail) then h else h + ArgSeparator + RenderList(tail, syn, asWritten)
    else h + "|" + RenderArg(tail, 0, false, syn, asWritten)
  }

  /** The elements of a list, each as a Y argument of priority 0. */
  function RenderElements(xs: seq<Term>, syn: Syntax, asWritten: bool): (r: seq<string>)
    ensures |r| == |xs|
  {
    if |xs| == 0 then [] else [RenderArg(xs[0], 0, false, syn, asWritten)] + RenderElements(xs[1..], syn, asWritten)
  }

  /** `toStringAsArg` as the source writes it: a list cell whose head is the
      empty list is written "[]", whatever follows; so `[[]]` and `[[],a]`
      are both written as the empty list. */
  function ToStringAsArgAsWritten(t: Term, prio: int, x: bool, syn: Syntax): (r: string)
    ensures t.Struct? && t.name == ListFunctor && |t.args| == 2 && IsEmptyList(t.args[0]) ==> r == EmptyListFunctor
  {
    RenderArg(t, prio, x, syn, true)
  }

  /** `toStringAsArg` as evidently intended: the empty list is "[]" and every
      list cell is written as a bracketed list. */
  function ToStringAsArg(t: Term, prio: int, x: bool, syn: Syntax): (r: string)
    ensures IsEmptyList(t) ==> r == EmptyListFunctor
    ensures t.Struct? && t.name == ListFunctor && |t.args| == 2 ==> |r| >= 2 && r[0] == '[' && r[|r| - 1] == ']'
  {
    RenderArg(t, prio, x, syn, false)
  }

  /** With the correction, a proper list is written with every element:
      `[x1, ..., xn]`. */
  lemma {:induction false} ListRendersAllElements(xs: seq<Term>, id: nat, prio: int, x: bool, syn: Syntax)
    requires |xs| > 0
    ensures ToStringAsArg(CreatePList(xs, id), prio, x, syn)
            == "[" + Join(RenderElements(xs, syn, false), ArgSeparator) + "]"
  {
    RenderListJoined(xs, id, syn);
  }

  lemma {:induction false} RenderListJoined(xs: seq<Term>, id: nat, syn: Syntax)
    requires |xs| > 0
    ensures RenderList(CreatePList(xs, id), syn, false) == Join(RenderElements(xs, syn, false), ArgSeparator)
  {
    var l := CreatePList(xs, id);
    assert l.args[0] == xs[0] && l.args[1] == CreatePList(xs[1..], id + 1);
    var es := RenderElements(xs, syn, false);
    assert es[1..] == RenderElements(xs[1..], syn, false);
    if |xs| > 1 {
      RenderListJoined(xs[1..], id + 1, syn);
    }
  }

  /** The list `[[], a]`, cells at references 11 and 12 and the empty lists at 10 and 13. */
  const NestedEmpty: Term := Cons(EmptyList(10), Cons(Atom("a", 14), EmptyList(13), 12), 11)

  /** As written, `[[], a]` is written as the empty list, losing both
      elements; corrected, it is written `[[], a]`. */
  lemma EmptyHeadListLosesElements(syn: Syntax)
    requires syn.isAtomName("a")
    ensures ToStringAsArgAsWritten(NestedEmpty, OpHighest, false, syn) == "[]"
    ensures ToStringAsArg(NestedEmpty, OpHighest, false, syn) == "[[], a]"
  {
    var tail := Cons(Atom("a", 14), EmptyList(13), 12);
    assert IsList(tail) && !IsEmptyList(tail);
    assert RenderList(tail, syn, false) == "a";
    assert RenderArg(EmptyList(10), 0, false, syn, false) == "[]";
  }

  /** `marshall`: with an engine a structure takes the operator-aware form at
      the highest priority, with the list shortcut as written (`asWritten`)
      or corrected; a term given with its bindings is formatted through
      them; anything else in canonical form. */
  datatype Marshallable = Plain(o: Obj) | WithBindings(referrer: Term, frame: nat)

  function Marshall(m: Marshallable, hasEngine: bool, syn: Syntax, st: Store, fuel: nat, asWritten: bool): (r: Result<string>)
    ensures m.Plain? && m.o.StringObj? ==> r == Ok(PossiblyQuote(m.o.text))
    ensures m.Plain? && hasEngine && m.o.TermObj? && m.o.term.Struct? ==>
              r == Ok(if asWritten then ToStringAsArgAsWritten(m.o.term, OpHighest, false, syn)
                      else ToStringAsArg(m.o.term, OpHighest, false, syn))
    ensures m.Plain? && m.o.TermObj? && m.o.term.Var? ==> r == Ok(m.o.term.name)
  {
    match m
    case WithBindings(t, f) => AcceptTerm(t, Some(f), st, syn, fuel)
    case Plain(o) =>
      if hasEngine && o.TermObj? && o.term.Struct? then Ok(RenderArg(o.term, OpHighest, false, syn, asWritten))
      else match o
        case TermObj(t) => AcceptTerm(t, None, st, syn, fuel)
        case StringObj(s) => Ok(PossiblyQuote(s))
        case _ => Ok(ObjText(o))
  }

  /** With an engine, `marshall` as written writes `[[], a]` as the empty
      list, and the top-level `[]` through the atom quoting test; corrected,
      it writes both lists in full. */
  lemma MarshallNestedEmpty(syn: Syntax, st: Store, fuel: nat)
    requires syn.isAtomName("a") && syn.isAtomName(EmptyListFunctor)
    ensures Marshall(Plain(TermObj(NestedEmpty)), true, syn, st, fuel, true) == Ok("[]")
    ensures Marshall(Plain(TermObj(NestedEmpty)), true, syn, st, fuel, false) == Ok("[[], a]")
    ensures Marshall(Plain(TermObj(EmptyList(10))), true, syn, st, fuel, true) == Ok(EmptyListFunctor)
  {
    EmptyHeadListLosesElements(syn);
  }

  // ---------------------------------------------------------------------------
  // The two renderings of `a,b;c,d;e`
  // ---------------------------------------------------------------------------

  const AtomA: Term := Atom("a", 20)
  const AtomB: Term := Atom("b", 21)
  const AtomC: Term := Atom("c", 22)
  const AtomD: Term := Atom("d", 23)
  const AtomE: Term := Atom("e", 24)
  /** `a,b;c,d;e` as the parser reads it: `;(,(a,b), ;(,(c,d), e))`. */
  const Conj1: Term := MakeStruct(AndFunctor, [AtomA, AtomB], 25)
  const Conj2: Term := MakeStruct(AndFunctor, [AtomC, AtomD], 26)
  const Disj2: Term := MakeStruct(OrFunctor, [Conj2, AtomE], 27)
  const Reference: Term := MakeStruct(OrFunctor, [Conj1, Disj2], 28)

  predicate PlainAtomNames(syn: Syntax) {
    && syn.isAtomName("a") && syn.isAtomName("b") && syn.isAtomName("c")
    && syn.isAtomName("d") && syn.isAtomName("e")
    && !syn.isAtomName(AndFunctor) && !syn.isAtomName(OrFunctor)
  }

  lemma AtomText(a: Term, name: string, st: Store, syn: Syntax, fuel: nat)
    requires a.Struct? && a.name == name && |a.args| == 0 && syn.isAtomName(name)
    requires name != EmptyListFunctor
    ensures AcceptTerm(a, None, st, syn, fuel) == Ok(name)
    ensures forall prio: int, x: bool, w: bool :: RenderArg(a, prio, x, syn, w) == name
  {
  }

  lemma TwoArgs(a: Term, b: Term, sa: string, sb: string, st: Store, syn: Syntax, fuel: nat)
    requires AcceptTerm(a, None, st, syn, fuel) == Ok(sa) && AcceptTerm(b, None, st, syn, fuel) == Ok(sb)
    ensures FormatArgs([a, b], None, st, syn, fuel) == Ok(sa + ArgSeparator + sb)
  {
    assert [a, b][0] == a && [a, b][1..] == [b];
    assert FormatArgs([b], None, st, syn, fuel) == Ok(sb);
  }

  /** A binary compound whose name is no plain atom is written quoted. */
  lemma QuotedBinary(t: Term, sa: string, sb: string, st: Store, syn: Syntax, fuel: nat)
    requires t.Struct? && |t.args| == 2 && t.name != ListFunctor && !syn.isAtomName(t.name)
    requires AcceptTerm(t.args[0], None, st, syn, fuel) == Ok(sa)
    requires AcceptTerm(t.args[1], None, st, syn, fuel) == Ok(sb)
    ensures AcceptTerm(t, None, st, syn, fuel) == Ok("'" + t.name + "'" + "(" + (sa + ArgSeparator + sb) + ")")
  {
    TwoArgs(t.args[0], t.args[1], sa, sb, st, syn, fuel);
    assert t.args == [t.args[0], t.args[1]];
    assert !IsEmptyList(t);
  }

  /** An xfy operator is written infix, in parentheses only when its
      priority is too high for its place. */
  lemma XfyBinary(t: Term, prio: int, x: bool, sa: string, sb: string, syn: Syntax, w: bool)
    requires t.Struct? && |t.args| == 2 && t.name != ListFunctor && t.name != ArgSeparator
    requires syn.opPrio(t.name, XFX) < OpLowest && syn.opPrio(t.name, YFX) < OpLowest
    requires syn.opPrio(t.name, XFY) >= OpLowest
    requires RenderArg(t.args[0], syn.opPrio(t.name, XFY), true, syn, w) == sa
    requires RenderArg(t.args[1], syn.opPrio(t.name, XFY), false, syn, w) == sb
    ensures RenderArg(t, prio, x, syn, w)
            == Parenthesized(sa + " " + t.name + " " + sb, NeedsParens(syn.opPrio(t.name, XFY), prio, x))
  {
  }

  /** Without an engine, the canonical form quotes ',' and ';'. */
  lemma CanonicalReference(syn: Syntax, st: Store, fuel: nat)
    requires PlainAtomNames(syn)
    ensures Marshall(Plain(TermObj(Reference)), false, syn, st, fuel, true)
            == Ok("';'(','(a, b), ';'(','(c, d), e))")
  {
    var c1 := CanonicalConj(AtomA, AtomB, "a", "b", 25, syn, st, fuel);
    var c2 := CanonicalConj(AtomC, AtomD, "c", "d", 26, syn, st, fuel);
    assert c1 == "','(a, b)" && c2 == "','(c, d)";
    AtomText(AtomE, "e", st, syn, fuel);
    QuotedBinary(Disj2, c2, "e", st, syn, fuel);
    ReferenceTexts.CanonicalInnerText();
    ReferenceTexts.CanonicalOuterText();
    QuotedBinary(Reference, c1, "';'(','(c, d), e)", st, syn, fuel);
  }

  /** `','(x, y)` for two plain atoms. */
  lemma CanonicalConj(a: Term, b: Term, na: string, nb: string, id: nat, syn: Syntax, st: Store, fuel: nat)
      returns (s: string)
    requires a.Struct? && a.name == na && |a.args| == 0 && syn.isAtomName(na) && na != EmptyListFunctor
    requires b.Struct? && b.name == nb && |b.args| == 0 && syn.isAtomName(nb) && nb != EmptyListFunctor
    requires !syn.isAtomName(AndFunctor)
    ensures s == "','(" + na + ", " + nb + ")"
    ensures AcceptTerm(MakeStruct(AndFunctor, [a, b], id), None, st, syn, fuel) == Ok(s)
  {
    AtomText(a, na, st, syn, fuel);
    AtomText(b, nb, st, syn, fuel);
    QuotedBinary(MakeStruct(AndFunctor, [a, b], id), na, nb, st, syn, fuel);
    s := "'" + AndFunctor + "'" + "(" + (na + ArgSeparator + nb) + ")";
  }

  /** With ',' an xfy operator of priority 1000 and ';' one of 1100, the
      operator form needs no parentheses at all. */
  lemma OperatorReference(syn: Syntax, st: Store, fuel: nat)
    requires PlainAtomNames(syn)
    requires syn.opPrio(AndFunctor, XFX) < OpLowest && syn.opPrio(AndFunctor, YFX) < OpLowest
    requires syn.opPrio(AndFunctor, XFY) == 1000
    requires syn.opPrio(OrFunctor, XFX) < OpLowest && syn.opPrio(OrFunctor, YFX) < OpLowest
    requires syn.opPrio(OrFunctor, XFY) == 1100
    ensures Marshall(Plain(TermObj(Reference)), true, syn, st, fuel, true) == Ok("a , b ; c , d ; e")
  {
    AtomText(AtomA, "a", st, syn, fuel);
    AtomText(AtomB, "b", st, syn, fuel);
    AtomText(AtomC, "c", st, syn, fuel);
    AtomText(AtomD, "d", st, syn, fuel);
    AtomText(AtomE, "e", st, syn, fuel);
    ReferenceTexts.OperatorTexts();
    XfyBinary(Conj1, 1100, true, "a", "b", syn, true);
    XfyBinary(Conj2, 1100, true, "c", "d", syn, true);
    XfyBinary(Disj2, 1100, false, "c , d", "e", syn, true);
    XfyBinary(Reference, OpHighest, false, "a , b", "c , d ; e", syn, true);
  }
}

/** The pieces of the reference expression `a,b;c,d;e`, in canonical and in
    operator form, and how they join up. */
module ReferenceTexts {
  lemma CanonicalInnerText()
    ensures "'" + ";" + "'" + "(" + ("','(c, d)" + ", " + "e") + ")" == "';'(','(c, d), e)"
  {
  }

  lemma CanonicalOuterText()
    ensures "'" + ";" + "'" + "(" + ("','(a, b)" + ", " + "';'(','(c, d), e)") + ")"
            == "';'(','(a, b), ';'(','(c, d), e))"
  {
  }

  lemma OperatorTexts()
    ensures "a" + " " + "," + " " + "b" == "a , b"
    ensures "c" + " " + "," + " " + "d" == "c , d"
    ensures "c , d" + " " + ";" + " " + "e" == "c , d ; e"
    ensures "a , b" + " " + ";" + " " + "c , d ; e" == "a , b ; c , d ; e"
  {
  }
}

=== FILE: normalize.dfy ===
/** Normalization of a term before it is used for inference: factorization,
    then variable-offset assignment with a per-structure watermark, then the
    attachment of library primitives.

    The source resets every index to NoIndex while collecting, and then skips
    any node whose index is already set. Here the indexes assigned so far are
    kept in an `IndexStore` keyed by reference, and written into the term at
    the end (`Bake`); "already set" is "already in the store". */
module Normalization {
  import opened Results
  import opened Terms
  import opened Factorization

  /** Indexes assigned so far, by reference, for variables and structures. */
  datatype IndexStore = IndexStore(vars: map<nat, int>, structs: map<nat, int>)

  const EmptyStore := IndexStore(map[], map[])

  /** `assignVarOffsets`, with `c` the offset of the next unindexed variable:
      - a node already indexed is skipped and the counter is unchanged;
      - the anonymous variable gets AnonIndex and consumes no offset;
      - any other variable gets `c`, and the counter becomes `c + 1`;
      - a structure indexes its arguments left to right, then takes the
        counter reached after them as its own index (its watermark);
      - a number is left alone. */
  function AssignIndexes(t: Term, c: nat, st: IndexStore): (r: (nat, IndexStore))
    ensures c <= r.0
    decreases t, 1
  {
    match t
    case Long(_) => (c, st)
    case Var(id, name, _) =>
      if id in st.vars then (c, st)
      else if name == AnonymousName then (c, st.(vars := st.vars[id := AnonIndex]))
      else (c + 1, st.(vars := st.vars[id := c]))
    case Struct(id, _, args, _, _, _) =>
      if id in st.structs then (c, st)
      else
        var (c', st') := AssignArgs(args, c, st);
        (c', st'.(structs := st'.structs[id := c']))
  }

  function AssignArgs(ts: seq<Term>, c: nat, st: IndexStore): (r: (nat, IndexStore))
    ensures c <= r.0
    decreases ts, 0
  {
    if |ts| == 0 then (c, st)
    else
      var (c', st') := AssignIndexes(ts[0], c, st);
      AssignArgs(ts[1..], c', st')
  }

  /** Writes the stored indexes into the term. */
  function Bake(t: Term, st: IndexStore): (r: Term)
    ensures r.Struct? == t.Struct? && r.Var? == t.Var? && r.Long? == t.Long?
    ensures !t.Long? ==> r.id == t.id && r.name == t.name
    ensures t.Struct? ==> |r.args| == |t.args| && r.cls == t.cls && r.prim == t.prim
    ensures t.Var? && t.id in st.vars ==> r.index == st.vars[t.id]
    ensures t.Struct? && t.id in st.structs ==> r.index == st.structs[t.id]
    ensures t.Long? ==> r == t
    decreases t
  {
    match t
    case Struct(id, name, args, cls, prim, index) =>
      Struct(id, name, seq(|args|, i requires 0 <= i < |args| => Bake(args[i], st)), cls, prim,
             if id in st.structs then st.structs[id] else index)
    case Var(id, name, index) => Var(id, name, if id in st.vars then st.vars[id] else index)
    case Long(_) => t
  }

  /** The primitive registered for a structure: by exact indicator first,
      then by its variable-arity indicator. */
  function LookupPrimitive(t: Term, lib: map<string, PrimitiveInfo>): Option<PrimitiveInfo>
    requires t.Struct?
  {
    if PredicateIndicator(t) in lib then Some(lib[PredicateIndicator(t)])
    else if VarargsIndicator(t) in lib then Some(lib[VarargsIndicator(t)])
    else None
  }

  /** `assignPrimitiveInfo`: every structure reachable through structure
      arguments gets the primitive found for it, or none. */
  function AssignPrimitiveInfo(t: Term, lib: map<string, PrimitiveInfo>): (r: Term)
    ensures r.Struct? == t.Struct? && r.Var? == t.Var? && r.Long? == t.Long?
    ensures !t.Struct? ==> r == t
    ensures t.Struct? ==> r.id == t.id && r.name == t.name && r.index == t.index && r.cls == t.cls && |r.args| == |t.args|
    ensures t.Struct? ==> r.prim == LookupPrimitive(t, lib)
    decreases t
  {
    match t
    case Struct(id, name, args, cls, _, index) =>
      Struct(id, name, seq(|args|, i requires 0 <= i < |args| => AssignPrimitiveInfo(args[i], lib)), cls,
             LookupPrimitive(t, lib), index)
    case _ => t
  }

  /** Structures of one name and arity get the same primitive, and an exact
      registration always wins over a variable-arity one. */
  lemma PrimitiveBySignature(a: Term, b: Term, lib: map<string, PrimitiveInfo>)
    requires a.Struct? && b.Struct? && a.name == b.name && |a.args| == |b.args|
    ensures LookupPrimitive(a, lib) == LookupPrimitive(b, lib)
    ensures PredicateIndicator(a) in lib ==> LookupPrimitive(a, lib) == Some(lib[PredicateIndicator(a)])
  {
    PredicateIndicatorInjective(a, b);
  }

  /** `normalize`: factorize, assign indexes from offset 0, then attach the
      primitives when a library is given and the term is a structure. New
      structures made by factorization are allocated from `next`. */
  function Normalize(t: Term, lib: Option<map<string, PrimitiveInfo>>, next: nat): (r: (Term, nat))
    ensures next <= r.1
  {
    var (factorized, next') := Factorize(t, next);
    var (_, st) := AssignIndexes(factorized, 0, EmptyStore);
    var indexed := Bake(factorized, st);
    (if indexed.Struct? && lib.Some? then AssignPrimitiveInfo(indexed, lib.value) else indexed, next')
  }

  // ---------------------------------------------------------------------------
  // Correctness of offset assignment
  // ---------------------------------------------------------------------------

  /** Every structure and variable of `t` has been indexed. */
  ghost predicate Covered(t: Term, st: IndexStore) {
    forall x :: Occurs(x, t) ==> (x.Var? ==> x.id in st.vars) && (x.Struct? ==> x.id in st.structs)
  }

  /** Structure `s` is indexed above every non-anonymous variable beneath it,
      and everything beneath it is indexed. */
  ghost predicate Watermarked(s: Term, st: IndexStore)
    requires s.Struct? && s.id in st.structs
  {
    && Covered(s, st)
    && forall x :: Occurs(x, s) && x.Var? && x.id in st.vars && st.vars[x.id] != AnonIndex ==> st.vars[x.id] < st.structs[s.id]
  }

  ghost predicate OffsetsInRange(st: IndexStore, c: nat) {
    forall a :: a in st.vars ==> st.vars[a] == AnonIndex || 0 <= st.vars[a] < c
  }

  ghost predicate OffsetsInjective(st: IndexStore) {
    forall a, b :: a in st.vars && b in st.vars && a != b && st.vars[a] != AnonIndex ==> st.vars[a] != st.vars[b]
  }

  ghost predicate WatermarksInRange(st: IndexStore, c: nat) {
    forall a :: a in st.structs ==> 0 <= st.structs[a] <= c
  }

  ghost predicate AnonConsistent(root: Term, st: IndexStore) {
    forall v :: Occurs(v, root) && v.Var? && v.id in st.vars ==> (IsAnonymous(v) <==> st.vars[v.id] == AnonIndex)
  }

  ghost predicate AllWatermarked(root: Term, st: IndexStore) {
    forall s :: Occurs(s, root) && s.Struct? && s.id in st.structs ==> Watermarked(s, st)
  }

  /** What holds of the store at every step of assigning the offsets of the
      nodes of `root`, with `c` the next free offset. */
  ghost predicate StoreInvariant(root: Term, st: IndexStore, c: nat) {
    && OffsetsInRange(st, c)
    && OffsetsInjective(st)
    && WatermarksInRange(st, c)
    && AnonConsistent(root, st)
    && AllWatermarked(root, st)
  }

  /** `st'` keeps every entry of `st`, and its new non-anonymous offsets are
      at least `c`. */
  ghost predicate Extends(st: IndexStore, st': IndexStore, c: nat) {
    && (forall a :: a in st.vars ==> a in st'.vars && st'.vars[a] == st.vars[a])
    && (forall a :: a in st.structs ==> a in st'.structs && st'.structs[a] == st.structs[a])
    && (forall a :: a in st'.vars && a !in st.vars && st'.vars[a] != AnonIndex ==> st'.vars[a] >= c)
  }

  lemma ExtendsTransitive(st1: IndexStore, st2: IndexStore, st3: IndexStore, c1: nat, c2: nat)
    requires Extends(st1, st2, c1) && Extends(st2, st3, c2) && c1 <= c2
    ensures Extends(st1, st3, c1)
  {
  }

  lemma CoveredMonotone(t: Term, st: IndexStore, st': IndexStore, c: nat)
    requires Covered(t, st) && Extends(st, st', c)
    ensures Covered(t, st')
  {
  }

  lemma WatermarkedMonotone(s: Term, st: IndexStore, st': IndexStore, c: nat)
    requires s.Struct? && s.id in st.structs && Watermarked(s, st) && Extends(st, st', c)
    ensures s.id in st'.structs && Watermarked(s, st')
  {
    forall x | Occurs(x, s) && x.Var? && x.id in st'.vars && st'.vars[x.id] != AnonIndex
      ensures st'.vars[x.id] < st'.structs[s.id]
    {
      assert x.id in st.vars;
    }
  }

  lemma {:induction false} AssignCorrect(root: Term, t: Term, c: nat, st: IndexStore)
    requires Wf(root) && Occurs(t, root) && StoreInvariant(root, st, c)
    ensures var r := AssignIndexes(t, c, st);
      StoreInvariant(root, r.1, r.0) && Extends(st, r.1, c) && Covered(t, r.1)
    decreases t, 2
  {
    match t
    case Long(_) =>
      assert forall x :: Occurs(x, t) ==> x == t;
    case Var(_, _, _) =>
      AssignVarCorrect(root, t, c, st);
    case Struct(id, _, args, _, _, _) =>
      if id in st.structs {
        assert Watermarked(t, st);
      } else {
        AssignStructCorrect(root, t, c, st);
      }
  }

  lemma AssignVarCorrect(root: Term, t: Term, c: nat, st: IndexStore)
    requires t.Var? && Wf(root) && Occurs(t, root) && StoreInvariant(root, st, c)
    ensures var r := AssignIndexes(t, c, st);
      StoreInvariant(root, r.1, r.0) && Extends(st, r.1, c) && Covered(t, r.1)
  {
    assert forall x :: Occurs(x, t) ==> x == t;
    if t.id !in st.vars {
      AssignNewVar(root, t, c, st);
    }
  }

  /** A variable met for the first time gets ANON_INDEX or the next offset. */
  lemma AssignNewVar(root: Term, t: Term, c: nat, st: IndexStore)
    requires t.Var? && t.id !in st.vars
    requires Wf(root) && Occurs(t, root) && StoreInvariant(root, st, c)
    ensures var r := AssignIndexes(t, c, st);
      StoreInvariant(root, r.1, r.0) && Extends(st, r.1, c)
  {
    var r := AssignIndexes(t, c, st);
    NewVarOffsets(t, c, st);
    NewVarAnon(root, t, c, st);
    forall s | Occurs(s, root) && s.Struct? && s.id in r.1.structs ensures Watermarked(s, r.1) {
      WatermarkedMonotone(s, st, r.1, c);
    }
  }

  lemma NewVarOffsets(t: Term, c: nat, st: IndexStore)
    requires t.Var? && t.id !in st.vars
    requires OffsetsInRange(st, c) && OffsetsInjective(st) && WatermarksInRange(st, c)
    ensures var r := AssignIndexes(t, c, st);
      && r.1.structs == st.structs
      && OffsetsInRange(r.1, r.0) && OffsetsInjective(r.1) && WatermarksInRange(r.1, r.0)
      && Extends(st, r.1, c)
  {
  }

  lemma NewVarAnon(root: Term, t: Term, c: nat, st: IndexStore)
    requires t.Var? && t.id !in st.vars
    requires Wf(root) && Occurs(t, root) && AnonConsistent(root, st)
    ensures AnonConsistent(root, AssignIndexes(t, c, st).1)
  {
    var r := AssignIndexes(t, c, st);
    forall v | Occurs(v, root) && v.Var? && v.id in r.1.vars
      ensures IsAnonymous(v) <==> r.1.vars[v.id] == AnonIndex
    {
      if v.id == t.id {
        assert SameRef(v, t);
      }
    }
  }

  lemma {:induction false} AssignStructCorrect(root: Term, t: Term, c: nat, st: IndexStore)
    requires t.Struct? && t.id !in st.structs
    requires Wf(root) && Occurs(t, root) && StoreInvariant(root, st, c)
    ensures var r := AssignIndexes(t, c, st);
      StoreInvariant(root, r.1, r.0) && Extends(st, r.1, c) && Covered(t, r.1)
    decreases t, 1
  {
    var args := t.args;
    forall i | 0 <= i < |args| ensures Occurs(args[i], root) {
      OccursArg(t, i);
      OccursTransitive(args[i], t, root);
    }
    AssignArgsCorrect(root, args, c, st);
    var ra := AssignArgs(args, c, st);
    var c', st' := ra.0, ra.1;
    var st'' := st'.(structs := st'.structs[t.id := c']);
    assert AssignIndexes(t, c, st) == (c', st'');
    CoveredAfterWatermark(t, st', c');
    WatermarkedAfterWatermark(t, st', c');
    AllWatermarkedAfterWatermark(root, t, st', c');
  }

  /** Setting the watermark of `t` to `c'` once its arguments are covered. */
  lemma CoveredAfterWatermark(t: Term, st': IndexStore, c': nat)
    requires t.Struct? && forall i :: 0 <= i < |t.args| ==> Covered(t.args[i], st')
    ensures Covered(t, st'.(structs := st'.structs[t.id := c']))
  {
    var st'' := st'.(structs := st'.structs[t.id := c']);
    forall x | Occurs(x, t) ensures (x.Var? ==> x.id in st''.vars) && (x.Struct? ==> x.id in st''.structs) {
      if x != t {
        var i :| 0 <= i < |t.args| && Occurs(x, t.args[i]);
      }
    }
  }

  lemma WatermarkedAfterWatermark(t: Term, st': IndexStore, c': nat)
    requires t.Struct? && OffsetsInRange(st', c')
    requires Covered(t, st'.(structs := st'.structs[t.id := c']))
    ensures Watermarked(t, st'.(structs := st'.structs[t.id := c']))
  {
  }

  lemma AllWatermarkedAfterWatermark(root: Term, t: Term, st': IndexStore, c': nat)
    requires t.Struct? && Wf(root) && Occurs(t, root)
    requires AllWatermarked(root, st') && OffsetsInRange(st', c') && WatermarksInRange(st', c')
    requires Watermarked(t, st'.(structs := st'.structs[t.id := c']))
    ensures AllWatermarked(root, st'.(structs := st'.structs[t.id := c']))
    ensures WatermarksInRange(st'.(structs := st'.structs[t.id := c']), c')
  {
    var st'' := st'.(structs := st'.structs[t.id := c']);
    forall s | Occurs(s, root) && s.Struct? && s.id in st''.structs ensures Watermarked(s, st'') {
      if s.id == t.id {
        assert SameRef(s, t);
      } else {
        assert Watermarked(s, st');
      }
    }
  }

  lemma {:induction false} AssignArgsCorrect(root: Term, ts: seq<Term>, c: nat, st: IndexStore)
    requires Wf(root) && StoreInvariant(root, st, c)
    requires forall i :: 0 <= i < |ts| ==> Occurs(ts[i], root)
    ensures var r := AssignArgs(ts, c, st);
      && StoreInvariant(root, r.1, r.0) && Extends(st, r.1, c)
      && forall i :: 0 <= i < |ts| ==> Covered(ts[i], r.1)
    decreases ts, 0
  {
    if |ts| > 0 {
      AssignCorrect(root, ts[0], c, st);
      var r0 := AssignIndexes(ts[0], c, st);
      assert forall i :: 0 <= i < |ts[1..]| ==> Occurs(ts[1..][i], root);
      AssignArgsCorrect(root, ts[1..], r0.0, r0.1);
      var r := AssignArgs(ts[1..], r0.0, r0.1);
      assert AssignArgs(ts, c, st) == r;
      ExtendsTransitive(st, r0.1, r.1, c, r0.0);
      CoveredMonotone(ts[0], r0.1, r.1, r0.0);
      forall i | 0 <= i < |ts| ensures Covered(ts[i], r.1) {
        if i > 0 {
          assert ts[i] == ts[1..][i - 1];
        }
      }
    }
  }

  // ---------------------------------------------------------------------------
  // The normalized term
  // ---------------------------------------------------------------------------

  /** The indexes of a normalized term that uses `n` binding offsets:
      - the anonymous variable, and only it, is at AnonIndex;
      - every other variable has an offset in `[0, n)`;
      - two such variables share an offset exactly when they share a name;
      - a structure's index is above the offset of every variable beneath it;
      - a structure at the root has index `n`. */
  ghost predicate OffsetsAssigned(t: Term, n: nat) {
    && (forall v :: Occurs(v, t) && v.Var? ==> (IsAnonymous(v) <==> v.index == AnonIndex))
    && (forall v :: Occurs(v, t) && v.Var? && !IsAnonymous(v) ==> 0 <= v.index < n)
    && (forall v, w :: Occurs(v, t) && Occurs(w, t) && v.Var? && w.Var? && !IsAnonymous(v) ==>
          (v.index == w.index <==> v.name == w.name))
    && (forall s, v :: Occurs(s, t) && s.Struct? && Occurs(v, s) && v.Var? && !IsAnonymous(v) ==> v.index < s.index)
    && (t.Struct? ==> t.index == n)
  }

  /** The number of binding offsets normalization uses for `t`. */
  function OffsetCount(t: Term, next: nat): nat {
    AssignIndexes(Factorize(t, next).0, 0, EmptyStore).0
  }

  /** `y` is the baked image of a node of `t`. */
  ghost predicate BakedFrom(y: Term, t: Term, st: IndexStore) {
    exists x :: Occurs(x, t) && y == Bake(x, st)
  }

  /** `y` is the image of a node of `t` under primitive attachment. */
  ghost predicate AttachedFrom(y: Term, t: Term, lib: map<string, PrimitiveInfo>) {
    exists x :: Occurs(x, t) && y == AssignPrimitiveInfo(x, lib)
  }

  /** Every node of a baked term is the baked image of a node of the original. */
  lemma {:induction false} BakeNodes(t: Term, st: IndexStore)
    ensures forall y :: Occurs(y, Bake(t, st)) ==> BakedFrom(y, t, st)
    decreases t
  {
    var b := Bake(t, st);
    forall y | Occurs(y, b) ensures BakedFrom(y, t, st) {
      if y == b {
        assert Occurs(t, t);
      } else {
        var i :| 0 <= i < |b.args| && Occurs(y, b.args[i]);
        assert b.args[i] == Bake(t.args[i], st);
        BakeNodes(t.args[i], st);
        assert BakedFrom(y, t.args[i], st);
        var x :| Occurs(x, t.args[i]) && y == Bake(x, st);
        OccursArg(t, i);
        OccursTransitive(x, t.args[i], t);
      }
    }
  }

  /** Every node of a term with primitives attached is the image of a node of the original. */
  lemma {:induction false} PrimitiveNodes(t: Term, lib: map<string, PrimitiveInfo>)
    ensures forall y :: Occurs(y, AssignPrimitiveInfo(t, lib)) ==> AttachedFrom(y, t, lib)
    decreases t
  {
    var b := AssignPrimitiveInfo(t, lib);
    forall y | Occurs(y, b) ensures AttachedFrom(y, t, lib) {
      if y == b {
        assert Occurs(t, t);
      } else {
        var i :| 0 <= i < |b.args| && Occurs(y, b.args[i]);
        assert b.args[i] == AssignPrimitiveInfo(t.args[i], lib);
        PrimitiveNodes(t.args[i], lib);
        assert AttachedFrom(y, t.args[i], lib);
        var x :| Occurs(x, t.args[i]) && y == AssignPrimitiveInfo(x, lib);
        OccursArg(t, i);
        OccursTransitive(x, t.args[i], t);
      }
    }
  }

  lemma {:induction false} BakeJavaEquals(t: Term, st: IndexStore)
    ensures JavaEquals(Bake(t, st), t)
    decreases t
  {
    if t.Struct? {
      forall i | 0 <= i < |t.args| ensures JavaEquals(Bake(t, st).args[i], t.args[i]) {
        BakeJavaEquals(t.args[i], st);
      }
    }
  }

  lemma {:induction false} PrimitiveJavaEquals(t: Term, lib: map<string, PrimitiveInfo>)
    ensures JavaEquals(AssignPrimitiveInfo(t, lib), t)
    decreases t
  {
    if t.Struct? {
      forall i | 0 <= i < |t.args| ensures JavaEquals(AssignPrimitiveInfo(t, lib).args[i], t.args[i]) {
        PrimitiveJavaEquals(t.args[i], lib);
      }
    }
  }

  /** Writing a complete store into a well-formed term with shared names
      gives a term whose indexes have the normalized shape. */
  lemma BakedOffsets(root: Term, st: IndexStore, n: nat)
    requires Wf(root) && NamesShared(root) && StoreInvariant(root, st, n) && Covered(root, st)
    requires root.Struct? ==> st.structs[root.id] == n
    ensures OffsetsAssigned(Bake(root, st), n)
  {
    var b := Bake(root, st);
    BakeNodes(root, st);
    assert Occurs(root, root);
    forall s, v | Occurs(s, b) && s.Struct? && Occurs(v, s) && v.Var? && !IsAnonymous(v) ensures v.index < s.index {
      var s0 :| Occurs(s0, root) && s == Bake(s0, st);
      BakeNodes(s0, st);
      var v0 :| Occurs(v0, s0) && v == Bake(v0, st);
      OccursTransitive(v0, s0, root);
      assert Watermarked(s0, st);
    }
    forall v, w | Occurs(v, b) && Occurs(w, b) && v.Var? && w.Var? && !IsAnonymous(v)
      ensures v.index == w.index <==> v.name == w.name
    {
      var v0 :| Occurs(v0, root) && v == Bake(v0, st);
      var w0 :| Occurs(w0, root) && w == Bake(w0, st);
      if v.index == w.index {
        assert v0.id == w0.id by {
          assert st.vars[v0.id] != AnonIndex;
        }
        assert SameRef(v0, w0);
      }
    }
  }

  /** Attaching primitives leaves every index, name and reference in place. */
  lemma PrimitivesKeepOffsets(t: Term, lib: map<string, PrimitiveInfo>, n: nat)
    requires OffsetsAssigned(t, n)
    ensures OffsetsAssigned(AssignPrimitiveInfo(t, lib), n)
  {
    var b := AssignPrimitiveInfo(t, lib);
    PrimitiveNodes(t, lib);
    forall s, v | Occurs(s, b) && s.Struct? && Occurs(v, s) && v.Var? && !IsAnonymous(v) ensures v.index < s.index {
      var s0 :| Occurs(s0, t) && s == AssignPrimitiveInfo(s0, lib);
      PrimitiveNodes(s0, lib);
      var v0 :| Occurs(v0, s0) && v == AssignPrimitiveInfo(v0, lib);
      OccursTransitive(v0, s0, t);
    }
    forall v, w | Occurs(v, b) && Occurs(w, b) && v.Var? && w.Var? && !IsAnonymous(v)
      ensures v.index == w.index <==> v.name == w.name
    {
      var v0 :| Occurs(v0, t) && v == AssignPrimitiveInfo(v0, lib);
      var w0 :| Occurs(w0, t) && w == AssignPrimitiveInfo(w0, lib);
    }
  }

  /** `normalize` of a well-formed term whose references lie below `next`
      gives a term `equals` to it whose offsets have the normalized shape. */
  lemma NormalizeCorrect(t: Term, lib: Option<map<string, PrimitiveInfo>>, next: nat)
    requires Wf(t) && IdsWithin(t, 0, next)
    ensures var r := Normalize(t, lib, next).0;
      JavaEquals(r, t) && OffsetsAssigned(r, OffsetCount(t, next))
  {
    FactorizeCorrect(t, next);
    var f := Factorize(t, next).0;
    var ra := AssignIndexes(f, 0, EmptyStore);
    assert Occurs(f, f);
    AssignCorrect(f, f, 0, EmptyStore);
    BakedOffsets(f, ra.1, ra.0);
    var b := Bake(f, ra.1);
    BakeJavaEquals(f, ra.1);
    JavaEqualsTransitive(b, f, t);
    if b.Struct? && lib.Some? {
      PrimitivesKeepOffsets(b, lib.value, ra.0);
      PrimitiveJavaEquals(b, lib.value);
      JavaEqualsTransitive(AssignPrimitiveInfo(b, lib.value), b, t);
    }
  }
}

=== FILE: results.dfy ===
/** Failure-carrying values shared by every module of the model.

    Java's `null` results become `Option`, and the exceptions the engine throws
    become `Result` failures tagged with the class of the exception. */
module Results {

  datatype Option<+T> = None | Some(value: T)

  /** The Java exception classes that the modelled code can raise. */
  datatype Error =
    | InvalidTerm            // InvalidTermException
    | IllegalState           // IllegalStateException (binding misuse, "internal error")
    | IllegalArgument        // IllegalArgumentException
    | UnsupportedOperation   // UnsupportedOperationException (not a Prolog list)
    | ClassCast              // ClassCastException from a cast in the source
    | NumberFormat           // NumberFormatException from Integer.parseInt
    | NullReference          // NullPointerException
    | NonSpecific            // PrologNonSpecificError
    | InternalError          // PrologInternalError
    | IndexOutOfBounds       // ArrayIndexOutOfBoundsException
    | StackExhausted         // StackOverflowError, or a loop that would not end: more steps than the fuel allowed

  datatype Result<+T> = Ok(value: T) | Err(error: Error) {
    predicate IsFailure() { Err? }

    function PropagateFailure<U>(): Result<U>
      requires Err?
    {
      Err(error)
    }

    function Extract(): T
      requires Ok?
    {
      value
    }
  }
}

=== FILE: solutions.dfy ===
/** Counting and collecting the solutions of a goal.

    `SolutionListenerBase` counts the solutions it is told about in a Java
    `int` and always asks for more.  `MultipleSolutionsHolder` runs a goal to
    exhaustion through such a listener and checks the number of solutions
    against optional bounds.  The solver itself is not modelled: the holder's
    operations receive the binding store as it stands at each solution, in
    the order the solver delivers them. */
module Solutions {
  import opened Results
  import opened Terms
  import opened Bindings
  import opened Library

  const MinInt: int := -0x8000_0000
  const MaxInt: int := 0x7fff_ffff

  /** A Java `int`. */
  newtype Int32 = x: int | -0x8000_0000 <= x <= 0x7fff_ffff

  /** The value of a Java `int` expression whose mathematical value is `x`. */
  function Wrap32(x: int): (r: Int32)
    ensures MinInt <= x <= MaxInt ==> r as int == x
    ensures (r as int - x) % 0x1_0000_0000 == 0
  {
    ((x - MinInt) % 0x1_0000_0000 + MinInt) as Int32
  }

  // ---------------------------------------------------------------------------
  // SolutionListenerBase
  // ---------------------------------------------------------------------------

  datatype Listener = Listener(counter: Int32)

  /** A listener that has seen no solution yet. */
  const NewListener := Listener(0)

  /** `onSolution`: one more solution counted, with Java's `int` overflow
      from the largest `int` to the smallest; the solver is always told to
      go on. */
  function OnSolution(l: Listener): (r: (Listener, Continuation))
    ensures r.1 == Continue
    ensures l.counter as int < MaxInt ==> r.0.counter as int == l.counter as int + 1
    ensures l.counter as int == MaxInt ==> r.0.counter as int == MinInt
  {
    (Listener(if l.counter == 0x7fff_ffff then -0x8000_0000 else l.counter + 1), Continue)
  }

  /** Incrementing a Java `int` is adding one and wrapping. */
  lemma IncrementWraps(x: int)
    ensures OnSolution(Listener(Wrap32(x))).0.counter == Wrap32(x + 1)
  {
    var w := Wrap32(x) as int;
    var k := (x - MinInt) / 0x1_0000_0000;
    assert x - MinInt == k * 0x1_0000_0000 + (w - MinInt);
    if w == MaxInt {
      assert x + 1 - MinInt == (k + 1) * 0x1_0000_0000;
    } else {
      assert x + 1 - MinInt == k * 0x1_0000_0000 + (w + 1 - MinInt);
    }
  }

  /** The listener after it has been told about `n` solutions. */
  function Notified(l: Listener, n: nat): Listener
  {
    if n == 0 then l else OnSolution(Notified(l, n - 1)).0
  }

  /** `getCounter` after `n` solutions is `n`, as a Java `int`: exact up to
      the largest `int`, wrapped beyond it. */
  lemma {:induction false} CounterCounts(n: nat)
    ensures Notified(NewListener, n).counter == Wrap32(n)
    ensures n <= MaxInt ==> Notified(NewListener, n).counter as int == n
  {
    if n > 0 {
      CounterCounts(n - 1);
      IncrementWraps(n - 1);
    }
  }

  // ---------------------------------------------------------------------------
  // MultipleSolutionsHolder
  // ---------------------------------------------------------------------------

  /** The goal's bindings (their frame and its referrer, the goal term) and
      the optional bounds on the number of solutions; unset bounds are the
      Java `null`. */
  datatype Holder = Holder(goal: Term, frame: nat, lowest: Option<Int32>, highest: Option<Int32>)

  /** A holder as the solution holder makes it: no bounds. */
  function NewHolder(goal: Term, frame: nat): (r: Holder)
    ensures r.goal == goal && r.frame == frame
    ensures forall c :: CheckBounds(r, c).Ok?
  {
    Holder(goal, frame, None, None)
  }

  /** `checkBounds`: too few solutions are reported before too many; both
      are a non-specific Prolog error. */
  function CheckBounds(h: Holder, counter: int): (r: Result<()>)
    ensures r.Err? ==> r.error == NonSpecific
    ensures r.Ok? <==> (h.lowest.Some? ==> h.lowest.value as int <= counter)
                        && (h.highest.Some? ==> counter <= h.highest.value as int)
  {
    if h.lowest.Some? && counter < h.lowest.value as int then Err(NonSpecific)
    else if h.highest.Some? && counter > h.highest.value as int then Err(NonSpecific)
    else Ok(())
  }

  /** `ensureNumber`: afterwards exactly `n` solutions pass the check. */
  function EnsureNumber(h: Holder, n: Int32): (r: Holder)
    ensures r.goal == h.goal && r.frame == h.frame
    ensures forall c :: CheckBounds(r, c).Ok? <==> c == n as int
  {
    h.(lowest := Some(n), highest := Some(n))
  }

  /** `ensureRange`: afterwards the numbers of solutions that pass are those
      between the two bounds, inclusive; none when they are out of order. */
  function EnsureRange(h: Holder, lo: Int32, hi: Int32): (r: Holder)
    ensures r.goal == h.goal && r.frame == h.frame
    ensures forall c :: CheckBounds(r, c).Ok? <==> lo as int <= c <= hi as int
    ensures hi < lo ==> forall c :: CheckBounds(r, c).Err?
  {
    h.(lowest := Some(lo), highest := Some(hi))
  }

  /** `number`: the goal is solved to exhaustion through a counting listener;
      its count, a Java `int`, is checked and returned. */
  method Number(h: Holder, sols: seq<Store>) returns (r: Result<Int32>)
    ensures r.Ok? <==> CheckBounds(h, Wrap32(|sols|) as int).Ok?
    ensures r.Ok? ==> r.value == Wrap32(|sols|)
    ensures r.Ok? && |sols| <= MaxInt ==> r.value as int == |sols|
    ensures r.Err? ==> r.error == NonSpecific
  {
    var listener := NewListener;
    for i := 0 to |sols|
      invariant listener.counter == Wrap32(i)
    {
      IncrementWraps(i);
      var (next, _) := OnSolution(listener);
      listener := next;
    }
    var counter := listener.counter;
    var checked := CheckBounds(h, counter as int);
    if checked.Err? {
      return Err(checked.error);
    }
    return Ok(counter);
  }

  /** The values of the named variable of the goal, one per solution.  The
      variable is looked up at every solution, so a goal without solutions
      never reports a missing name. */
  function BindingValues(h: Holder, name: string, sols: seq<Store>, fuel: nat, next: nat): (r: Result<(seq<Term>, nat)>)
    ensures sols == [] ==> r == Ok(([], next))
    ensures sols != [] && FindVar(h.goal, name) == Ok(None) ==> r == Err(InvalidTerm)
    ensures sols != [] && FindVar(h.goal, name).Err? ==> r == Err(FindVar(h.goal, name).error)
    ensures r.Ok? ==> |r.value.0| == |sols| && next <= r.value.1
    ensures r.Ok? && sols != [] ==>
              FindVar(h.goal, name).Ok? && FindVar(h.goal, name).value.Some? &&
              forall i :: 0 <= i < |sols| ==>
                IsInstance(FindVar(h.goal, name).value.value, h.frame, sols[i], fuel, r.value.0[i])
  {
    if sols == [] then Ok(([], next))
    else
      var found :- FindVar(h.goal, name);
      if found.None? then Err(InvalidTerm)
      else Instances(found.value, h.frame, sols, fuel, next)
  }

  /** `binding`: the value of the named variable at each solution, in order;
      the number of values is then checked against the bounds. */
  function Binding(h: Holder, name: string, sols: seq<Store>, fuel: nat, next: nat): (r: Result<(seq<Term>, nat)>)
    ensures r.Ok? ==> |r.value.0| == |sols| && CheckBounds(h, |sols|).Ok?
    ensures r.Ok? <==> BindingValues(h, name, sols, fuel, next).Ok? && CheckBounds(h, |sols|).Ok?
    ensures r.Ok? ==> r == BindingValues(h, name, sols, fuel, next)
    ensures BindingValues(h, name, sols, fuel, next).Ok? && CheckBounds(h, |sols|).Err? ==> r == Err(NonSpecific)
  {
    var (values, after) :- BindingValues(h, name, sols, fuel, next);
    var _ :- CheckBounds(h, |values|);
    Ok((values, after))
  }

  /** `bindings`: the explicit bindings of the goal's variables at each
      solution, in order, then the bounds check.  How a solution's bindings
      are turned into a map from names to values is given as `explicit`. */
  function AllBindings(h: Holder, sols: seq<Store>, explicit: Store -> map<string, Term>): (r: Result<seq<map<string, Term>>>)
    ensures r.Ok? <==> CheckBounds(h, |sols|).Ok?
    ensures r.Err? ==> r.error == NonSpecific
    ensures r.Ok? ==> |r.value| == |sols| && forall i :: 0 <= i < |sols| ==> r.value[i] == explicit(sols[i])
  {
    var results := seq(|sols|, i requires 0 <= i < |sols| => explicit(sols[i]));
    var _ :- CheckBounds(h, |results|);
    Ok(results)
  }

  /** Asking for one variable and asking for all of them agree on the number
      of solutions and on whether the bounds hold. */
  lemma BindingAndBindingsAgree(h: Holder, name: string, sols: seq<Store>, fuel: nat, next: nat,
                                explicit: Store -> map<string, Term>)
    requires BindingValues(h, name, sols, fuel, next).Ok?
    ensures Binding(h, name, sols, fuel, next).Ok? <==> AllBindings(h, sols, explicit).Ok?
    ensures Binding(h, name, sols, fuel, next).Ok? ==>
              |Binding(h, name, sols, fuel, next).value.0| == |AllBindings(h, sols, explicit).value|
  {
  }
}

=== FILE: termapi.dfy ===
/** `TermApi`: the static helpers that accept any Java object as a term —
    atom test, predicate signature, conversion of plain values into terms,
    the TPath selector, cloning through a remapping table and the
    `requireStruct` guard. */
module TermApi {
  import opened Results
  import opened Terms
  import Text

  /** The Java objects the helpers are given.  A Java `Long` is the number
      term `TermObj(Long(v))`; a `CharSequence` is a `StringObj`. */
  datatype Obj =
    | Null
    | TermObj(term: Term)
    | StringObj(text: string)
    | CharObj(c: char)
    | IntegerObj(i: int)
    | BooleanObj(b: bool)
    /** Any other integral `Number` (`Short`, `BigInteger`, ...), by value. */
    | OtherIntegral(n: int)
    /** An enum constant, by its name. */
    | EnumObj(text: string)
    /** An object of any other class, by its `toString`. */
    | OtherObj(text: string)

  /** `FactoryMode`: how text is read by `valueOf`. */
  datatype FactoryMode = AnyTerm | AtomMode

  /** `Struct.ATOM_TRUE` and `Struct.ATOM_FALSE`, shared constants. */
  const AtomTrue: Term := Atom(TrueFunctor, 1)
  const AtomFalse: Term := Atom(FalseFunctor, 2)

  predicate IsUpperAscii(c: char) { 'A' <= c <= 'Z' }

  // ---------------------------------------------------------------------------
  // Atoms and signatures
  // ---------------------------------------------------------------------------

  /** `isAtom`: a plain string, or a structure of arity 0, or the empty list. */
  predicate IsAtomObj(o: Obj) {
    match o
    case StringObj(_) => true
    case TermObj(t) => t.Struct? && (|t.args| == 0 || IsEmptyList(t))
    case _ => false
  }

  /** `String.valueOf` of an object that is not a structure.  A variable
      renders as its name. */
  function ObjText(o: Obj): string
    requires !(o.TermObj? && o.term.Struct?)
  {
    match o
    case Null => "null"
    case TermObj(t) => if t.Var? then t.name else Text.IntToString(t.value)
    case StringObj(s) => s
    case CharObj(c) => [c]
    case IntegerObj(i) => Text.IntToString(i)
    case BooleanObj(b) => if b then "true" else "false"
    case OtherIntegral(n) => Text.IntToString(n)
    case EnumObj(s) => s
    case OtherObj(s) => s
  }

  /** `getPredicateSignature`: the indicator of a structure, and for any
      other object its text followed by "/0". */
  function PredicateSignature(o: Obj): (r: string)
    ensures o.TermObj? && o.term.Struct? ==> r == PredicateIndicator(o.term)
    ensures !(o.TermObj? && o.term.Struct?) ==> r == ObjText(o) + "/0"
  {
    if o.TermObj? && o.term.Struct? then PredicateIndicator(o.term) else ObjText(o) + "/0"
  }

  /** An atom given as a plain string and the same atom as a structure are
      the same predicate. */
  lemma AtomSignatures(name: string, id: nat)
    ensures IsAtomObj(StringObj(name)) && IsAtomObj(TermObj(Atom(name, id)))
    ensures PredicateSignature(StringObj(name)) == PredicateSignature(TermObj(Atom(name, id)))
  {
    assert Text.NatToString(0) == "0";
  }

  /** A compound structure never shares its signature with a non-structure:
      the arity in the indicator of a non-structure is 0. */
  lemma CompoundSignatureDistinct(s: Term, o: Obj)
    requires s.Struct? && |s.args| > 0 && !(o.TermObj? && o.term.Struct?)
    ensures PredicateSignature(TermObj(s)) != PredicateSignature(o)
  {
    var a, b := PredicateSignature(TermObj(s)), PredicateSignature(o);
    var d := Text.NatToString(|s.args|);
    if |d| == 1 {
      assert |s.args| < 10;
      assert a[|a| - 1] == d[0] != '0';
      assert b[|b| - 1] == '0';
    } else {
      assert a[|a| - 2] == d[|d| - 2];
      assert b[|b| - 2] == '/';
    }
  }

  // ---------------------------------------------------------------------------
  // Conversion of values into terms
  // ---------------------------------------------------------------------------

  /** `valueOf`: a term is returned as it is, numbers become `Long` terms,
      booleans the shared atoms, and text an atom, or in `AnyTerm` mode a
      variable when it starts with an upper-case letter or an underscore.
      A new term is allocated at reference `id`. */
  function ValueOf(o: Obj, mode: FactoryMode, id: nat): (r: Result<Obj>)
    requires o.IntegerObj? ==> Text.MinInt <= o.i <= Text.MaxInt
    ensures r.Err? <==> o.Null? || o.OtherObj?
    ensures r.Err? ==> r.error == InvalidTerm
    ensures r.Ok? ==> r.value.TermObj? || r.value.EnumObj?
    ensures o.TermObj? || o.EnumObj? ==> r == Ok(o)
    ensures o.IntegerObj? ==> r == Ok(TermObj(Long(o.i)))
    ensures o.OtherIntegral? ==> r == Ok(TermObj(Long(Wrap64(o.n))))
    ensures o.BooleanObj? ==> r == Ok(TermObj(if o.b then AtomTrue else AtomFalse))
    ensures (o.StringObj? || o.CharObj?) && mode == AtomMode ==>
              r.Ok? && IsAtomObj(r.value) && r.value.term.name == Chars(o) && |r.value.term.args| == 0
  {
    match o
    case Null => Err(InvalidTerm)
    case TermObj(_) => Ok(o)
    case IntegerObj(i) => Ok(TermObj(Long(i)))
    case BooleanObj(b) => Ok(TermObj(if b then AtomTrue else AtomFalse))
    case StringObj(_) => Ok(TermObj(FromText(Chars(o), mode, id)))
    case CharObj(_) => Ok(TermObj(FromText(Chars(o), mode, id)))
    case OtherIntegral(n) => Ok(TermObj(Long(Wrap64(n))))
    case EnumObj(_) => Ok(o)
    case OtherObj(_) => Err(InvalidTerm)
  }

  function Chars(o: Obj): string
    requires o.StringObj? || o.CharObj?
  {
    if o.StringObj? then o.text else [o.c]
  }

  /** The rudimentary reading of text: in `AnyTerm` mode "_" is the anonymous
      variable, the empty text an atom with an empty name, an upper-case or
      underscore start a variable, anything else an atom. */
  function FromText(chars: string, mode: FactoryMode, id: nat): (r: Term)
    ensures mode == AtomMode ==> r == Atom(chars, id)
    ensures mode == AnyTerm ==>
              && (r.Var? <==> |chars| > 0 && (IsUpperAscii(chars[0]) || chars[0] == '_'))
              && (IsAnonymous(r) <==> chars == AnonymousName)
              && (r.Var? || r.Struct?) && r.name == chars
              && (r.Struct? ==> |r.args| == 0)
  {
    match mode
    case AtomMode => Atom(chars, id)
    case AnyTerm =>
      if chars == AnonymousName then AnonymousVar
      else if chars == "" then Atom("", id)
      else if IsUpperAscii(chars[0]) || chars[0] == '_' then NewVar(chars, id)
      else Atom(chars, id)
  }

  /** Converting what `valueOf` returned gives it back unchanged, in either
      mode and whatever reference would be allocated. */
  lemma ValueOfIdempotent(o: Obj, mode: FactoryMode, mode': FactoryMode, id: nat, id': nat)
    requires o.IntegerObj? ==> Text.MinInt <= o.i <= Text.MaxInt
    requires ValueOf(o, mode, id).Ok?
    ensures ValueOf(ValueOf(o, mode, id).value, mode', id') == ValueOf(o, mode, id)
  {
  }

  /** A variable read from text renders back as that text. */
  lemma VarTextRoundTrip(chars: string, id: nat)
    requires FromText(chars, AnyTerm, id).Var?
    ensures ObjText(TermObj(FromText(chars, AnyTerm, id))) == chars
  {
  }

  // ---------------------------------------------------------------------------
  // requireStruct
  // ---------------------------------------------------------------------------

  /** `requireStruct`: the structure itself when it has the requested functor
      and arity; no functor or a negative arity accepts any.  Building the
      error message for a null term dereferences it. */
  function RequireStruct(o: Obj, functor: Option<string>, arity: int): (r: Result<Term>)
    ensures r.Ok? <==>
              && o.TermObj? && o.term.Struct?
              && (functor.Some? ==> o.term.name == functor.value)
              && (arity >= 0 ==> |o.term.args| == arity)
    ensures r.Ok? ==> o == TermObj(r.value)
    ensures o.Null? ==> r == Err(NullReference)
    ensures r.Err? && !o.Null? ==> r.error == InvalidTerm
  {
    if o.Null? then Err(NullReference)
    else if !(o.TermObj? && o.term.Struct?) then Err(InvalidTerm)
    else if functor.Some? && o.term.name != functor.value then Err(InvalidTerm)
    else if arity >= 0 && |o.term.args| != arity then Err(InvalidTerm)
    else Ok(o.term)
  }

  /** Without a functor and with a negative arity every structure passes, and
      nothing else does. */
  lemma RequireAnyStruct(o: Obj)
    ensures RequireStruct(o, None, -1).Ok? <==> o.TermObj? && o.term.Struct?
  {
  }

  // ---------------------------------------------------------------------------
  // The TPath selector
  // ---------------------------------------------------------------------------

  /** The class argument of `selectTerm`. */
  datatype JavaClass = ObjectClass | TermClass | StructClass | VarClass | LongClass | StringClass

  predicate InstanceOf(o: Obj, c: JavaClass) {
    match c
    case ObjectClass => !o.Null?
    case TermClass => o.TermObj?
    case StructClass => o.TermObj? && o.term.Struct?
    case VarClass => o.TermObj? && o.term.Var?
    case LongClass => o.TermObj? && o.term.Long?
    case StringClass => o.StringObj?
  }

  /** `ReflectUtils.safeCastNotNull`: the object when it is a non-null
      instance of the class. */
  function SafeCastNotNull(o: Obj, c: JavaClass): (r: Result<Obj>)
    ensures r.Ok? <==> InstanceOf(o, c)
    ensures r.Ok? ==> r.value == o
  {
    if o.Null? then Err(NullReference)
    else if !InstanceOf(o, c) then Err(ClassCast)
    else Ok(o)
  }

  /** The first level of a TPath expression: the functor to match (empty for
      none), the argument position (0 for the term itself), whether the
      position was given in brackets, and where the first level ends. */
  datatype Level = Level(functor: string, position: int, indexed: bool, end: nat)

  /** Splitting off the first level: up to the first '/' (when it is not the
      first character), a '/' alone meaning the first argument, then an
      optional `[n]` suffix whose index must be a positive Java `int`. */
  function ParseLevel(expr: string): (r: Result<Level>)
    ensures r.Ok? ==> r.value.end <= |expr|
    ensures r.Err? ==> r.error in {InvalidTerm, NumberFormat}
  {
    var slash := Text.IndexOf(expr, '/');
    var level0 := if slash >= 1 then expr[..slash] else expr;
    var end0 := if slash >= 1 then slash else |expr|;
    var par := Text.IndexOf(level0, '[');
    if par < 0 then Ok(Level(level0, if slash >= 1 then 1 else 0, false, end0))
    else if |level0| == 0 || level0[|level0| - 1] != ']' then Err(InvalidTerm)
    else
      var position :- Text.ParseInt(level0[par + 1..|level0| - 1]);
      if position <= 0 then Err(InvalidTerm)
      else Ok(Level(level0[..par], position, true, if par > end0 then par else end0))
  }

  /** `selectTerm`: the expression is `functor[n]/rest`, where each part is
      optional; `[n]` selects the n-th argument (counting from 1), a '/'
      without an index selects the first one, and `rest` is applied to the
      selected argument.  The empty expression selects the term itself. */
  function SelectTerm(o: Obj, expr: string, c: JavaClass): (r: Result<Obj>)
    ensures r.Ok? ==> InstanceOf(r.value, c)
    ensures expr == "" ==> r == SafeCastNotNull(o, c)
    decreases |expr|
  {
    if expr == "" then SafeCastNotNull(o, c)
    else if o.StringObj? then
      if o.text != expr then Err(InvalidTerm) else SafeCastNotNull(o, c)
    else if !(o.Null? || (o.TermObj? && o.term.Struct?)) then Err(ClassCast)
    else
      var level :- ParseLevel(expr);
      if level.indexed && o.Null? then Err(NullReference)
      else if level.indexed && level.position > |o.term.args| then Err(InvalidTerm)
      else if level.functor != "" && o.Null? then Err(NullReference)
      else if level.functor != "" && o.term.name != level.functor then Err(InvalidTerm)
      else if level.position >= 1 then
        if o.Null? || |o.term.args| == 0 then Err(NullReference)
        else if level.position > |o.term.args| then Err(IndexOutOfBounds)
        else
          var tail := expr[if |expr| < level.end + 1 then |expr| else level.end + 1..];
          SelectTerm(TermObj(o.term.args[level.position - 1]), tail, c)
      else if o.Null? then Err(NullReference)
      else if !InstanceOf(o, c) then Err(NonSpecific)
      else Ok(o)
  }

  /** The text `name[digits]`, read character by character: no '/', and the
      first '[' right after the name. */
  lemma BracketedText(name: string, digits: string)
    requires '/' !in name && '[' !in name && Text.AllDigits(digits)
    ensures var expr := name + "[" + digits + "]";
            && Text.IndexOf(expr, '/') == -1
            && Text.IndexOf(expr, '[') == |name|
            && expr[..|name|] == name
            && expr[|name| + 1..|expr| - 1] == digits
  {
    var expr := name + "[" + digits + "]";
    assert '/' !in expr by {
      forall i | 0 <= i < |expr| ensures expr[i] != '/' {
        if i < |name| { assert expr[i] == name[i]; }
        else if |name| < i < |expr| - 1 { assert expr[i] == digits[i - |name| - 1]; }
      }
    }
    assert expr[..|name|] == name;
    assert expr[|name|] == '[';
    assert expr[|name| + 1..|expr| - 1] == digits;
  }

  /** How `name[k]` is split: the functor `name`, the position `k` given in
      brackets, and nothing after it; position 0 is refused. */
  lemma BracketedIndex(name: string, k: nat)
    requires '/' !in name && '[' !in name && k <= Text.MaxInt
    ensures var expr := name + "[" + Text.NatToString(k) + "]";
            ParseLevel(expr) == if k == 0 then Err(InvalidTerm) else Ok(Level(name, k, true, |expr|))
  {
    var digits := Text.NatToString(k);
    BracketedText(name, digits);
    Text.NatToStringRoundTrip(k);
    assert Text.ParseInt(digits) == Ok(k);
  }

  /** A first level that names the structure and indexes one of its
      arguments, with nothing after it, selects that argument. */
  lemma SelectIndexed(s: Term, expr: string, k: int, c: JavaClass)
    requires s.Struct? && expr != "" && 1 <= k <= |s.args|
    requires ParseLevel(expr) == Ok(Level(s.name, k, true, |expr|))
    ensures SelectTerm(TermObj(s), expr, c) == SafeCastNotNull(TermObj(s.args[k - 1]), c)
  {
    assert expr[|expr|..] == "";
  }

  /** `name[k]` selects the k-th argument of a structure named `name`. */
  lemma SelectArgument(s: Term, k: nat, c: JavaClass)
    requires s.Struct? && 1 <= k <= |s.args| && k <= Text.MaxInt
    requires '/' !in s.name && '[' !in s.name
    ensures SelectTerm(TermObj(s), s.name + "[" + Text.NatToString(k) + "]", c)
            == SafeCastNotNull(TermObj(s.args[k - 1]), c)
  {
    BracketedIndex(s.name, k);
    SelectIndexed(s, s.name + "[" + Text.NatToString(k) + "]", k, c);
  }

  /** `name/rest` descends into the first argument. */
  lemma SelectFirstThenRest(s: Term, rest: string, c: JavaClass)
    requires s.Struct? && |s.args| > 0 && |s.name| > 0
    requires '/' !in s.name && '[' !in s.name
    ensures SelectTerm(TermObj(s), s.name + "/" + rest, c) == SelectTerm(TermObj(s.args[0]), rest, c)
  {
    var expr := s.name + "/" + rest;
    assert expr[..|s.name|] == s.name;
    assert Text.IndexOf(expr, '/') == |s.name| by {
      assert expr[|s.name|] == '/';
      assert '/' !in expr[..|s.name|];
    }
    assert expr[|s.name| + 1..] == rest;
  }

  /** An index of 0 or beyond the arity is rejected. */
  lemma SelectOutOfRange(s: Term, k: nat, c: JavaClass)
    requires s.Struct? && (k == 0 || |s.args| < k) && k <= Text.MaxInt
    requires '/' !in s.name && '[' !in s.name
    ensures SelectTerm(TermObj(s), s.name + "[" + Text.NatToString(k) + "]", c) == Err(InvalidTerm)
  {
    BracketedIndex(s.name, k);
  }

  /** A first level naming a functor other than the structure's, with any
      bracketed index within the arity, is an InvalidTermException. */
  lemma SelectWrongFunctor(s: Term, expr: string, c: JavaClass)
    requires s.Struct? && expr != ""
    requires var l := ParseLevel(expr);
             && l.Ok? && l.value.functor != "" && l.value.functor != s.name
             && (l.value.indexed ==> l.value.position <= |s.args|)
    ensures SelectTerm(TermObj(s), expr, c) == Err(InvalidTerm)
  {
  }

  /** A plain name, without '/' or '[', is a first level naming that functor
      and selecting nothing. */
  lemma PlainLevel(name: string)
    requires '/' !in name && '[' !in name
    ensures ParseLevel(name) == Ok(Level(name, 0, false, |name|))
  {
  }

  /** `f` against a structure of another name is an InvalidTermException. */
  lemma SelectWrongName(s: Term, name: string, c: JavaClass)
    requires s.Struct? && name != "" && name != s.name && '/' !in name && '[' !in name
    ensures SelectTerm(TermObj(s), name, c) == Err(InvalidTerm)
  {
    PlainLevel(name);
    SelectWrongFunctor(s, name, c);
  }

  /** `name[rest` whose last character is not ']' is an InvalidTermException,
      whatever the structure. */
  lemma SelectMissingBracket(s: Term, name: string, rest: string, c: JavaClass)
    requires s.Struct? && '/' !in name && '[' !in name && '/' !in rest
    requires |rest| == 0 || rest[|rest| - 1] != ']'
    ensures SelectTerm(TermObj(s), name + "[" + rest, c) == Err(InvalidTerm)
  {
    var expr := name + "[" + rest;
    assert '/' !in expr by {
      forall i | 0 <= i < |expr| ensures expr[i] != '/' {
        if i < |name| { assert expr[i] == name[i]; }
        else if |name| < i { assert expr[i] == rest[i - |name| - 1]; }
      }
    }
    assert expr[|name|] == '[' && '[' !in expr[..|name|];
    assert expr[|expr| - 1] != ']';
  }

  // ---------------------------------------------------------------------------
  // Cloning through a remapping table
  // ---------------------------------------------------------------------------

  /** The value the remapping table holds for a key `equals` to `t`. */
  function Remapped(remap: seq<(Term, Term)>, t: Term): (r: Option<Term>)
    ensures r.Some? <==> exists i :: 0 <= i < |remap| && JavaEquals(remap[i].0, t)
  {
    if |remap| == 0 then None
    else if JavaEquals(remap[0].0, t) then Some(remap[0].1)
    else
      var r := Remapped(remap[1..], t);
      assert forall i :: 1 <= i < |remap| ==> remap[i] == remap[1..][i - 1];
      r
  }

  /** `clone`: a deep copy in which every sub-term the table knows (by
      `equals`) is replaced by its image; new structures and variables are
      allocated from `next`.  Rebuilding a structure goes through the public
      constructor, which refuses an empty name with arguments. */
  function Clone(t: Term, remap: seq<(Term, Term)>, next: nat): (r: Result<(Term, nat)>)
    ensures r.Ok? ==> next <= r.value.1
    ensures Remapped(remap, t).Some? ==> r == Ok((Remapped(remap, t).value, next))
    decreases t, 1
  {
    match Remapped(remap, t)
    case Some(image) => Ok((image, next))
    case None =>
      match t
      case Struct(_, name, args, _, _, _) =>
        var (clones, after) :- CloneArgsRemapped(args, remap, next);
        if name == "" && |clones| > 0 then Err(InvalidTerm)
        else Ok((MakeStruct(name, clones, after), after + 1))
      case Var(_, name, _) => Ok((NewVar(name, next), next + 1))
      case Long(_) => Ok((t, next))
  }

  function CloneArgsRemapped(ts: seq<Term>, remap: seq<(Term, Term)>, next: nat): (r: Result<(seq<Term>, nat)>)
    ensures r.Ok? ==> |r.value.0| == |ts| && next <= r.value.1
    decreases ts, 0
  {
    if |ts| == 0 then Ok(([], next))
    else
      var (first, mid) :- Clone(ts[0], remap, next);
      var (rest, after) :- CloneArgsRemapped(ts[1..], remap, mid);
      Ok(([first] + rest, after))
  }

  /** No structure in `t` has an empty name and arguments. */
  predicate Constructible(t: Term) {
    match t
    case Struct(_, name, args, _, _, _) =>
      (name != "" || |args| == 0) && forall i :: 0 <= i < |args| ==> Constructible(args[i])
    case _ => true
  }

  /** With an empty table, cloning succeeds exactly on constructible terms
      and gives a term `equals` to the original, made of new objects only. */
  lemma {:induction false} CloneWithoutRemap(t: Term, next: nat)
    ensures Clone(t, [], next).Ok? <==> Constructible(t)
    ensures Clone(t, [], next).Ok? ==>
              var (c, after) := Clone(t, [], next).value;
              JavaEquals(c, t) && IdsWithin(c, next, after)
    decreases t, 1
  {
    if t.Struct? {
      CloneArgsWithoutRemap(t.args, next);
      var ra := CloneArgsRemapped(t.args, [], next);
      if ra.Ok? {
        IdsWithinWidenAll(ra.value.0, next, ra.value.1, next, ra.value.1 + 1);
      }
    }
  }

  lemma {:induction false} CloneArgsWithoutRemap(ts: seq<Term>, next: nat)
    ensures CloneArgsRemapped(ts, [], next).Ok? <==> forall i :: 0 <= i < |ts| ==> Constructible(ts[i])
    ensures CloneArgsRemapped(ts, [], next).Ok? ==>
              var (cs, after) := CloneArgsRemapped(ts, [], next).value;
              forall i :: 0 <= i < |ts| ==> JavaEquals(cs[i], ts[i]) && IdsWithin(cs[i], next, after)
    decreases ts, 0
  {
    if |ts| > 0 {
      CloneWithoutRemap(ts[0], next);
      var r0 := Clone(ts[0], [], next);
      if r0.Ok? {
        var (first, mid) := r0.value;
        CloneArgsWithoutRemap(ts[1..], mid);
        var rr := CloneArgsRemapped(ts[1..], [], mid);
        if rr.Ok? {
          var (rest, after) := rr.value;
          IdsWithinWiden(first, next, mid, next, after);
          forall i | 1 <= i < |ts|
            ensures JavaEquals(([first] + rest)[i], ts[i]) && IdsWithin(([first] + rest)[i], next, after)
          {
            assert ts[i] == ts[1..][i - 1];
            IdsWithinWiden(rest[i - 1], mid, after, next, after);
          }
        } else {
          assert exists i :: 0 <= i < |ts| && !Constructible(ts[i]) by {
            var j :| 0 <= j < |ts[1..]| && !Constructible(ts[1..][j]);
            assert ts[j + 1] == ts[1..][j];
          }
        }
      }
    }
  }
}

=== FILE: terms.dfy ===
/** The term model of the inference kernel: structures (atoms, compounds and
    Prolog lists), variables and integer numbers, with the structural
    utilities of `Struct` and `Var`.

    Java object identity matters to the kernel (`staticallyEquals` is a
    reference test, `compact` returns "the same reference" when nothing
    changed), so every structure and variable carries an `id` standing for
    its reference. Numbers are compared by value. */
module Terms {
  import opened Results
  import Text

  /** Index of a term that has not been through offset assignment. */
  const NoIndex: int := -1
  /** Index given to the anonymous variable, which has no binding slot. */
  const AnonIndex: int := -2

  const AnonymousName: string := "_"
  const ListFunctor: string := "."
  const EmptyListFunctor: string := "[]"
  const ClauseFunctor: string := ":-"
  const TrueFunctor: string := "true"
  const FalseFunctor: string := "false"
  const CutFunctor: string := "!"
  const AndFunctor: string := ","
  const OrFunctor: string := ";"
  /** Suffix of the signature under which a variable-arity primitive is registered. */
  const VarargsTrailer: string := "/N"

  const MinLong: int := -0x8000_0000_0000_0000
  const MaxLong: int := 0x7FFF_FFFF_FFFF_FFFF

  /** A Java `long`. */
  type Int64 = x: int | MinLong <= x <= MaxLong

  /** Two's complement wrap-around of Java `long` arithmetic: the `long`
      congruent to `x` modulo 2^64. */
  function Wrap64(x: int): (r: Int64)
    ensures (r - x) % 0x1_0000_0000_0000_0000 == 0
    ensures MinLong <= x <= MaxLong ==> r == x
  {
    (x - MinLong) % 0x1_0000_0000_0000_0000 + MinLong
  }

  /** The concrete Java class of a structure: a plain `Struct`, or the
      `StructObject` subclass that wraps a Java object. */
  datatype StructClass = PlainStruct | ObjectStruct

  datatype PrimitiveType = Directive | Predicate | Functor

  /** The library primitive attached to a structure by `assignPrimitiveInfo`. */
  datatype PrimitiveInfo = PrimitiveInfo(kind: PrimitiveType, signature: string)

  /** `index` is the binding offset of a variable, and for a structure the
      number of distinct variables beneath it (its watermark). */
  datatype Term =
    | Struct(id: nat, name: string, args: seq<Term>, cls: StructClass, prim: Option<PrimitiveInfo>, index: int)
    | Var(id: nat, name: string, index: int)
    | Long(value: Int64)

  /** Java reference equality `==`; numbers compare by value. */
  predicate SameRef(a: Term, b: Term) {
    match a
    case Struct(id, _, _, _, _, _) => b.Struct? && b.id == id
    case Var(id, _, _) => b.Var? && b.id == id
    case Long(v) => b.Long? && b.value == v
  }

  predicate IsAnonymous(t: Term) {
    t.Var? && t.name == AnonymousName
  }

  /** A new structure as the package-private constructors build it. */
  function MakeStruct(name: string, args: seq<Term>, id: nat): Term {
    Struct(id, name, args, PlainStruct, None, NoIndex)
  }

  function Atom(name: string, id: nat): Term {
    MakeStruct(name, [], id)
  }

  function EmptyList(id: nat): Term {
    Atom(EmptyListFunctor, id)
  }

  /** `createPList(h, t)`: one list cell. */
  function Cons(head: Term, tail: Term, id: nat): Term {
    MakeStruct(ListFunctor, [head, tail], id)
  }

  /** `Var.ANONYMOUS_VAR`, the one shared anonymous variable. */
  const AnonymousVar: Term := Var(0, AnonymousName, NoIndex)

  function NewVar(name: string, id: nat): Term {
    Var(id, name, NoIndex)
  }

  // ---------------------------------------------------------------------------
  // Construction
  // ---------------------------------------------------------------------------

  /** The arguments of a `Term...` constructor call, stopping at the first null. */
  function PresentArgs(args: seq<Option<Term>>): (r: Result<seq<Term>>)
    ensures r.Ok? <==> forall i :: 0 <= i < |args| ==> args[i].Some?
    ensures r.Ok? ==> |r.value| == |args| && forall i :: 0 <= i < |args| ==> args[i] == Some(r.value[i])
    ensures r.Err? ==> r.error == InvalidTerm
  {
    if |args| == 0 then Ok([])
    else if args[0].None? then Err(InvalidTerm)
    else
      var rest :- PresentArgs(args[1..]);
      assert forall i :: 1 <= i < |args| ==> args[i] == args[1..][i - 1];
      Ok([args[0].value] + rest)
  }

  /** The `Struct(String, Term...)` constructor: the functor may not be null,
      may be empty only for an atom, and no argument may be null. */
  function NewStruct(functor: Option<string>, args: seq<Option<Term>>, id: nat): (r: Result<Term>)
    ensures r.Ok? <==>
              && functor.Some?
              && (functor.value == "" ==> |args| == 0)
              && forall i :: 0 <= i < |args| ==> args[i].Some?
    ensures r.Err? ==> r.error == InvalidTerm
    ensures r.Ok? ==>
              && r.value.Struct?
              && r.value.name == functor.value
              && |r.value.args| == |args|
              && (forall i :: 0 <= i < |args| ==> args[i] == Some(r.value.args[i]))
              && r.value.index == NoIndex
              && r.value.prim.None?
  {
    if functor.None? || (functor.value == "" && |args| > 0) then Err(InvalidTerm)
    else
      var present :- PresentArgs(args);
      Ok(MakeStruct(functor.value, present, id))
  }

  // ---------------------------------------------------------------------------
  // Prolog lists
  // ---------------------------------------------------------------------------

  predicate IsEmptyList(t: Term) {
    t.Struct? && t.name == EmptyListFunctor && |t.args| == 0
  }

  predicate IsList(t: Term) {
    match t
    case Struct(_, name, args, _, _, _) => (name == ListFunctor && |args| == 2 && IsList(args[1])) || IsEmptyList(t)
    case _ => false
  }

  predicate IsAtom(t: Term) {
    t.Struct? && (|t.args| == 0 || IsEmptyList(t))
  }

  /** The elements of a proper list, in order. */
  function ListElements(t: Term): (xs: seq<Term>)
    requires IsList(t)
  {
    if IsEmptyList(t) then [] else [t.args[0]] + ListElements(t.args[1])
  }

  /** `createPList(List)`: right-nested list cells ending in `[]`; cell `i` is
      allocated as `id + i` and the closing empty list as `id + |xs|`. */
  function CreatePList(xs: seq<Term>, id: nat): (r: Term)
    ensures IsList(r)
    ensures IsEmptyList(r) <==> |xs| == 0
  {
    if |xs| == 0 then EmptyList(id) else Cons(xs[0], CreatePList(xs[1..], id + 1), id)
  }

  /** Reading back a built list gives the original elements, in order. */
  lemma {:induction false} CreatePListRoundTrip(xs: seq<Term>, id: nat)
    ensures ListElements(CreatePList(xs, id)) == xs
  {
    if |xs| > 0 {
      CreatePListRoundTrip(xs[1..], id + 1);
    }
  }

  /** Rebuilding a proper list from its elements gives an equal list. */
  lemma {:induction false} CreatePListOfElements(t: Term, id: nat)
    requires IsList(t)
    ensures JavaEquals(CreatePList(ListElements(t), id), t)
  {
    if !IsEmptyList(t) {
      CreatePListOfElements(t.args[1], id + 1);
      JavaEqualsReflexive(t.args[0]);
      assert ListElements(t)[1..] == ListElements(t.args[1]);
    }
  }

  /** `javaListFromPList`: walks a list cell by cell, checking at every cell
      that the rest is still a Prolog list. */
  method JavaListFromPList(t: Term) returns (r: Result<seq<Term>>)
    requires t.Struct?
    ensures IsList(t) ==> r == Ok(ListElements(t))
    ensures !IsList(t) ==> r == Err(UnsupportedOperation)
  {
    var running := t;
    var acc: seq<Term> := [];
    while !IsEmptyList(running)
      invariant IsList(t) ==> IsList(running) && ListElements(t) == acc + ListElements(running)
      invariant !IsList(t) ==> running == t && acc == []
      decreases running
    {
      if !IsList(running) {
        return Err(UnsupportedOperation);
      }
      acc := acc + [running.args[0]];
      running := running.args[1];
    }
    assert IsList(running) && ListElements(running) == [];
    assert IsList(t);
    assert acc == ListElements(t);
    return Ok(acc);
  }

  /** `getLHS`: the first argument of a binary structure. */
  function Lhs(t: Term): (r: Result<Term>)
    requires t.Struct?
    ensures r.Ok? <==> |t.args| == 2
    ensures r.Err? ==> r.error == IllegalArgument
  {
    if |t.args| != 2 then Err(IllegalArgument) else Ok(t.args[0])
  }

  /** `getRHS`: the second argument of a binary structure. */
  function Rhs(t: Term): (r: Result<Term>)
    requires t.Struct?
    ensures r.Ok? <==> |t.args| == 2
    ensures r.Err? ==> r.error == IllegalArgument
  {
    if |t.args| != 2 then Err(IllegalArgument) else Ok(t.args[1])
  }

  /** A list cell splits back into the head and tail it was built from, and
      the empty list has neither. */
  lemma ListCellParts(head: Term, tail: Term, id: nat)
    ensures Lhs(Cons(head, tail, id)) == Ok(head)
    ensures Rhs(Cons(head, tail, id)) == Ok(tail)
    ensures Lhs(EmptyList(id)) == Err(IllegalArgument)
    ensures Rhs(EmptyList(id)) == Err(IllegalArgument)
  {
  }

  /** The `Struct(String, Collection)` constructor, which checks nothing. */
  function StructOf(name: string, elements: seq<Term>, id: nat): (r: Term)
    ensures r.Struct? && r.name == name && r.args == elements
  {
    MakeStruct(name, elements, id)
  }

  /** `predicateFromPList`: `[f, a1, ..., an]` becomes `f(a1, ..., an)`; no
      structure when the head is not an atom. */
  function PredicateFromPList(t: Term, id: nat): (r: Result<Option<Term>>)
    requires t.Struct?
    ensures r.Err? <==> !IsList(t) || IsEmptyList(t)
    ensures !IsList(t) ==> r == Err(UnsupportedOperation)
    ensures IsEmptyList(t) ==> r == Err(IllegalArgument)
    ensures r.Ok? ==> (r.value.Some? <==> IsAtom(ListElements(t)[0]))
  {
    if !IsList(t) then Err(UnsupportedOperation)
    else if |t.args| != 2 then Err(IllegalArgument)
    else if !IsAtom(t.args[0]) then Ok(None)
    else Ok(Some(StructOf(t.args[0].name, ListElements(t.args[1]), id)))
  }

  /** `=..` in reverse: a list headed by an atom gives the structure with that
      atom's name and the remaining elements as arguments. */
  lemma PredicateFromCreatedPList(f: Term, xs: seq<Term>, id: nat, id': nat)
    requires IsAtom(f)
    ensures PredicateFromPList(CreatePList([f] + xs, id), id') == Ok(Some(StructOf(f.name, xs, id')))
  {
    CreatePListRoundTrip([f] + xs, id);
    assert ([f] + xs)[1..] == xs;
    CreatePListRoundTrip(xs, id + 1);
  }

  /** `append`, modelled functionally: the list with `x` added at the end.
      The first empty list met is turned into a cell in place (it keeps its
      reference) and a new empty list `id` closes the result. The source's
      third branch, for a tail that is not a list, cannot be reached once the
      whole term has been checked to be a list. */
  function Append(l: Term, x: Term, id: nat): (r: Result<Term>)
    requires l.Struct?
    ensures r.Ok? <==> IsList(l)
    ensures r.Err? ==> r.error == UnsupportedOperation
    ensures r.Ok? ==> IsList(r.value) && ListElements(r.value) == ListElements(l) + [x]
    ensures r.Ok? ==> r.value.id == l.id
  {
    if !IsList(l) then Err(UnsupportedOperation)
    else if IsEmptyList(l) then Ok(l.(name := ListFunctor, args := [x, EmptyList(id)]))
    else
      assert IsList(l.args[1]);
      Ok(l.(args := [l.args[0], Append(l.args[1], x, id).value]))
  }

  // ---------------------------------------------------------------------------
  // Signatures
  // ---------------------------------------------------------------------------

  /** `getPredicateIndicator`: name, '/', arity. */
  function PredicateIndicator(t: Term): string
    requires t.Struct?
  {
    t.name + "/" + Text.NatToString(|t.args|)
  }

  /** The signature a variable-arity primitive is registered under. */
  function VarargsIndicator(t: Term): string
    requires t.Struct?
  {
    t.name + VarargsTrailer
  }

  /** Two structures share an indicator exactly when they share name and arity,
      even when names contain '/'. */
  lemma PredicateIndicatorInjective(a: Term, b: Term)
    requires a.Struct? && b.Struct?
    ensures PredicateIndicator(a) == PredicateIndicator(b) <==> a.name == b.name && |a.args| == |b.args|
  {
    if PredicateIndicator(a) == PredicateIndicator(b) {
      var da, db := Text.NatToString(|a.args|), Text.NatToString(|b.args|);
      SlashSplitUnique(a.name, da, b.name, db);
      Text.NatToStringRoundTrip(|a.args|);
      Text.NatToStringRoundTrip(|b.args|);
    }
  }

  /** A string ending in a slash-free part splits at its last '/' only. */
  lemma SlashSplitUnique(p1: string, d1: string, p2: string, d2: string)
    requires Text.AllDigits(d1) && Text.AllDigits(d2)
    requires p1 + "/" + d1 == p2 + "/" + d2
    ensures p1 == p2 && d1 == d2
  {
    var s := p1 + "/" + d1;
    NoSlashAfter(p1, d1);
    NoSlashAfter(p2, d2);
    assert s[|p1|] == '/' && s[|p2|] == '/';
    assert p1 == s[..|p1|] == p2;
    assert d1 == s[|p1| + 1..] == d2;
  }

  lemma NoSlashAfter(p: string, d: string)
    requires Text.AllDigits(d)
    ensures forall k :: |p| < k < |p + "/" + d| ==> (p + "/" + d)[k] != '/'
  {
    forall k | |p| < k < |p + "/" + d| ensures (p + "/" + d)[k] != '/' {
      assert (p + "/" + d)[k] == d[k - |p| - 1];
    }
  }

  /** A variable-arity signature never collides with an exact one. */
  lemma VarargsNeverExact(a: Term, b: Term)
    requires a.Struct? && b.Struct?
    ensures VarargsIndicator(a) != PredicateIndicator(b)
  {
    var d := Text.NatToString(|b.args|);
    var exact := PredicateIndicator(b);
    assert exact[|exact| - 1] == d[|d| - 1];
  }

  // ---------------------------------------------------------------------------
  // Equalities
  // ---------------------------------------------------------------------------

  /** `equals`: structures by name, arity and arguments, variables by name,
      numbers by value; references and indexes do not matter. */
  predicate JavaEquals(a: Term, b: Term) {
    match a
    case Struct(_, name, args, _, _, _) =>
      && b.Struct? && b.name == name && |b.args| == |args|
      && forall i :: 0 <= i < |args| ==> JavaEquals(args[i], b.args[i])
    case Var(_, name, _) => b.Var? && b.name == name
    case Long(v) => b.Long? && b.value == v
  }

  lemma {:induction false} JavaEqualsReflexive(t: Term)
    ensures JavaEquals(t, t)
  {
    if t.Struct? {
      forall i | 0 <= i < |t.args| ensures JavaEquals(t.args[i], t.args[i]) {
        JavaEqualsReflexive(t.args[i]);
      }
    }
  }

  lemma {:induction false} JavaEqualsSymmetric(a: Term, b: Term)
    requires JavaEquals(a, b)
    ensures JavaEquals(b, a)
  {
    if a.Struct? {
      forall i | 0 <= i < |b.args| ensures JavaEquals(b.args[i], a.args[i]) {
        JavaEqualsSymmetric(a.args[i], b.args[i]);
      }
    }
  }

  lemma {:induction false} JavaEqualsTransitive(a: Term, b: Term, c: Term)
    requires JavaEquals(a, b) && JavaEquals(b, c)
    ensures JavaEquals(a, c)
  {
    if a.Struct? {
      forall i | 0 <= i < |a.args| ensures JavaEquals(a.args[i], c.args[i]) {
        JavaEqualsTransitive(a.args[i], b.args[i], c.args[i]);
      }
    }
  }

  /** `staticallyEquals`, with `a` as the receiver: the same reference, or for
      structures the same name and arity with statically equal arguments.
      Distinct variables are never statically equal, whatever their names. */
  predicate StaticallyEquals(a: Term, b: Term) {
    match a
    case Struct(_, name, args, _, _, _) =>
      || SameRef(a, b)
      || (&& b.Struct? && b.name == name && |b.args| == |args|
          && forall i :: 0 <= i < |args| ==> StaticallyEquals(args[i], b.args[i]))
    case Var(_, _, _) => SameRef(a, b)
    case Long(v) => b.Long? && b.value == v
  }

  lemma {:induction false} StaticallyEqualsSymmetric(a: Term, b: Term)
    requires StaticallyEquals(a, b)
    ensures StaticallyEquals(b, a)
  {
    if a.Struct? && !SameRef(a, b) {
      forall i | 0 <= i < |b.args| ensures StaticallyEquals(b.args[i], a.args[i]) {
        StaticallyEqualsSymmetric(a.args[i], b.args[i]);
      }
    }
  }

  /** Variables are the only terms whose equalities disagree: two variables of
      one name are `equals` but not statically equal unless one reference. */
  lemma VarEqualitiesDiffer(name: string, id1: nat, id2: nat)
    requires id1 != id2
    ensures JavaEquals(NewVar(name, id1), NewVar(name, id2))
    ensures !StaticallyEquals(NewVar(name, id1), NewVar(name, id2))
  {
  }

  // ---------------------------------------------------------------------------
  // Sub-terms, variable lookup and cloning
  // ---------------------------------------------------------------------------

  /** `x` occurs in `t` (`t` itself included). */
  ghost predicate Occurs(x: Term, t: Term) {
    x == t || (t.Struct? && exists i :: 0 <= i < |t.args| && Occurs(x, t.args[i]))
  }

  ghost predicate OccursIn(x: Term, ts: seq<Term>) {
    exists i :: 0 <= i < |ts| && Occurs(x, ts[i])
  }

  ghost predicate HasVarNamed(t: Term, name: string) {
    exists v :: Occurs(v, t) && v.Var? && v.name == name
  }

  ghost predicate HasVar(t: Term) {
    exists v :: Occurs(v, t) && v.Var?
  }

  /** `findVar`: the first variable of that name in a depth-first, left-to-right
      walk. Asking for `_` is an error as soon as the walk meets any variable. */
  function FindVar(t: Term, name: string): (r: Result<Option<Term>>)
    ensures r.Ok? && r.value.Some? ==> r.value.value.Var? && r.value.value.name == name && Occurs(r.value.value, t)
    ensures name != AnonymousName ==> r.Ok? && (r.value.None? <==> !HasVarNamed(t, name))
    ensures name == AnonymousName ==> (r.Err? <==> HasVar(t)) && (r.Ok? ==> r.value.None?)
    ensures r.Err? ==> r.error == IllegalArgument
    decreases t, 1
  {
    match t
    case Var(_, n, _) =>
      assert Occurs(t, t);
      if name == AnonymousName then Err(IllegalArgument)
      else if name == n then Ok(Some(t))
      else
        assert forall v :: Occurs(v, t) ==> v == t;
        Ok(None)
    case Long(_) =>
      assert forall v :: Occurs(v, t) ==> v == t;
      Ok(None)
    case Struct(_, _, args, _, _, _) =>
      var r := FindVarIn(args, name);
      assert forall v :: Occurs(v, t) && v.Var? ==> OccursIn(v, args);
      r
  }

  function FindVarIn(ts: seq<Term>, name: string): (r: Result<Option<Term>>)
    ensures r.Ok? && r.value.Some? ==> r.value.value.Var? && r.value.value.name == name && OccursIn(r.value.value, ts)
    ensures name != AnonymousName ==> r.Ok? && (r.value.None? <==> forall i :: 0 <= i < |ts| ==> !HasVarNamed(ts[i], name))
    ensures name == AnonymousName ==> (r.Err? <==> exists i :: 0 <= i < |ts| && HasVar(ts[i])) && (r.Ok? ==> r.value.None?)
    ensures r.Err? ==> r.error == IllegalArgument
    decreases ts, 0
  {
    if |ts| == 0 then Ok(None)
    else
      var found :- FindVar(ts[0], name);
      if found.Some? then Ok(found)
      else
        var r := FindVarIn(ts[1..], name);
        assert forall i :: 1 <= i < |ts| ==> ts[i] == ts[1..][i - 1];
        assert r.Ok? && r.value.Some? ==> OccursIn(r.value.value, ts) by {
          if r.Ok? && r.value.Some? {
            var i :| 0 <= i < |ts[1..]| && Occurs(r.value.value, ts[1..][i]);
            assert Occurs(r.value.value, ts[i + 1]);
          }
        }
        r
  }

  /** `x` and `y` are copies: equal in every field except their references. */
  ghost predicate Copy(x: Term, y: Term) {
    match x
    case Struct(_, name, args, cls, prim, index) =>
      && y.Struct? && y.name == name && y.cls == cls && y.prim == prim && y.index == index
      && |y.args| == |args| && forall i :: 0 <= i < |args| ==> Copy(args[i], y.args[i])
    case Var(_, name, index) => y.Var? && y.name == name && y.index == index
    case Long(v) => y == x
  }

  /** Every reference in `t` lies in `[lo, hi)`. */
  ghost predicate IdsWithin(t: Term, lo: nat, hi: nat) {
    match t
    case Struct(id, _, args, _, _, _) => lo <= id < hi && forall i :: 0 <= i < |args| ==> IdsWithin(args[i], lo, hi)
    case Var(id, _, _) => lo <= id < hi
    case Long(_) => true
  }

  lemma {:induction false} IdsWithinWiden(t: Term, lo: nat, hi: nat, lo': nat, hi': nat)
    requires IdsWithin(t, lo, hi) && lo' <= lo && hi <= hi'
    ensures IdsWithin(t, lo', hi')
  {
    if t.Struct? {
      forall i | 0 <= i < |t.args| ensures IdsWithin(t.args[i], lo', hi') {
        IdsWithinWiden(t.args[i], lo, hi, lo', hi');
      }
    }
  }

  /** `cloneIt`: a deep copy whose structures and variables are new objects,
      allocated from `start` upwards; `next` is the first unused reference. The
      clone failure the source wraps into an InvalidTermException cannot occur
      for terms, which are all cloneable. */
  function CloneIt(t: Term, start: nat): (r: (Term, nat))
    ensures Copy(t, r.0)
    ensures start <= r.1 && IdsWithin(r.0, start, r.1)
    decreases t, 1
  {
    match t
    case Struct(_, _, args, _, _, _) =>
      var (clones, next) := CloneArgs(args, start + 1);
      IdsWithinWidenAll(clones, start + 1, next, start, next);
      (Struct(start, t.name, clones, t.cls, t.prim, t.index), next)
    case Var(_, name, index) => (Var(start, name, index), start + 1)
    case Long(_) => (t, start)
  }

  function CloneArgs(ts: seq<Term>, start: nat): (r: (seq<Term>, nat))
    ensures |r.0| == |ts| && start <= r.1
    ensures forall i :: 0 <= i < |ts| ==> Copy(ts[i], r.0[i]) && IdsWithin(r.0[i], start, r.1)
    decreases ts, 0
  {
    if |ts| == 0 then ([], start)
    else
      var (first, mid) := CloneIt(ts[0], start);
      var (rest, next) := CloneArgs(ts[1..], mid);
      IdsWithinWiden(first, start, mid, start, next);
      IdsWithinWidenAll(rest, mid, next, start, next);
      ([first] + rest, next)
  }

  lemma IdsWithinWidenAll(ts: seq<Term>, lo: nat, hi: nat, lo': nat, hi': nat)
    requires forall i :: 0 <= i < |ts| ==> IdsWithin(ts[i], lo, hi)
    requires lo' <= lo && hi <= hi'
    ensures forall i :: 0 <= i < |ts| ==> IdsWithin(ts[i], lo', hi')
  {
    forall i | 0 <= i < |ts| ensures IdsWithin(ts[i], lo', hi') {
      IdsWithinWiden(ts[i], lo, hi, lo', hi');
    }
  }

  /** A copy is `equals` to the original. */
  lemma {:induction false} CopyJavaEquals(x: Term, y: Term)
    requires Copy(x, y)
    ensures JavaEquals(x, y)
  {
    if x.Struct? {
      forall i | 0 <= i < |x.args| ensures JavaEquals(x.args[i], y.args[i]) {
        CopyJavaEquals(x.args[i], y.args[i]);
      }
    }
  }
}

=== FILE: text.dfy ===
/** Decimal rendering and parsing of integers, as Java's `String.valueOf(long)`
    and `Integer.parseInt` do it, restricted to ASCII digits. */
module Text {
  import opened Results

  const MinInt: int := -0x8000_0000
  const MaxInt: int := 0x7FFF_FFFF

  predicate IsDigit(c: char) { '0' <= c <= '9' }

  predicate AllDigits(s: string) {
    forall i :: 0 <= i < |s| ==> IsDigit(s[i])
  }

  function DigitChar(d: nat): (c: char)
    requires d < 10
    ensures IsDigit(c)
  {
    ['0', '1', '2', '3', '4', '5', '6', '7', '8', '9'][d]
  }

  function DigitValue(c: char): (d: nat)
    requires IsDigit(c)
    ensures d < 10 && DigitChar(d) == c
  {
    (c as int - '0' as int) as nat
  }

  /** Decimal text of a natural number, without leading zeros. */
  function NatToString(n: nat): (s: string)
    ensures |s| > 0 && AllDigits(s)
    ensures |s| > 1 ==> s[0] != '0'
  {
    if n < 10 then [DigitChar(n)] else NatToString(n / 10) + [DigitChar(n % 10)]
  }

  /** Decimal text of an integer, with a leading '-' when negative. */
  function IntToString(i: int): (s: string)
    ensures |s| > 0
    ensures i < 0 <==> s[0] == '-'
  {
    if i < 0 then "-" + NatToString(-i) else NatToString(i)
  }

  /** The value of a non-empty run of digits, most significant first. */
  function DigitsValue(s: string): (n: nat)
    requires AllDigits(s)
  {
    if |s| == 0 then 0 else 10 * DigitsValue(s[..|s| - 1]) + DigitValue(s[|s| - 1])
  }

  /** Reading back the decimal text of a number gives the number. */
  lemma {:induction false} NatToStringRoundTrip(n: nat)
    ensures DigitsValue(NatToString(n)) == n
  {
    if n >= 10 {
      var s := NatToString(n);
      assert s[..|s| - 1] == NatToString(n / 10);
      NatToStringRoundTrip(n / 10);
    }
  }

  /** `Integer.parseInt`: an optional sign followed by at least one digit,
      whose value fits a Java `int`. */
  function ParseInt(s: string): (r: Result<int>)
    ensures r.Ok? ==> MinInt <= r.value <= MaxInt
    ensures r.Err? ==> r.error == NumberFormat
    ensures |s| == 0 ==> r.Err?
    ensures AllDigits(s) && |s| > 0 && DigitsValue(s) <= MaxInt ==> r == Ok(DigitsValue(s))
  {
    if |s| == 0 then Err(NumberFormat)
    else
      var digits := if s[0] == '-' || s[0] == '+' then s[1..] else s;
      if |digits| == 0 || !AllDigits(digits) then Err(NumberFormat)
      else
        var v: int := if s[0] == '-' then 0 - (DigitsValue(digits) as int) else DigitsValue(digits);
        if v < MinInt || v > MaxInt then Err(NumberFormat) else Ok(v)
  }

  /** A sign followed by digits: `-` negates the value, `+` keeps it, and
      either is an error once the value leaves the `int` range. */
  lemma ParseSigned(s: string)
    requires |s| > 1 && AllDigits(s[1..])
    ensures s[0] == '-' ==>
              ParseInt(s) == if DigitsValue(s[1..]) <= -MinInt then Ok(0 - DigitsValue(s[1..])) else Err(NumberFormat)
    ensures s[0] == '+' ==>
              ParseInt(s) == if DigitsValue(s[1..]) <= MaxInt then Ok(DigitsValue(s[1..])) else Err(NumberFormat)
  {
  }

  /** Reading back the decimal text of any `int` gives the number. */
  lemma ParseIntRoundTrip(i: int)
    requires MinInt <= i <= MaxInt
    ensures ParseInt(IntToString(i)) == Ok(i)
  {
    if i < 0 {
      ParseNegative(NatToString(-i), -i);
    } else {
      ParseNonNegative(NatToString(i), i);
    }
  }

  lemma ParseNegative(d: string, n: nat)
    requires 0 < n <= -MinInt && d == NatToString(n)
    ensures ParseInt("-" + d) == Ok(0 - n)
  {
    var s := "-" + d;
    assert s[0] == '-' && s[1..] == d;
    NatToStringRoundTrip(n);
  }

  lemma ParseNonNegative(d: string, n: nat)
    requires n <= MaxInt && d == NatToString(n)
    ensures ParseInt(d) == Ok(n)
  {
    NatToStringRoundTrip(n);
    assert IsDigit(d[0]);
  }

  /** `String.indexOf(char)`: the first position of `c`, or -1. */
  function IndexOf(s: string, c: char): (r: int)
    ensures -1 <= r < |s|
    ensures r == -1 <==> c !in s
    ensures r >= 0 ==> s[r] == c && c !in s[..r]
  {
    if |s| == 0 then -1
    else if s[0] == c then 0
    else
      var k := IndexOf(s[1..], c);
      assert s == [s[0]] + s[1..];
      if k == -1 then -1
      else
        assert s[..k + 1] == [s[0]] + s[1..][..k];
        k + 1
  }
}

=== FILE: unifier.dfy ===
/** `DefaultUnifier`: the reference unification of two terms, each read in
    its own binding frame, over the binding store and its trail.  There is no
    occurs check, so bindings may become cyclic; recursion deeper than `fuel`
    is reported as `StackExhausted`, as the Java stack would overflow. */
module Unification {
  import opened Results
  import opened Terms
  import opened Bindings

  /** `unifyInternal`.  It may leave bindings behind when it answers false;
      `Unify` undoes them. */
  function UnifyInternal(t1: Term, f1: nat, t2: Term, f2: nat, st: Store, fuel: nat): (r: Result<(bool, Store)>)
    decreases fuel, 0, 0
  {
    if fuel == 0 then Err(StackExhausted)
    else if t2.Var? && !t1.Var? then UnifyInternal(t2, f2, t1, f1, st, fuel - 1)
    else if t1.Var? then
      if IsAnonymous(t1) then Ok((true, st))
      else
        var s :- BindingWithin(t1, f1, st);
        var e :- FollowLinks(st, s, fuel);
        var b := Get(st, e);
        if b.Free? then
          if IsAnonymous(t2) then Ok((true, st))
          else
            var (changed, st') :- BindTo(st, e, t2, f2, fuel);
            Ok((true, if changed then AddBinding(st', e) else st'))
        else
          UnifyInternal(t2, f2, b.term, b.frame, st, fuel - 1)
    else if t1.Long? then Ok((t2.Long? && t1.value == t2.value, st))
    else if !t2.Struct? then Ok((false, st))
    else if t1.name != t2.name || |t1.args| != |t2.args| then Ok((false, st))
    else if t1.cls != t2.cls then Ok((false, st))
    else UnifyArgs(t1.args, f1, t2.args, f2, 0, st, fuel - 1)
  }

  /** The argument loop: left to right, stopping at the first failure. */
  function UnifyArgs(a1: seq<Term>, f1: nat, a2: seq<Term>, f2: nat, i: nat, st: Store, fuel: nat): (r: Result<(bool, Store)>)
    requires |a1| == |a2| && i <= |a1|
    decreases fuel, 1, |a1| - i
  {
    if i == |a1| then Ok((true, st))
    else
      var (ok, st') :- UnifyInternal(a1[i], f1, a2[i], f2, st, fuel);
      if !ok then Ok((false, st')) else UnifyArgs(a1, f1, a2, f2, i + 1, st', fuel)
  }

  /** `deunify`: undo to the mark of the latest unification. */
  function Deunify(st: Store): (r: Result<Store>)
    ensures r.Err? <==> st.marks == []
  {
    UndoToMark(st)
  }

  /** `unify`: mark the trail, attempt the unification, and undo to the mark
      when it fails.  A failure leaves the store exactly as it was; after a
      success, `deunify` gives the store back exactly as it was. */
  function Unify(t1: Term, f1: nat, t2: Term, f2: nat, st: Store, fuel: nat): (r: Result<(bool, Store)>)
    ensures r.Ok? && !r.value.0 ==> r.value.1 == st
    ensures r.Ok? && r.value.0 ==> Deunify(r.value.1) == Ok(st)
    ensures r.Ok? ==> SameShape(st, r.value.1)
  {
    var marked := Mark(st);
    UnifyTracked(t1, f1, t2, f2, marked, fuel);
    var (ok, st') :- UnifyInternal(t1, f1, t2, f2, marked, fuel);
    UndoRestores(st, st');
    if ok then Ok((true, st')) else Ok((false, Deunify(st').value))
  }

  // ---------------------------------------------------------------------------
  // The trail keeps track of every change
  // ---------------------------------------------------------------------------

  /** Every binding `unifyInternal` changes was free and is trailed. */
  lemma {:induction false} UnifyTracked(t1: Term, f1: nat, t2: Term, f2: nat, st: Store, fuel: nat)
    ensures UnifyInternal(t1, f1, t2, f2, st, fuel).Ok? ==> Tracked(st, UnifyInternal(t1, f1, t2, f2, st, fuel).value.1)
    decreases fuel, 0, 0
  {
    TrackedReflexive(st);
    if fuel == 0 {
    } else if t2.Var? && !t1.Var? {
      UnifyTracked(t2, f2, t1, f1, st, fuel - 1);
    } else if t1.Var? && !IsAnonymous(t1) && BindingWithin(t1, f1, st).Ok? {
      var s := BindingWithin(t1, f1, st).value;
      if FollowLinks(st, s, fuel).Ok? {
        var e := FollowLinks(st, s, fuel).value;
        var b := Get(st, e);
        if b.Free? {
          if !IsAnonymous(t2) && BindTo(st, e, t2, f2, fuel).Ok? {
            BindTracked(st, e, t2, f2, fuel);
          }
        } else {
          UnifyTracked(t2, f2, b.term, b.frame, st, fuel - 1);
        }
      }
    } else if t1.Struct? && t2.Struct? && t1.name == t2.name && |t1.args| == |t2.args| && t1.cls == t2.cls {
      UnifyArgsTracked(t1.args, f1, t2.args, f2, 0, st, fuel - 1);
    }
  }

  lemma {:induction false} UnifyArgsTracked(a1: seq<Term>, f1: nat, a2: seq<Term>, f2: nat, i: nat, st: Store, fuel: nat)
    requires |a1| == |a2| && i <= |a1|
    ensures UnifyArgs(a1, f1, a2, f2, i, st, fuel).Ok? ==> Tracked(st, UnifyArgs(a1, f1, a2, f2, i, st, fuel).value.1)
    decreases fuel, 1, |a1| - i
  {
    TrackedReflexive(st);
    if i < |a1| {
      UnifyTracked(a1[i], f1, a2[i], f2, st, fuel);
      var r := UnifyInternal(a1[i], f1, a2[i], f2, st, fuel);
      if r.Ok? && r.value.0 {
        UnifyArgsTracked(a1, f1, a2, f2, i + 1, r.value.1, fuel);
        if UnifyArgs(a1, f1, a2, f2, i + 1, r.value.1, fuel).Ok? {
          TrackedTransitive(st, r.value.1, UnifyArgs(a1, f1, a2, f2, i + 1, r.value.1, fuel).value.1);
        }
      }
    }
  }

  // ---------------------------------------------------------------------------
  // The cases of unification
  // ---------------------------------------------------------------------------

  /** A term on the right-hand side that is a variable, facing one that is
      not, is unified with the two swapped. */
  lemma UnifySwap(t1: Term, f1: nat, t2: Term, f2: nat, st: Store, fuel: nat)
    requires t2.Var? && !t1.Var? && fuel > 0
    ensures UnifyInternal(t1, f1, t2, f2, st, fuel) == UnifyInternal(t2, f2, t1, f1, st, fuel - 1)
  {
  }

  /** The anonymous variable on the left unifies with anything and binds nothing. */
  lemma UnifyAnonymousFirst(t1: Term, f1: nat, t2: Term, f2: nat, st: Store, fuel: nat)
    requires IsAnonymous(t1) && fuel > 0
    ensures UnifyInternal(t1, f1, t2, f2, st, fuel) == Ok((true, st))
  {
  }

  /** Whatever faces the anonymous variable unifies with it, and nothing is bound. */
  lemma UnifyAnonymousSecond(t1: Term, f1: nat, t2: Term, f2: nat, st: Store, fuel: nat)
    requires IsAnonymous(t2) && UnifyInternal(t1, f1, t2, f2, st, fuel).Ok?
    ensures UnifyInternal(t1, f1, t2, f2, st, fuel) == Ok((true, st))
  {
    if !t1.Var? {
      UnifyAnonymousFirst(t2, f2, t1, f1, st, fuel - 1);
    } else if !IsAnonymous(t1) {
      var e := FollowLinks(st, BindingWithin(t1, f1, st).value, fuel).value;
      var b := Get(st, e);
      if b.Literal? {
        UnifyAnonymousFirst(t2, f2, b.term, b.frame, st, fuel - 1);
      }
    }
  }

  /** A variable whose chain ends free is bound to a non-variable term, read in
      the other frame, and that binding is trailed. */
  lemma UnifyFreeVar(t1: Term, f1: nat, t2: Term, f2: nat, st: Store, fuel: nat)
    requires t1.Var? && !IsAnonymous(t1) && !t2.Var? && fuel > 0
    requires BindingWithin(t1, f1, st).Ok? && FollowLinks(st, BindingWithin(t1, f1, st).value, fuel).Ok?
    requires Get(st, FollowLinks(st, BindingWithin(t1, f1, st).value, fuel).value).Free?
    ensures var e := FollowLinks(st, BindingWithin(t1, f1, st).value, fuel).value;
      UnifyInternal(t1, f1, t2, f2, st, fuel) == Ok((true, AddBinding(Set(st, e, Literal(t2, f2)), e)))
  {
  }

  /** A variable whose chain ends on a literal unifies as that literal, read
      in its own frame, against the other term. */
  lemma UnifyBoundVar(t1: Term, f1: nat, t2: Term, f2: nat, st: Store, fuel: nat)
    requires t1.Var? && !IsAnonymous(t1) && fuel > 0
    requires BindingWithin(t1, f1, st).Ok? && FollowLinks(st, BindingWithin(t1, f1, st).value, fuel).Ok?
    ensures var b := Get(st, FollowLinks(st, BindingWithin(t1, f1, st).value, fuel).value);
      b.Literal? ==> UnifyInternal(t1, f1, t2, f2, st, fuel) == UnifyInternal(t2, f2, b.term, b.frame, st, fuel - 1)
  {
  }

  // ---------------------------------------------------------------------------
  // Terms without variables
  // ---------------------------------------------------------------------------

  predicate Ground(t: Term) {
    match t
    case Var(_, _, _) => false
    case Long(_) => true
    case Struct(_, _, args, _, _, _) => forall a <- args :: Ground(a)
  }

  /** The nesting depth of a term; an atom or a number has height 1. */
  function Height(t: Term): (h: nat)
    ensures h >= 1
    ensures t.Struct? ==> forall a <- t.args :: Height(a) < h
  {
    match t
    case Struct(_, _, args, _, _, _) => 1 + MaxHeight(args)
    case _ => 1
  }

  function MaxHeight(ts: seq<Term>): (h: nat)
    ensures forall a <- ts :: Height(a) <= h
  {
    if ts == [] then 0
    else
      var h0 := Height(ts[0]);
      var h1 := MaxHeight(ts[1..]);
      assert forall a <- ts :: a == ts[0] || a in ts[1..];
      if h0 < h1 then h1 else h0
  }

  /** Herbrand equality of two terms without variables: equal numbers, or
      structures of the same name, arity and class whose arguments match. */
  predicate GroundMatch(t1: Term, t2: Term) {
    match t1
    case Long(v) => t2.Long? && t2.value == v
    case Var(_, _, _) => false
    case Struct(_, name, args, cls, _, _) =>
      && t2.Struct? && t2.name == name && |t2.args| == |args| && t2.cls == cls
      && forall i :: 0 <= i < |args| ==> GroundMatch(args[i], t2.args[i])
  }

  lemma {:induction false} GroundMatchSymmetric(t1: Term, t2: Term)
    ensures GroundMatch(t1, t2) == GroundMatch(t2, t1)
  {
    if t1.Struct? && t2.Struct? && |t1.args| == |t2.args| {
      forall i | 0 <= i < |t1.args| ensures GroundMatch(t1.args[i], t2.args[i]) == GroundMatch(t2.args[i], t1.args[i]) {
        GroundMatchSymmetric(t1.args[i], t2.args[i]);
      }
    }
  }

  /** On terms without variables, unification is Herbrand equality and binds
      nothing, whenever the fuel covers the left term's height. */
  lemma {:induction false} UnifyGround(t1: Term, f1: nat, t2: Term, f2: nat, st: Store, fuel: nat)
    requires Ground(t1) && Ground(t2) && fuel >= Height(t1)
    ensures UnifyInternal(t1, f1, t2, f2, st, fuel) == Ok((GroundMatch(t1, t2), st))
    decreases t1
  {
    if t1.Struct? && t2.Struct? && t1.name == t2.name && |t1.args| == |t2.args| && t1.cls == t2.cls {
      UnifyArgsGround(t1, t1.args, f1, t2.args, f2, 0, st, fuel - 1);
    }
  }

  lemma {:induction false} UnifyArgsGround(parent: Term, a1: seq<Term>, f1: nat, a2: seq<Term>, f2: nat, i: nat, st: Store, fuel: nat)
    requires parent.Struct? && a1 == parent.args
    requires |a1| == |a2| && i <= |a1| && (forall a <- a1 :: Ground(a) && Height(a) <= fuel) && forall a <- a2 :: Ground(a)
    ensures UnifyArgs(a1, f1, a2, f2, i, st, fuel) == Ok((forall j :: i <= j < |a1| ==> GroundMatch(a1[j], a2[j]), st))
    decreases parent, |a1| - i
  {
    if i < |a1| {
      assert a1[i] in a1 && a2[i] in a2;
      UnifyGround(a1[i], f1, a2[i], f2, st, fuel);
      UnifyArgsGround(parent, a1, f1, a2, f2, i + 1, st, fuel);
    }
  }

  /** Hence unification of terms without variables is symmetric. */
  lemma UnifyGroundSymmetric(t1: Term, f1: nat, t2: Term, f2: nat, st: Store, fuel: nat)
    requires Ground(t1) && Ground(t2) && fuel >= Height(t1) && fuel >= Height(t2)
    ensures Unify(t1, f1, t2, f2, st, fuel) == Unify(t2, f2, t1, f1, st, fuel)
    ensures Unify(t1, f1, t2, f2, st, fuel).Ok? && Unify(t1, f1, t2, f2, st, fuel).value.0 == GroundMatch(t1, t2)
  {
    UnifyGround(t1, f1, t2, f2, Mark(st), fuel);
    UnifyGround(t2, f2, t1, f1, Mark(st), fuel);
    GroundMatchSymmetric(t1, t2);
  }

  // ---------------------------------------------------------------------------
  // Unifying both ways
  // ---------------------------------------------------------------------------

  /** Against a term without variables, unifying the other way round gives
      the same answer and the same bindings, one level of recursion deeper
      for the swap of a variable to the left. */
  lemma {:induction false} UnifyAgainstGround(a: Term, fa: nat, g: Term, fg: nat, st: Store, fuel: nat)
    requires Ground(g) && UnifyInternal(a, fa, g, fg, st, fuel).Ok?
    ensures UnifyInternal(g, fg, a, fa, st, fuel + 1) == UnifyInternal(a, fa, g, fg, st, fuel)
    decreases fuel, 0
  {
    if a.Struct? && g.Struct? && a.name == g.name && |a.args| == |g.args| && a.cls == g.cls {
      UnifyArgsAgainstGround(a.args, fa, g.args, fg, 0, st, fuel - 1);
    }
  }

  lemma {:induction false} UnifyArgsAgainstGround(a1: seq<Term>, fa: nat, a2: seq<Term>, fg: nat, i: nat, st: Store, fuel: nat)
    requires |a1| == |a2| && i <= |a1| && forall g <- a2 :: Ground(g)
    requires UnifyArgs(a1, fa, a2, fg, i, st, fuel).Ok?
    ensures UnifyArgs(a2, fg, a1, fa, i, st, fuel + 1) == UnifyArgs(a1, fa, a2, fg, i, st, fuel)
    decreases fuel, 1, |a1| - i
  {
    if i < |a1| {
      assert a2[i] in a2;
      UnifyAgainstGround(a1[i], fa, a2[i], fg, st, fuel);
      var (ok, st') := UnifyInternal(a1[i], fa, a2[i], fg, st, fuel).value;
      if ok {
        UnifyArgsAgainstGround(a1, fa, a2, fg, i + 1, st', fuel);
      }
    }
  }

  /** The two-way property of `unify` when one side has no variables: the
      other side may hold variables, bound or free, in any store. */
  lemma UnifyTwoWaysGround(a: Term, fa: nat, g: Term, fg: nat, st: Store, fuel: nat)
    requires Ground(g) && Unify(a, fa, g, fg, st, fuel).Ok?
    ensures Unify(g, fg, a, fa, st, fuel + 1) == Unify(a, fa, g, fg, st, fuel)
  {
    UnifyAgainstGround(a, fa, g, fg, Mark(st), fuel);
  }

  /** Two variables whose chains end free unify both ways: each direction
      links one chain end to the other, or binds nothing when the ends are
      the same binding. */
  lemma UnifyFreeVarsTwoWays(x: Term, fx: nat, y: Term, fy: nat, st: Store, fuel: nat)
    requires x.Var? && !IsAnonymous(x) && y.Var? && !IsAnonymous(y) && fuel > 0
    requires BindingWithin(x, fx, st).Ok? && FollowLinks(st, BindingWithin(x, fx, st).value, fuel).Ok?
    requires BindingWithin(y, fy, st).Ok? && FollowLinks(st, BindingWithin(y, fy, st).value, fuel).Ok?
    requires Get(st, FollowLinks(st, BindingWithin(x, fx, st).value, fuel).value).Free?
    requires Get(st, FollowLinks(st, BindingWithin(y, fy, st).value, fuel).value).Free?
    ensures Unify(x, fx, y, fy, st, fuel).Ok? && Unify(x, fx, y, fy, st, fuel).value.0
    ensures Unify(y, fy, x, fx, st, fuel).Ok? && Unify(y, fy, x, fx, st, fuel).value.0
  {
    FreeVarToVar(x, fx, y, fy, st, fuel);
    FreeVarToVar(y, fy, x, fx, st, fuel);
  }

  lemma FreeVarToVar(x: Term, fx: nat, y: Term, fy: nat, st: Store, fuel: nat)
    requires x.Var? && !IsAnonymous(x) && y.Var? && !IsAnonymous(y) && fuel > 0
    requires BindingWithin(x, fx, st).Ok? && FollowLinks(st, BindingWithin(x, fx, st).value, fuel).Ok?
    requires BindingWithin(y, fy, st).Ok? && FollowLinks(st, BindingWithin(y, fy, st).value, fuel).Ok?
    requires Get(st, FollowLinks(st, BindingWithin(x, fx, st).value, fuel).value).Free?
    ensures Unify(x, fx, y, fy, st, fuel).Ok? && Unify(x, fx, y, fy, st, fuel).value.0
  {
    var m := Mark(st);
    var sx := BindingWithin(x, fx, st).value;
    var sy := BindingWithin(y, fy, st).value;
    assert BindingWithin(x, fx, m) == Ok(sx);
    assert BindingWithin(y, fy, m) == Ok(sy);
    FollowLinksMarked(st, sx, fuel);
    FollowLinksMarked(st, sy, fuel);
    var e := FollowLinks(m, sx, fuel).value;
    assert Get(m, e).Free?;
    assert BindTo(m, e, y, fy, fuel).Ok?;
    assert UnifyInternal(x, fx, y, fy, m, fuel).Ok? && UnifyInternal(x, fx, y, fy, m, fuel).value.0;
  }

  lemma {:induction false} FollowLinksMarked(st: Store, s: Slot, fuel: nat)
    requires ValidSlot(st, s)
    ensures FollowLinks(Mark(st), s, fuel) == FollowLinks(st, s, fuel)
    decreases fuel
  {
    if Get(st, s).Link? && fuel > 0 && ValidSlot(st, Get(st, s).target) {
      FollowLinksMarked(st, Get(st, s).target, fuel - 1);
    }
  }
}
